=== FILE: README.md ===
# DAG scheduler, shared context and orchestrator, in Dafny

A model of the three core files of the meta-agent:

- **`meta_agent/dag_scheduler.py`**: the DAG task scheduler.
  - `add_task` records a task and one dependency edge per entry of its `depends_on` list.
  - `_validate_dag` is the depth-first cycle check.
  - `_topological_levels` is Kahn's algorithm by rounds.
  - `_execute_task` runs one attempt, with timeout, retry counting and exponential backoff with jitter (`_calculate_backoff`).
  - `run` processes the levels: it skips the tasks with a failed dependency, executes the rest, records failures, and stops early in fail-fast mode.
  - `_create_summary` counts the tasks by status.
- **`meta_agent/context_manager.py`**: `MCPContext`, the shared key/value map with an append-only event log. `add_artifact` writes to both, and `save` serialises a snapshot.
- **`meta_agent/orchestrator.py`**: the static four-task `plan`, and `run`, which splits the plan into three levels by fixed filters and runs them one after another, logging a `task_complete` event per task.

The modules follow the source:

| module | models |
|---|---|
| `Wrappers` | `Option` and `Result` |
| `Collections` | sequence and set facts |
| `DagTasks` | task record, scheduler state, `add_task`, cycle definition |
| `CycleCheck` | `_validate_dag` |
| `TopoLevels` | `_topological_levels` |
| `TaskExecution` | `_execute_task`, `_calculate_backoff` |
| `SchedulerRun` | `run`, `_create_summary` |
| `ContextStore` | `MCPContext` |
| `Orchestrator` | `plan` and `run` |
| `Scenarios` | the repository's scheduler tests, restated |
| `Findings` | the defects below, as written and corrected |

The model follows the code:

- **Task callables and the clock.** What a task's callable does becomes a parameter: `Env.behave(id)(n)` is the behaviour of attempt `n`. It either returns after some duration or raises. The clock reading used for the jitter is a parameter too (`Env.clock`).
- **Cycles.** A cycle is a closed walk through registered tasks along dependency edges. `_validate_dag` answers `True` exactly when there is none (`CycleCheck.ValidateDagCorrect`).
- **Levels.** The following holds when no dependents list holds an id twice (`DagTasks.SimpleEdges`), which is the case when no id is registered twice and no dependency list repeats an entry. Then each level of `_topological_levels` holds exactly the tasks whose dependencies all sit in earlier levels and not all in the levels before the previous one (`TopoLevels.TopologicalLevelsExact`). Every task is placed exactly when the graph is acyclic and every dependency a task names is registered (`TopoLevels.SchedulesAllIffAcyclic`). A repeated entry or a repeated registration breaks both statements: a task can then share a level with its dependency, or be placed despite a cycle or an unregistered dependency. The third finding below shows how. Some task is placed exactly when some task has no dependency (`TopoLevels.LevelsNonEmptyIffRoot`).
- **Concurrency within a level.** `run` executes the tasks of a level concurrently. Each execution touches only its own task, so the model executes them in level order and reaches the same final state.
- **The semaphore.** Each level's `gather` runs under `asyncio.Semaphore(max_parallel)`. A positive `max_parallel` only limits how many tasks run at once. Below 0 the semaphore raises `ValueError`, and at 0 every task waits on it forever. The first `gather` holds every task without dependencies, so `run` raises or never returns exactly when such a task exists (`SchedulerRun.Run`).
- **Two run policies.**
  - `SchedulerRun.AsWritten` is the code: one `_execute_task` call per task, and only direct dependents of failed tasks are skipped.
  - `SchedulerRun.Corrected` retries a task until it completes or fails for good, and also skips dependents of skipped tasks. The retry loop is `TaskExecution.ExecuteWithRetries`.
- **Where the code and its own tests disagree, the model follows the code.**
  - Fail-fast returns right after the first failure is recorded, before any later level is looked at. So `summary["skipped"]` is 0 (`SchedulerRun.FailFastNeverSkips`), although `tests/unit/test_scheduler.py:162-179` expects 1.
  - `tests/unit/test_context_manager.py` expects a `version` counter, event timestamps and a `load` class method. `MCPContext` has none of them, so the model has none either.
  - `tests/unit/test_orchestrator.py` and `main.py` use a different `Orchestrator`. That one has `use_dynamic_planning`, an `agent_registry`, a `_default_plan` with the ids `testing` and `documentation`, and a `run` that takes `fail_fast` and returns a summary. The model follows `meta_agent/orchestrator.py:37-72`: four tasks with the ids `frontend`, `backend`, `tests` and `docs`, three fixed filters, and a `run(prompt, ctx)` that returns `None`.

## Model

| member | source | states |
|---|---|---|
| DagTasks.AddTask | meta_agent/dag_scheduler.py:58-67 | the task is stored under its id; a new id goes to the end of the insertion order and a known id keeps its place; the scheduler's invariant (registered edges, both maps agreeing) is preserved |
| DagTasks.AddEdges | meta_agent/dag_scheduler.py:63-65 | after the edge loop each task's dependents list gains one copy of the new id per occurrence in `depends_on`, and the new task's dependency set gains exactly the listed ids |
| DagTasks.AddTaskEdges | meta_agent/dag_scheduler.py:58-67 | registering a task changes the dependents of `x` only by appending the task id once per listing of `x`, and changes only the task's own dependency set |
| DagTasks.EdgeAdded | meta_agent/dag_scheduler.py:63-65 | after registration, `y` depends on `x` iff it did before or `y` is the new task and lists `x` |
| DagTasks.AddTaskKeepsSimpleEdges | meta_agent/dag_scheduler.py:58-67 | registering a new id whose dependency list has no repeats leaves every dependents list free of repeats |
| DagTasks.UnregisteredHasNoDependencies | meta_agent/dag_scheduler.py:52-67 | an id never registered has no recorded dependencies |
| DagTasks.RegisterShape | meta_agent/dag_scheduler.py:58-67 | registering fresh tasks in turn appends their ids to the order, adds exactly those keys, stores each task unchanged and leaves earlier tasks alone |
| DagTasks.RegisterDependencies | meta_agent/dag_scheduler.py:63-65 | after registering tasks with distinct ids, each task's dependency set is exactly its listed ids and every other id's set is unchanged |
| DagTasks.BackwardClosedHasCycle | meta_agent/dag_scheduler.py:124-128 | a non-empty set of tasks each depending on another member of the set contains a cycle; the tasks `_topological_levels` leaves unscheduled, with registered dependencies and no repeated entries, form such a set |
| CycleCheck.Visit | meta_agent/dag_scheduler.py:74-86 | the visit marks the node and never unmarks anything |
| CycleCheck.VisitSound | meta_agent/dag_scheduler.py:74-86 | when `has_cycle` answers true from a node reached along a path, the graph has a cycle |
| CycleCheck.VisitComplete | meta_agent/dag_scheduler.py:74-86 | when `has_cycle` answers false, every node it finished has no cycle reachable through finished nodes |
| CycleCheck.ScanSound | meta_agent/dag_scheduler.py:78-83 | an edge back into the recursion stack, or a cycle found below a neighbour, is a real cycle |
| CycleCheck.CheckFromCorrect | meta_agent/dag_scheduler.py:88-94 | the outer loop over the tasks in insertion order answers true iff the graph has no cycle |
| CycleCheck.ValidateDagCorrect | meta_agent/dag_scheduler.py:69-94 | `_validate_dag` returns `True` iff the dependency graph has no cycle |
| TopoLevels.ZeroDegree | meta_agent/dag_scheduler.py:105 | the initial queue holds exactly the tasks of in-degree 0, without repeats |
| TopoLevels.Release | meta_agent/dag_scheduler.py:116-119 | each dependent's in-degree drops by the number of its entries in the list, and exactly the dependents that reach 0 from above are appended to the queue, once each |
| TopoLevels.ProcessLayer | meta_agent/dag_scheduler.py:111-119 | one round lowers each in-degree by its incoming edges from the round's tasks and queues exactly the tasks that reach 0 in that round |
| TopoLevels.TopologicalLevelsWellFormed | meta_agent/dag_scheduler.py:96-130 | the levels are non-empty, hold registered tasks only, and list no task twice |
| TopoLevels.LevelsNonEmptyIffRoot | meta_agent/dag_scheduler.py:104-130 | `_topological_levels` places some task iff some task has no dependency, and then the first level holds exactly those tasks |
| TopoLevels.TopologicalLevelsExact | meta_agent/dag_scheduler.py:96-130 | a task is placed iff all its dependencies are placed; every dependency is in an earlier level; each task is in the first level after all its dependencies |
| TopoLevels.LevelsRespectDependencies | meta_agent/dag_scheduler.py:96-130 | whenever a task and one of its listed dependencies are both scheduled, the dependency's level comes strictly first |
| TopoLevels.LevelOfRoot | meta_agent/dag_scheduler.py:105 | a task without dependencies is in the first level |
| TopoLevels.LevelAfter | meta_agent/dag_scheduler.py:107-122 | a task whose dependencies are all placed by level `k`, one of them in level `k`, is in level `k + 1` |
| TopoLevels.CycleNeverScheduled | meta_agent/dag_scheduler.py:124-128 | when no dependents list repeats an entry, no task on a cycle appears in any level |
| TopoLevels.SchedulesAllIffAcyclic | meta_agent/dag_scheduler.py:124-130 | when no dependents list repeats an entry, every task is scheduled iff the graph has no cycle and every dependency named is registered, so the "not all tasks scheduled" log fires exactly on a cycle or a missing dependency |
| TopoLevels.UnregisteredDependencyBlocks | meta_agent/dag_scheduler.py:101-102 | when no dependents list repeats an entry, a task listing an id that was never registered is never scheduled |
| TaskExecution.Outcome | meta_agent/dag_scheduler.py:139-155 | an attempt ends with a timeout error iff the call raises `TimeoutError` or a timeout applies and the call outlasts it; a raise is always an error; a return without a timeout never is |
| TaskExecution.CalculateBackoff | meta_agent/dag_scheduler.py:193-197 | the delay is the capped exponential value plus less than ten percent of it, whatever the clock reads |
| TaskExecution.CappedBackoffMonotone | meta_agent/dag_scheduler.py:195 | with a non-negative base, a later attempt never gets a smaller capped delay |
| TaskExecution.BackoffGrowsBelowCap | meta_agent/dag_scheduler.py:193-197 | below the cap the next attempt always waits strictly longer, for any two clock readings |
| TaskExecution.DefaultBackoffGrows | tests/unit/test_scheduler.py:181-192 | with the default base and cap, attempts 0, 1, 2 get strictly growing delays, the first at least 2 s |
| TaskExecution.ExecuteTask | meta_agent/dag_scheduler.py:132-191 | success iff no error; success completes the task untouched otherwise; a failure stores the error and bumps the retry count, leaving the task pending while the count is within `max_retries` and failed once it exceeds it; only a pending retry waits a backoff |
| TaskExecution.FailureBudget | meta_agent/dag_scheduler.py:155-191 | a fresh task whose attempts all fail is pending after each of its first `max_retries` attempts and failed from attempt `max_retries + 1` on |
| TaskExecution.SlowTaskTimesOut | tests/unit/test_scheduler.py:146-159 | a 10 s call under a 0.1 s timeout with no retries fails for good on the first attempt with a timeout error |
| TaskExecution.ExecuteWithRetries | tests/unit/test_scheduler.py:126-144 | repeating attempts ends completed or failed; attempts before the last all failed; success happens within the allowed attempts, and failure after exactly all of them |
| TaskExecution.RetriesSucceedIffSomeAttemptDoes | meta_agent/dag_scheduler.py:155-191 | the retry loop completes the task iff one of the attempts it is allowed would succeed |
| SchedulerRun.RunAttempt | meta_agent/dag_scheduler.py:242-246 | an execution in a level keeps the task's identity and succeeds iff the task ends completed; with retries in the run it always ends completed or failed |
| SchedulerRun.Runnable | meta_agent/dag_scheduler.py:222-234 | `tasks_to_run` holds exactly the tasks of the level with no failed dependency, as a subsequence of the level (so in level order), without repeats; it is the whole level when no task in it is blocked |
| SchedulerRun.MarkSkipped | meta_agent/dag_scheduler.py:228-230 | exactly the blocked tasks get status skipped; every other task is unchanged |
| SchedulerRun.ExecuteAll | meta_agent/dag_scheduler.py:246 | `gather` gives each runnable task its own execution and reports its success in order; other tasks are unchanged |
| SchedulerRun.FailedIds | meta_agent/dag_scheduler.py:249-251 | the ids recorded as failed are exactly those whose result is false |
| SchedulerRun.TrackFailures | meta_agent/dag_scheduler.py:248-254 | without fail-fast all failures of the level are recorded; with fail-fast the run stops iff the level had a failure, recording only the first |
| SchedulerRun.RunLevel | meta_agent/dag_scheduler.py:218-254 | one level skips exactly its blocked tasks, executes the others once, leaves tasks outside the level alone and records failures as above |
| SchedulerRun.RunRejectsExactlyCycles | meta_agent/dag_scheduler.py:209-210 | `run` raises the invalid-DAG error iff the graph has a cycle |
| SchedulerRun.RunExecutesOnce | meta_agent/dag_scheduler.py:212-256 | on any acyclic graph each task is executed at most once, never both executed and skipped; executed tasks hold their execution's outcome, skipped ones only the new status, the rest are untouched |
| SchedulerRun.RunSkipsExactlyBlocked | meta_agent/dag_scheduler.py:222-254 | every skipped task has a failed dependency and every failed id was executed and its execution failed; when no dependents list repeats an entry, no executed task has a failed dependency either |
| SchedulerRun.RunWithoutFailFastHandlesAll | meta_agent/dag_scheduler.py:215-256 | without fail-fast, every scheduled task is executed or skipped and no other task is, and the failed set is exactly the executed tasks whose execution failed; with registered dependencies and no repeated entries, that is every task |
| SchedulerRun.RunLeavesUnregisteredDependencyPending | meta_agent/dag_scheduler.py:101-130 | when no dependents list repeats an entry, a task listing an unregistered id is neither executed nor skipped and keeps its state |
| SchedulerRun.RunLevelFirstFailure | meta_agent/dag_scheduler.py:248-254 | in fail-fast mode a level that stops the run records exactly the first failing execution in `tasks_to_run` order |
| SchedulerRun.FailFastNeverSkips | meta_agent/dag_scheduler.py:204-254 | with fail-fast nothing is skipped and tasks not executed are untouched; the run stops iff a failure is recorded; if it stops, it stops in some level `k`: the levels up to `k` were executed in full and no later task ran, every task before level `k` succeeded, and the one recorded failure is the first failing task of level `k`; otherwise every scheduled task ran and succeeded |
| SchedulerRun.TransitiveSkipRunsOnlyAfterCompletion | meta_agent/dag_scheduler.py:222-234 | with transitive skipping and no repeated dependents entries, every executed task's dependencies were all executed and completed |
| SchedulerRun.WithStatus | meta_agent/dag_scheduler.py:260-262 | the status filters keep exactly the tasks with that status, without repeats |
| SchedulerRun.CountByStatus | meta_agent/dag_scheduler.py:260-268 | the length of each status list is the number of tasks with that status |
| SchedulerRun.StatusCountsBounded | meta_agent/dag_scheduler.py:264-268 | completed, failed and skipped together never exceed the total |
| SchedulerRun.SuccessRate | meta_agent/dag_scheduler.py:269 | the rate is completed over total, 0 when there are no tasks, between 0 and 1, and 1 exactly when every task completed |
| SchedulerRun.CreateSummary | meta_agent/dag_scheduler.py:258-280 | the summary's total, counts and rate agree with the tasks' statuses; each entry list names every task with its status exactly once, in insertion order, with that task's name (and error) |
| SchedulerRun.Run | meta_agent/dag_scheduler.py:199-256 | `run` raises the invalid-DAG error iff the graph has a cycle; otherwise, when some task has no dependency, it raises the semaphore's `ValueError` for a negative `max_parallel` and never returns for 0; in every other case it returns a summary whose total is the number of tasks |
| SchedulerRun.FirstGatherHoldsRoots | meta_agent/dag_scheduler.py:218-246 | on an acyclic graph with a task without dependencies, the first `gather` holds the whole first level, which is exactly the tasks without dependencies |
| SchedulerRun.CorrectedSummaryAccountsForAll | meta_agent/dag_scheduler.py:240-269 | under the corrected run, `run` returns iff `max_parallel` is positive or there is no task, and when it returns completed + failed + skipped equals the total |
| ContextStore.Set | meta_agent/context_manager.py:21-23 | the key maps to the value, every other key is unchanged, the event log is untouched |
| ContextStore.Get | meta_agent/context_manager.py:25-26 | a present key gives its value, an absent key the default |
| ContextStore.AppendEvent | meta_agent/context_manager.py:28-31 | exactly one event `{kind, payload}` is appended, and nothing else changes |
| ContextStore.AddArtifact | meta_agent/context_manager.py:33-36 | fails iff `data["artifacts"]` exists and is not a list; otherwise appends the record `{agent, path}` to that list, creating it if missing, and logs one `artifact` event with the same payload |
| ContextStore.GetReturnsLastWrite | meta_agent/context_manager.py:21-26 | after a sequence of `set` calls, `get` returns the last value written under the key, or what it returned before |
| ContextStore.FreshGetDefault | meta_agent/context_manager.py:11-26 | on a fresh context, a key never written reads as the default |
| ContextStore.AddArtifactKeepsLogged | meta_agent/context_manager.py:33-36 | while the artifact list mirrors the artifact events, `add_artifact` succeeds and keeps the mirror |
| ContextStore.AppendEventKeepsLogged | meta_agent/context_manager.py:28-31 | logging an event of another kind keeps the artifact list and the artifact events in step |
| ContextStore.SetKeepsLogged | meta_agent/context_manager.py:21-23 | writing a key other than `artifacts` keeps them in step |
| ContextStore.ArtifactCount | meta_agent/context_manager.py:33-36 | starting fresh, `n` `add_artifact` calls all succeed, leaving exactly those `n` records in order and exactly their `n` events |
| ContextStore.Snapshot | meta_agent/context_manager.py:38-44 | the saved document is an object with exactly the keys `project_name`, `data`, `events` |
| ContextStore.SnapshotRoundTrip | meta_agent/context_manager.py:38-44 | reading the saved document back gives the project name, data and events that were saved |
| ContextStore.SnapshotInjective | meta_agent/context_manager.py:38-44 | two contexts with the same saved document agree on project name, data and events |
| ContextStore.ArtifactScenario | tests/unit/test_context_manager.py:46-55 | one artifact on a fresh context gives a one-record list with the agent and the path, and one `artifact` event |
| Orchestrator.PlanContents | meta_agent/orchestrator.py:37-46 | the plan is the four tasks frontend, backend, tests, docs, with their dependency sets |
| Orchestrator.Level | meta_agent/orchestrator.py:56-58 | a level holds exactly the planned tasks that pass its filter, in plan order |
| Orchestrator.LevelsDisjoint | meta_agent/orchestrator.py:56-58 | no task passes two level filters |
| Orchestrator.PlanLevels | meta_agent/orchestrator.py:54-58 | on the plan the levels are [frontend, backend], [tests], [docs] |
| Orchestrator.PlanLevelsCoverAndRespectDependencies | meta_agent/orchestrator.py:54-58 | the three levels cover the plan once each, and every dependency is in an earlier level |
| Orchestrator.ExecTask | meta_agent/orchestrator.py:60-65 | `exec_task` raises iff the agent raises; a returning agent's effects are followed by one `task_complete` event, a raising one's by none |
| Orchestrator.ExecLevelStopsAtFirstRaise | meta_agent/orchestrator.py:64-70 | a `gather` raises exactly at the first task, in completion order, whose agent raises: the tasks before it completed and nothing after it is logged |
| Orchestrator.ExecLevelCompletions | meta_agent/orchestrator.py:64-70 | one `gather` logs the completions of its tasks in completion order, up to the first task whose agent raises |
| Orchestrator.RunCompletions | meta_agent/orchestrator.py:64-70 | `run` logs a prefix of level 0's completions, then level 1's, then level 2's, and the prefix is all of them iff `run` does not raise |
| Orchestrator.RunReturns | meta_agent/orchestrator.py:64-70 | when no agent raises, `run` does not raise |
| Orchestrator.DroppedTaskNeverRuns | meta_agent/orchestrator.py:56-58 | a task passing no filter is never executed |
| Orchestrator.OrderedTaskOrigin | meta_agent/orchestrator.py:56-70 | every completion logged belongs to a planned task that passed a filter |
| Orchestrator.PlanOrders | meta_agent/orchestrator.py:56-70 | on the plan the only possible completion orders are frontend/backend in either order, then tests, then docs |
| Orchestrator.PlanRunOrder | meta_agent/orchestrator.py:53-72 | the completion log of a run is a prefix of frontend, backend, tests, docs or of backend, frontend, tests, docs, and all four iff no agent raised |
| Orchestrator.SchedulerAgreesWithLevelSplit | meta_agent/orchestrator.py:55-58 | the plan's tasks given to the DAG scheduler get the same three levels as the orchestrator's fixed filters |
| Orchestrator.PlanSchedulerLevels | meta_agent/dag_scheduler.py:96-130 | the DAG scheduler's levels for the plan are {frontend, backend}, {tests}, {docs} |
| Scenarios.DiamondLevels | tests/unit/test_scheduler.py:210-235 | the diamond A, B -> C, D -> E gets levels {A, B}, {C, D}, [E] |
| Scenarios.ListingAddsEdge | meta_agent/dag_scheduler.py:63-65 | a listed dependency becomes an edge |
| Scenarios.RegistrationKeepsEdge | meta_agent/dag_scheduler.py:58-67 | registering a task never removes an edge |
| Scenarios.MutualRegistrationCycles | meta_agent/dag_scheduler.py:58-94 | two tasks listing each other form a cycle |
| Scenarios.RingRegistrationCycles | meta_agent/dag_scheduler.py:58-94 | three tasks listing each other in a ring form a cycle |
| Scenarios.CycleRejected | meta_agent/dag_scheduler.py:209-210 | on a graph with a cycle `_validate_dag` is false and `run` raises the invalid-DAG error |
| Scenarios.TwoNodeCycleRejected | tests/unit/test_dag_scheduler.py:102-114 | `a` needing `b` and `b` needing `a` is rejected by `run` |
| Scenarios.RingCycleRejected | tests/unit/test_scheduler.py:194-208 | the ring A(C), B(A), C(B) fails validation and is rejected by `run` |
| Findings.SingleAttemptLeavesRetriablePending | meta_agent/dag_scheduler.py:160-186 | a root task whose first attempt fails with retries left ends the run pending, counted as failed in `failed_tasks`, after one attempt |
| Findings.SingleAttemptSummaryFallsShort | meta_agent/dag_scheduler.py:240-269 | in that case `run` returns iff `max_parallel` is positive, and then the summary's completed + failed + skipped falls short of the total |
| Findings.RetryTestAsWritten | tests/unit/test_scheduler.py:126-144 | with a positive `max_parallel`, as in the test, the retry test's task ends with 0 completed under the code as written; with 0 `run` never returns, and below 0 it raises |
| Findings.CorrectedRunRetries | meta_agent/dag_scheduler.py:132-191 | under the corrected run every executed task ends completed or failed, completed iff one of its allowed attempts succeeds |
| Findings.RetryTestCorrected | tests/unit/test_scheduler.py:126-144 | under the corrected run the retry test's task completes on the third attempt, and with a positive `max_parallel` the summary shows 1 completed |
| Findings.ChainRunsPastSkipped | meta_agent/dag_scheduler.py:226-234 | in a chain a -> b -> c with `a` failing, the code skips `b` but still executes `c`, whose dependency never completed |
| Findings.ChainSkippedTransitively | meta_agent/dag_scheduler.py:226-234 | under the corrected run `c` is skipped as well |
| Findings.ChainTestAsWritten | meta_agent/dag_scheduler.py:222-234 | the chain fail -> dep -> after, run as written, fails `fail`, skips `dep` and executes `after` |
| Findings.ChainTestCorrected | meta_agent/dag_scheduler.py:222-234 | the same chain under the corrected run skips both `dep` and `after` |
| Findings.DuplicateEdges | meta_agent/dag_scheduler.py:63-65 | listing `a` twice records the edge twice in `graph["a"]` but once in the dependency set |
| Findings.DuplicateDependencySharesLevel | meta_agent/dag_scheduler.py:101-119 | with `y` listing `a, a, b` and `b` listing `a`, the in-degree of `y` reaches 0 with `a` alone, so `y` shares a level with its dependency `b` |
| Findings.DuplicateBreaksDepsEarlier | meta_agent/dag_scheduler.py:96-130 | for that graph the levels do not put every dependency in an earlier level, so the exact-levels characterisation of `TopoLevels.TopologicalLevelsExact` fails without its no-repeated-entries condition |
| Findings.Dedup | meta_agent/dag_scheduler.py:63-65 | the de-duplicated list has no repeats, names the same ids, and is the list itself when it had no repeats |
| Findings.AddTaskDeduped | meta_agent/dag_scheduler.py:58-67 | registration with a de-duplicated dependency list keeps the scheduler invariant |
| Findings.DedupedRegistrationKeepsLevelsOrdered | meta_agent/dag_scheduler.py:58-130 | de-duplicated registration gives the same dependency set and keeps every dependency in an earlier level |
| Findings.DedupedSeparatesLevels | meta_agent/dag_scheduler.py:96-130 | with de-duplicated registration, `b` and `y` of the example never share a level |
| Findings.UnregisteredDependencyScheduled | meta_agent/dag_scheduler.py:101-119 | with `z` registered and `y` listing `x, z, z` where `x` is never registered, `y` is still scheduled: its in-degree 2 reaches 0 when `z` is processed |
| Findings.ReRegistrationScheduled | meta_agent/dag_scheduler.py:58-119 | with `z` registered, then `y` on `z`, then `y` again on `z` and the never-registered `x`, no list repeats an entry, yet `z`'s dependents list holds `y` twice and `y` is scheduled |
| Findings.UnregisteredDependencyRun | meta_agent/dag_scheduler.py:212-246 | on that graph `run` without fail-fast gets past validation and executes or skips `y`, although `y` depends on a task that never runs |
| Findings.SelfCycleScheduled | meta_agent/dag_scheduler.py:101-128 | with `y` listing `y, z, z`, `y` lies on a cycle, yet every task is scheduled |

## Left out

- Concurrency: `asyncio.gather` and the limit a positive `max_parallel` puts on it are not modelled. The tasks of a level run one after another in level order; each touches only its own task, so the final state is the same. A negative or zero `max_parallel` is modelled in SchedulerRun.Run.
- SchedulerRun.RunLevel and SchedulerRun.ExecuteAll model a `gather` whose semaphore admits its tasks, as a positive `max_parallel` does. Below 0 `asyncio.Semaphore` raises `ValueError` at line 240, and at 0 every task waits at line 243 forever. Both happen at the first level, before any task executes, and SchedulerRun.Run states them.
- SchedulerRun.RunExecutesOnce describes the final state of the level loop (`RunTrace`) under the same assumption. When some task has no dependency and `max_parallel` is not positive, `run` has no final state (SchedulerRun.Run).
- SchedulerRun.RunSkipsExactlyBlocked is stated over the same level loop, for the same reason.
- SchedulerRun.RunWithoutFailFastHandlesAll is stated over the same level loop, for the same reason.
- SchedulerRun.RunLeavesUnregisteredDependencyPending is stated over the same level loop, for the same reason.
- SchedulerRun.FailFastNeverSkips is stated over the same level loop, for the same reason.
- SchedulerRun.TransitiveSkipRunsOnlyAfterCompletion is stated over the same level loop, for the same reason.
- Findings.ChainTestAsWritten and Findings.ChainTestCorrected describe the chain test's level loop for every `max_parallel`; the test builds its scheduler with `max_parallel=2`.
- `asyncio.wait_for` and `asyncio.sleep` are not modelled. A timeout is decided by comparing the behaviour's duration with the timeout. The backoff is returned as `Attempt.delay` rather than slept.
- `time.time()` becomes a clock parameter. `start_time`, `end_time` and elapsed times are not kept, because they only feed log lines.
- The task's `fn`, `args`, `kwargs` and `result` are left out: the callable becomes its behaviour per attempt, and the returned value is not kept.
- Floating point is out: timeouts, backoffs and the success rate are exact reals.
- All `log` calls are out.
- `str(t.error)` in the summary is not modelled: the error is kept as its kind, a timeout or another exception.
- `save`'s directory creation and file write are not modelled: only the JSON document it writes is, and `Path` values are their strings. Context values are modelled as null, booleans, integers, strings, lists and string-keyed objects.
- `Orchestrator.__init__`, `_wrap_sync`, `asyncio.to_thread` and the language model are left out. The agent functions become one parameter mapping a task and a context to a new context and whether the call raised. `ensure_dir` of each agent's directory is out. `plan` ignores its prompt, as in the code.
- Interleaving of the agents' own context writes within one `gather` is not modelled. Each agent runs as a whole, and a task's completion order within a level is a parameter.
- ContextStore.AddArtifact treats context values as values. In the code they are shared objects: `add_artifact` appends in place to the list stored under `artifacts`, so after `L = []`, `set("artifacts", L)`, `set("backup", L)` and `add_artifact("a", p)`, `data["backup"]` holds the record too, while the model leaves every other key unchanged.
- ContextStore.AppendEvent stores a copy of the payload. The code stores the caller's dict itself, so a later change to that dict rewrites the logged event.
- ContextStore.Set likewise stores a copy: a later in-place change to the value by the caller also changes `data` in the code.
- DagTasks.DagTask: `retry_count` is a `nat`. The code starts it at 0 and only increments it; a caller passing a negative count is not modelled.
- TopoLevels.TopologicalLevelsExact assumes that no dependents list holds an id twice (`SimpleEdges`). That holds when every id is registered once, with no repeated dependency; the third finding shows the property fails otherwise.
- TopoLevels.LevelsRespectDependencies assumes `SimpleEdges` for the same reason.
- TopoLevels.CycleNeverScheduled assumes `SimpleEdges`. Without it a task on a cycle can be scheduled: Findings.SelfCycleScheduled.
- TopoLevels.SchedulesAllIffAcyclic assumes `SimpleEdges`. Without it a graph with a cycle can have every task scheduled: Findings.SelfCycleScheduled.
- TopoLevels.UnregisteredDependencyBlocks assumes `SimpleEdges`. Without it a task naming an unregistered id can be scheduled: Findings.UnregisteredDependencyScheduled.
- SchedulerRun.RunExecutesOnce assumes an acyclic graph. A graph with a cycle is rejected before any task runs (RunRejectsExactlyCycles). The same holds for every other lemma about `run`.
- SchedulerRun.FailFastNeverSkips assumes an acyclic graph, as above.
- SchedulerRun.RunSkipsExactlyBlocked promises that no executed task has a failed dependency only under `SimpleEdges`. With a repeated entry a task can share a level with one of its dependencies (Findings.DuplicateDependencySharesLevel), and that dependency can fail in the same `gather`.
- SchedulerRun.RunWithoutFailFastHandlesAll promises that every task is handled only under `SimpleEdges` with registered dependencies. Otherwise it promises this only for the scheduled tasks; see RunLeavesUnregisteredDependencyPending.
- SchedulerRun.RunLeavesUnregisteredDependencyPending assumes `SimpleEdges`. Without it such a task can be executed: Findings.UnregisteredDependencyRun.
- SchedulerRun.TransitiveSkipRunsOnlyAfterCompletion assumes `SimpleEdges` for the same reason as RunSkipsExactlyBlocked.
- SchedulerRun.CorrectedSummaryAccountsForAll assumes `SimpleEdges` and registered dependencies. Without them a task can stay pending and uncounted (RunLeavesUnregisteredDependencyPending).
- CycleCheck.ValidateDagCorrect answers for every graph. `has_cycle` recurses once per node on a path, so a chain deeper than Python's recursion limit (about 1000) makes `_validate_dag` raise `RecursionError`, and `run` raises with it. The model has no recursion limit.
- TaskExecution.ExecuteTask models a callable that returns or raises an `Exception`. `asyncio.CancelledError` and `KeyboardInterrupt` are not caught by `except Exception` at line 174. The task is left running and the exception propagates out of `run`; this is not modelled.
- TaskExecution.CalculateBackoff uses exact reals. In the code, `base_backoff * (2 ** attempt)` raises `OverflowError` once `attempt` reaches 1024, because the integer no longer fits a float.
- ContextStore.Snapshot does not model floats (NaN and Infinity included), tuples, or dict keys that are numbers, booleans or `None`. `json.dumps` writes tuples as lists and turns such keys into strings, so `{"k": {1: "a"}}` is saved as `{"k": {"1": "a"}}` and reads back differently; SnapshotRoundTrip covers only the modelled values. Values `json.dumps` rejects make `save` raise `TypeError`; that path is not modelled either.
- Orchestrator.ExecLevelCompletions: when an agent raises, `gather` raises but does not cancel the other tasks of the level. Whether their completions are still logged depends on the caller's event loop, so the model logs nothing after the first raise in completion order.
- TaskExecution.CalculateBackoff states its bounds only when the capped delay is non-negative. A negative `base_backoff` is accepted by the code but gives a negative delay.
- Orchestrator.PlanRunOrder assumes the agents log no `task_complete` events of their own (`Quiet`).

## Findings

| source | as written | input that shows it | evidently intended | confidence | as-written member | corrected member |
|---|---|---|---|---|---|---|
| meta_agent/dag_scheduler.py:179-186 | `run` calls `_execute_task` once per task; a failure with retries left sets the task back to pending and returns `False`, `run` records it as failed, and nothing after the `gather` at line 246 re-queues it | `tests/unit/test_scheduler.py:126-144`: a task failing twice then succeeding, `max_retries=3`; the summary shows 0 completed and the task stays pending | the task is retried after its backoff until it completes or exhausts its retries, so the summary shows 1 completed | not executed | Findings.RetryTestAsWritten | Findings.RetryTestCorrected |
| meta_agent/dag_scheduler.py:227 | a task is skipped only when a dependency is in `failed_tasks`; a dependency in `skipped_tasks` does not block it | chain `fail` -> `dep` -> `after` with `fail` raising and `max_retries=0`: `dep` is skipped, then `after` runs although `dep` never completed | dependents of skipped tasks are skipped too, so a task runs only after all its dependencies completed | not executed | Findings.ChainRunsPastSkipped | SchedulerRun.TransitiveSkipRunsOnlyAfterCompletion |
| meta_agent/dag_scheduler.py:63-65 | every entry of `depends_on` appends an edge to `graph[dep]`, but the in-degree at 101-102 counts the set `reverse_graph[id]`, so a repeated dependency is decremented twice at 116-119 | `a`; `b` depends on `a`; `y` depends on `a, a, b`: `y`'s in-degree is 2 and reaches 0 when `a` is processed, so `y` runs in the same level as its dependency `b` | a repeated dependency counts once, so every task runs in a level after all its dependencies | not executed | Findings.DuplicateDependencySharesLevel | Findings.DedupedSeparatesLevels |

For the first row, Findings.SingleAttemptSummaryFallsShort shows the general form: the counts do not add up to the total. The corrected run retries (Findings.CorrectedRunRetries), and its counts always add up (SchedulerRun.CorrectedSummaryAccountsForAll).

For the second row, Findings.ChainTestAsWritten gives the concrete run. Findings.ChainSkippedTransitively and Findings.ChainTestCorrected show the corrected run skipping `after`.

For the third row, Findings.DuplicateBreaksDepsEarlier shows that the level ordering fails for that input. The corrected registration, Findings.AddTaskDeduped, keeps it (Findings.DedupedRegistrationKeepsLevelsOrdered). The same defect lets a task past a dependency that is never placed. With `z` registered and `y` listing `x, z, z`, where `x` is never registered, `y` is scheduled (Findings.UnregisteredDependencyScheduled) and `run` reaches it (Findings.UnregisteredDependencyRun). With `y` listing `y, z, z`, a task on a cycle is scheduled (Findings.SelfCycleScheduled). Registering an id twice repeats its entries in the same way, with no list repeating an entry: `z`, then `y` on `z`, then `y` again on `z` and the never-registered `x` leaves `y` twice in `z`'s dependents list, and `y` is scheduled (Findings.ReRegistrationScheduled).

=== FILE: collections.dfy ===
/** Facts about sequences, sets and multisets used by the scheduler proofs. */
module Collections {
  import opened Wrappers

  /** A duplicate-free sequence has as many distinct elements as entries. */
  lemma {:induction false} DistinctCardinality<T>(s: seq<T>)
    requires Distinct(s)
    ensures |Elements(s)| == |s|
  {
    if s != [] {
      var last := s[|s| - 1];
      var init := s[..|s| - 1];
      assert Distinct(init);
      DistinctCardinality(init);
      assert Elements(s) == Elements(init) + {last} by {
        assert s == init + [last];
      }
      assert last !in Elements(init);
    }
  }

  /** In a duplicate-free sequence each element occurs exactly once. */
  lemma {:induction false} DistinctMultiplicity<T>(s: seq<T>, x: T)
    requires Distinct(s)
    ensures multiset(s)[x] == if x in s then 1 else 0
  {
    if s != [] {
      assert s == [s[0]] + s[1..];
      assert Distinct(s[1..]);
      DistinctMultiplicity(s[1..], x);
      assert s[0] !in s[1..];
    }
  }

  /** Removing a subset removes exactly its size. */
  lemma SubsetDifferenceCardinality<T>(a: set<T>, b: set<T>)
    requires b <= a
    ensures |a - b| == |a| - |b|
  {
    assert a == (a - b) + b;
    assert (a - b) * b == {};
  }

  /** A strict subset is strictly smaller. */
  lemma StrictSubsetCardinality<T>(a: set<T>, b: set<T>)
    requires a < b
    ensures |a| < |b|
  {
    SubsetDifferenceCardinality(b, a);
    var x :| x in b && x !in a;
    assert x in b - a;
  }

  /** Every element of every part of a sequence of sequences, in order. */
  function Flatten<T>(parts: seq<seq<T>>): (r: seq<T>)
  {
    if parts == [] then [] else Flatten(parts[..|parts| - 1]) + parts[|parts| - 1]
  }

  lemma FlattenAppend<T>(parts: seq<seq<T>>, last: seq<T>)
    ensures Flatten(parts + [last]) == Flatten(parts) + last
  {
    assert (parts + [last])[..|parts|] == parts;
  }

  /** An element of one part is an element of the flattening. */
  lemma {:induction false} FlattenMember<T>(parts: seq<seq<T>>, i: int, x: T)
    requires 0 <= i < |parts| && x in parts[i]
    ensures x in Flatten(parts)
  {
    if i < |parts| - 1 {
      FlattenMember(parts[..|parts| - 1], i, x);
    }
  }

  /** An element of the flattening lies in one of the parts. */
  lemma {:induction false} FlattenMemberInverse<T>(parts: seq<seq<T>>, x: T) returns (i: int)
    requires x in Flatten(parts)
    ensures 0 <= i < |parts| && x in parts[i]
  {
    var init := parts[..|parts| - 1];
    if x in parts[|parts| - 1] {
      i := |parts| - 1;
    } else {
      i := FlattenMemberInverse(init, x);
      assert parts[i] == init[i];
    }
  }

  /** Two duplicate-free sequences with no common element concatenate to a duplicate-free one. */
  lemma DistinctConcat<T>(a: seq<T>, b: seq<T>)
    requires Distinct(a) && Distinct(b)
    requires forall x :: x in a ==> x !in b
    ensures Distinct(a + b)
  {
    forall i, j | 0 <= i < j < |a + b|
      ensures (a + b)[i] != (a + b)[j]
    {
      if i < |a| && j >= |a| {
        assert (a + b)[i] in a && (a + b)[j] == b[j - |a|];
      } else if i >= |a| {
        assert (a + b)[i] == b[i - |a|] && (a + b)[j] == b[j - |a|];
      }
    }
  }

  /** The two halves of a duplicate-free concatenation share no element. */
  lemma DistinctConcatDisjoint<T>(a: seq<T>, b: seq<T>, x: T)
    requires Distinct(a + b) && x in a
    ensures x !in b
  {
    var i :| 0 <= i < |a| && a[i] == x;
    forall j | 0 <= j < |b|
      ensures b[j] != x
    {
      assert (a + b)[i] == x && (a + b)[|a| + j] == b[j];
    }
  }

  /** In a duplicate-free flattening, an element lies in exactly one part. */
  lemma {:induction false} FlattenUnique<T>(parts: seq<seq<T>>, a: int, b: int, x: T)
    requires Distinct(Flatten(parts))
    requires 0 <= a < |parts| && 0 <= b < |parts| && x in parts[a] && x in parts[b]
    ensures a == b
  {
    var n := |parts| - 1;
    var init := parts[..n];
    var f := Flatten(init);
    assert Flatten(parts) == f + parts[n];
    if a < n && b < n {
      assert Distinct(f) by {
        forall i, j | 0 <= i < j < |f|
          ensures f[i] != f[j]
        {
          assert Flatten(parts)[i] == f[i] && Flatten(parts)[j] == f[j];
        }
      }
      assert parts[a] == init[a] && parts[b] == init[b];
      FlattenUnique(init, a, b, x);
    } else if a != b {
      var m := if a < n then a else b;
      assert parts[m] == init[m];
      FlattenMember(init, m, x);
      DistinctConcatDisjoint(f, parts[n], x);
      assert false;
    }
  }

  /** `a` is contained in `b` exactly when nothing of `a` is left after removing `b`. */
  lemma SubsetIffEmptyDifference<T>(a: set<T>, b: set<T>)
    ensures a <= b <==> |a - b| == 0
  {
    if !(a <= b) {
      var x :| x in a && x !in b;
      assert x in a - b;
    }
  }

  /** Each part of a duplicate-free flattening is duplicate-free. */
  lemma {:induction false} FlattenPartDistinct<T>(parts: seq<seq<T>>, i: int)
    requires Distinct(Flatten(parts)) && 0 <= i < |parts|
    ensures Distinct(parts[i])
  {
    var n := |parts| - 1;
    var f := Flatten(parts[..n]);
    assert Flatten(parts) == f + parts[n];
    if i == n {
      forall a, b | 0 <= a < b < |parts[n]|
        ensures parts[n][a] != parts[n][b]
      {
        assert Flatten(parts)[|f| + a] == parts[n][a] && Flatten(parts)[|f| + b] == parts[n][b];
      }
    } else {
      forall a, b | 0 <= a < b < |f|
        ensures f[a] != f[b]
      {
        assert Flatten(parts)[a] == f[a] && Flatten(parts)[b] == f[b];
      }
      assert parts[..n][i] == parts[i];
      FlattenPartDistinct(parts[..n], i);
    }
  }

  /** `r` is `xs` with some entries left out and the others kept in order. */
  predicate IsSubsequence<T(==)>(r: seq<T>, xs: seq<T>)
    decreases |xs|
  {
    if r == [] then true
    else if xs == [] then false
    else if r[0] == xs[0] then IsSubsequence(r[1..], xs[1..])
    else IsSubsequence(r, xs[1..])
  }

  /** An entry put in front of the longer sequence keeps a subsequence one. */
  lemma {:induction false} SubsequenceCons<T>(r: seq<T>, x: T, xs: seq<T>)
    requires IsSubsequence(r, xs)
    ensures IsSubsequence(r, [x] + xs)
    decreases |xs|, 1
  {
    var ys := [x] + xs;
    assert ys[1..] == xs;
    if r != [] && r[0] == x {
      SubsequenceTail(r, xs);
    }
  }

  /** Leaving out the first entry of a subsequence keeps it a subsequence. */
  lemma {:induction false} SubsequenceTail<T>(r: seq<T>, xs: seq<T>)
    requires IsSubsequence(r, xs) && r != []
    ensures IsSubsequence(r[1..], xs)
    decreases |xs|, 0
  {
    assert xs == [xs[0]] + xs[1..];
    if r[0] == xs[0] {
      SubsequenceCons(r[1..], xs[0], xs[1..]);
    } else {
      SubsequenceTail(r, xs[1..]);
      SubsequenceCons(r[1..], xs[0], xs[1..]);
    }
  }

  /** A single entry is a subsequence of any sequence ending in it. */
  lemma {:induction false} SubsequenceLast<T>(x: T, xs: seq<T>)
    ensures IsSubsequence([x], xs + [x])
    decreases |xs|
  {
    if xs != [] {
      assert (xs + [x])[0] == xs[0] && (xs + [x])[1..] == xs[1..] + [x];
      if xs[0] != x {
        SubsequenceLast(x, xs[1..]);
      }
    }
  }

  /** Appending an entry to the longer sequence, or to both, keeps a subsequence one. */
  lemma {:induction false} SubsequenceSnoc<T>(r: seq<T>, xs: seq<T>, x: T)
    requires IsSubsequence(r, xs)
    ensures IsSubsequence(r, xs + [x]) && IsSubsequence(r + [x], xs + [x])
    decreases |xs|
  {
    if r == [] {
      assert r + [x] == [x];
      SubsequenceLast(x, xs);
    } else {
      assert (xs + [x])[0] == xs[0] && (xs + [x])[1..] == xs[1..] + [x];
      assert (r + [x])[0] == r[0] && (r + [x])[1..] == r[1..] + [x];
      if r[0] == xs[0] {
        SubsequenceSnoc(r[1..], xs[1..], x);
      } else {
        SubsequenceSnoc(r, xs[1..], x);
      }
    }
  }
}

=== FILE: context_store.dfy ===
/**
 * `MCPContext`: the shared context the agents collaborate through. It holds
 * a key/value map and an append-only event log. `add_artifact` writes to
 * both. `save` serialises a snapshot of the project name, the data and the
 * events; the file write itself is not modelled.
 *
 * Stored values are modelled as the JSON values null, booleans, integers,
 * strings, lists and string-keyed objects. `json.dumps` also takes floats,
 * tuples and keys that are numbers, booleans or `None`; those are not part
 * of this model.
 */
module ContextStore {
  import opened Wrappers

  /** A JSON value, as stored in `data` and in event payloads. */
  datatype Value =
    | Null
    | Bool(b: bool)
    | Int(i: int)
    | Str(s: string)
    | List(items: seq<Value>)
    | Object(fields: map<string, Value>)

  /** One entry of the event log: `{"kind": kind, "payload": payload}`. */
  datatype Event = Event(kind: string, payload: map<string, Value>)

  datatype Context = Context(
    projectName: string,
    storageDir: string,
    data: map<string, Value>,
    events: seq<Event>)

  /** The error `add_artifact` raises when `data["artifacts"]` is not a list (`.append` is missing). */
  datatype ContextError = ArtifactsNotAList

  /** A freshly constructed context: no data, no events. */
  function NewContext(projectName: string, storageDir: string): Context
  {
    Context(projectName, storageDir, map[], [])
  }

  /** `set`: store `value` under `key`. */
  function Set(c: Context, key: string, value: Value): (r: Context)
    ensures r.projectName == c.projectName && r.storageDir == c.storageDir
    ensures r.events == c.events
    ensures r.data.Keys == c.data.Keys + {key}
    ensures key in r.data && r.data[key] == value
    ensures forall k :: k in c.data && k != key ==> r.data[k] == c.data[k]
  {
    c.(data := c.data[key := value])
  }

  /** `get`: the stored value, or `default` (Python's `None` is `Null`) when the key is absent. */
  function Get(c: Context, key: string, default: Value): (v: Value)
    ensures key in c.data ==> v == c.data[key]
    ensures key !in c.data ==> v == default
  {
    if key in c.data then c.data[key] else default
  }

  /** `append_event`: one more event at the end of the log. */
  function AppendEvent(c: Context, kind: string, payload: map<string, Value>): (r: Context)
    ensures r.projectName == c.projectName && r.storageDir == c.storageDir && r.data == c.data
    ensures |r.events| == |c.events| + 1
    ensures r.events[..|c.events|] == c.events
    ensures r.events[|c.events|] == Event(kind, payload)
  {
    c.(events := c.events + [Event(kind, payload)])
  }

  /** The fields of one artifact record, and of the event announcing it. */
  function ArtifactFields(agent: string, path: string): map<string, Value>
  {
    map["agent" := Str(agent), "path" := Str(path)]
  }

  /** The artifacts list: empty when absent, `None` when the key holds something other than a list. */
  function Artifacts(c: Context): Option<seq<Value>>
  {
    if "artifacts" !in c.data then Some([])
    else if c.data["artifacts"].List? then Some(c.data["artifacts"].items)
    else None
  }

  /**
   * `add_artifact`: `setdefault("artifacts", [])`, append the record
   * `{agent, path}`, then log an "artifact" event with the same fields. A
   * stored non-list value makes the append raise before anything changes.
   */
  function AddArtifact(c: Context, agent: string, path: string): (r: Result<Context, ContextError>)
    ensures r.Failure? <==> Artifacts(c).None?
    ensures r.Success? ==>
      && r.value.projectName == c.projectName && r.value.storageDir == c.storageDir
      && r.value.data.Keys == c.data.Keys + {"artifacts"}
      && (forall k :: k in c.data && k != "artifacts" ==> r.value.data[k] == c.data[k])
      && Artifacts(r.value) == Some(Artifacts(c).value + [Object(ArtifactFields(agent, path))])
      && r.value.events == c.events + [Event("artifact", ArtifactFields(agent, path))]
  {
    var existing := if "artifacts" in c.data then c.data["artifacts"] else List([]);
    if !existing.List? then
      Failure(ArtifactsNotAList)
    else
      var stored := c.(data := c.data["artifacts" := List(existing.items + [Object(ArtifactFields(agent, path))])]);
      Success(AppendEvent(stored, "artifact", ArtifactFields(agent, path)))
  }

  /*
   * Get returns the most recent set.
   */

  /** A sequence of `set` calls, applied in order. */
  function SetAll(c: Context, writes: seq<(string, Value)>): Context
    decreases |writes|
  {
    if writes == [] then c
    else
      var last := writes[|writes| - 1];
      Set(SetAll(c, writes[..|writes| - 1]), last.0, last.1)
  }

  /** The value of the last write to `key`, scanning the writes from the end. */
  function LastWrite(writes: seq<(string, Value)>, key: string): Option<Value>
    decreases |writes|
  {
    if writes == [] then None
    else if writes[|writes| - 1].0 == key then Some(writes[|writes| - 1].1)
    else LastWrite(writes[..|writes| - 1], key)
  }

  /**
   * After any sequence of `set` calls, `get(key, default)` returns the value
   * of the last call that wrote `key`, and otherwise what it returned before
   * (the default, from a fresh context). The log is untouched.
   */
  lemma {:induction false} GetReturnsLastWrite(c: Context, writes: seq<(string, Value)>, key: string, default: Value)
    ensures SetAll(c, writes).events == c.events
    ensures Get(SetAll(c, writes), key, default) ==
      match LastWrite(writes, key)
      case Some(v) => v
      case None => Get(c, key, default)
    decreases |writes|
  {
    if writes != [] {
      GetReturnsLastWrite(c, writes[..|writes| - 1], key, default);
    }
  }

  /** From a fresh context, a key that was never written reads as the default. */
  lemma FreshGetDefault(name: string, dir: string, writes: seq<(string, Value)>, key: string, default: Value)
    requires forall i :: 0 <= i < |writes| ==> writes[i].0 != key
    ensures Get(SetAll(NewContext(name, dir), writes), key, default) == default
  {
    NeverWritten(writes, key);
    GetReturnsLastWrite(NewContext(name, dir), writes, key, default);
  }

  lemma {:induction false} NeverWritten(writes: seq<(string, Value)>, key: string)
    requires forall i :: 0 <= i < |writes| ==> writes[i].0 != key
    ensures LastWrite(writes, key) == None
    decreases |writes|
  {
    if writes != [] {
      NeverWritten(writes[..|writes| - 1], key);
    }
  }

  /*
   * The artifacts list and the artifact events stay in step.
   */

  /** The payloads of the "artifact" events of a log, in order, as JSON objects. */
  function ArtifactPayloads(events: seq<Event>): seq<Value>
    decreases |events|
  {
    if events == [] then []
    else
      var last := events[|events| - 1];
      ArtifactPayloads(events[..|events| - 1]) + (if last.kind == "artifact" then [Object(last.payload)] else [])
  }

  /** The artifacts list holds exactly the payloads of the artifact events, in order. */
  ghost predicate ArtifactsLogged(c: Context)
  {
    Artifacts(c) == Some(ArtifactPayloads(c.events))
  }

  lemma ArtifactPayloadsAppend(events: seq<Event>, e: Event)
    ensures ArtifactPayloads(events + [e]) ==
      ArtifactPayloads(events) + (if e.kind == "artifact" then [Object(e.payload)] else [])
  {
    assert (events + [e])[..|events|] == events;
  }

  /** `add_artifact` succeeds on a context where the two agree, and keeps them in agreement. */
  lemma AddArtifactKeepsLogged(c: Context, agent: string, path: string)
    requires ArtifactsLogged(c)
    ensures AddArtifact(c, agent, path).Success?
    ensures ArtifactsLogged(AddArtifact(c, agent, path).value)
  {
    ArtifactPayloadsAppend(c.events, Event("artifact", ArtifactFields(agent, path)));
  }

  /** An event of any other kind keeps them in agreement. */
  lemma AppendEventKeepsLogged(c: Context, kind: string, payload: map<string, Value>)
    requires ArtifactsLogged(c) && kind != "artifact"
    ensures ArtifactsLogged(AppendEvent(c, kind, payload))
  {
    var r := AppendEvent(c, kind, payload);
    assert r.events == c.events + [Event(kind, payload)];
    ArtifactPayloadsAppend(c.events, Event(kind, payload));
    assert ArtifactPayloads(r.events) == ArtifactPayloads(c.events);
  }

  /** A `set` of any other key keeps them in agreement. */
  lemma SetKeepsLogged(c: Context, key: string, value: Value)
    requires ArtifactsLogged(c) && key != "artifacts"
    ensures ArtifactsLogged(Set(c, key, value))
  {
  }

  /** A sequence of `add_artifact` calls, in order; the first failure stops it. */
  function AddArtifacts(c: Context, calls: seq<(string, string)>): Result<Context, ContextError>
    decreases |calls|
  {
    if calls == [] then Success(c)
    else
      match AddArtifacts(c, calls[..|calls| - 1])
      case Failure(e) => Failure(e)
      case Success(prev) => AddArtifact(prev, calls[|calls| - 1].0, calls[|calls| - 1].1)
  }

  /** The artifact records of a sequence of calls. */
  function Records(calls: seq<(string, string)>): seq<Value>
  {
    seq(|calls|, i requires 0 <= i < |calls| => Object(ArtifactFields(calls[i].0, calls[i].1)))
  }

  /** The "artifact" events of a sequence of calls. */
  function ArtifactEvents(calls: seq<(string, string)>): seq<Event>
  {
    seq(|calls|, i requires 0 <= i < |calls| => Event("artifact", ArtifactFields(calls[i].0, calls[i].1)))
  }

  /**
   * From a fresh context, `n` calls of `add_artifact` all succeed and leave
   * `n` records in the artifacts list and `n` artifact events in the log,
   * both in call order.
   */
  lemma {:induction false} ArtifactCount(name: string, dir: string, calls: seq<(string, string)>)
    ensures var r := AddArtifacts(NewContext(name, dir), calls);
      && r.Success?
      && ArtifactsLogged(r.value)
      && r.value.events == ArtifactEvents(calls)
      && Artifacts(r.value) == Some(Records(calls))
      && |Records(calls)| == |calls|
    decreases |calls|
  {
    if calls != [] {
      var init := calls[..|calls| - 1];
      var last := calls[|calls| - 1];
      ArtifactCount(name, dir, init);
      var prev := AddArtifacts(NewContext(name, dir), init).value;
      assert AddArtifacts(NewContext(name, dir), calls) == AddArtifact(prev, last.0, last.1);
      assert calls == init + [last];
      ArtifactCountStep(prev, init, last);
    } else {
      assert Records(calls) == [] && ArtifactEvents(calls) == [];
    }
  }

  lemma ArtifactCountStep(prev: Context, init: seq<(string, string)>, last: (string, string))
    requires ArtifactsLogged(prev) && prev.events == ArtifactEvents(init) && Artifacts(prev) == Some(Records(init))
    ensures var r := AddArtifact(prev, last.0, last.1);
      && r.Success?
      && ArtifactsLogged(r.value)
      && r.value.events == ArtifactEvents(init + [last])
      && Artifacts(r.value) == Some(Records(init + [last]))
  {
    AddArtifactKeepsLogged(prev, last.0, last.1);
    assert ArtifactEvents(init + [last]) == ArtifactEvents(init) + [Event("artifact", ArtifactFields(last.0, last.1))];
    assert Records(init + [last]) == Records(init) + [Object(ArtifactFields(last.0, last.1))];
  }

  /*
   * The snapshot `save` writes.
   */

  function EventValue(e: Event): Value
  {
    Object(map["kind" := Str(e.kind), "payload" := Object(e.payload)])
  }

  function EventValues(events: seq<Event>): (r: seq<Value>)
    ensures |r| == |events|
    decreases |events|
  {
    if events == [] then [] else [EventValue(events[0])] + EventValues(events[1..])
  }

  /** The object `save` serialises: exactly the project name, the data and the events. */
  function Snapshot(c: Context): (v: Value)
    ensures v.Object? && v.fields.Keys == {"project_name", "data", "events"}
    ensures "artifacts" !in v.fields
  {
    Object(map["project_name" := Str(c.projectName), "data" := Object(c.data), "events" := List(EventValues(c.events))])
  }

  /** What a snapshot records. */
  datatype Saved = Saved(projectName: string, data: map<string, Value>, events: seq<Event>)

  function ParseEvent(v: Value): Option<Event>
  {
    if v.Object? && "kind" in v.fields && v.fields["kind"].Str?
       && "payload" in v.fields && v.fields["payload"].Object?
    then Some(Event(v.fields["kind"].s, v.fields["payload"].fields))
    else None
  }

  function ParseEvents(vs: seq<Value>): Option<seq<Event>>
    decreases |vs|
  {
    if vs == [] then Some([])
    else
      match (ParseEvent(vs[0]), ParseEvents(vs[1..]))
      case (Some(e), Some(es)) => Some([e] + es)
      case _ => None
  }

  /** Reads a snapshot back; `None` when the value does not have the snapshot's shape. */
  function FromSnapshot(v: Value): Option<Saved>
  {
    if v.Object? && "project_name" in v.fields && v.fields["project_name"].Str?
       && "data" in v.fields && v.fields["data"].Object?
       && "events" in v.fields && v.fields["events"].List?
    then
      match ParseEvents(v.fields["events"].items)
      case Some(es) => Some(Saved(v.fields["project_name"].s, v.fields["data"].fields, es))
      case None => None
    else None
  }

  lemma {:induction false} EventsRoundTrip(events: seq<Event>)
    ensures ParseEvents(EventValues(events)) == Some(events)
    decreases |events|
  {
    if events != [] {
      EventsRoundTrip(events[1..]);
      assert EventValues(events)[1..] == EventValues(events[1..]);
      assert [events[0]] + events[1..] == events;
    }
  }

  /** The snapshot loses nothing but the storage directory: it reads back to the same name, data and events. */
  lemma SnapshotRoundTrip(c: Context)
    ensures FromSnapshot(Snapshot(c)) == Some(Saved(c.projectName, c.data, c.events))
  {
    EventsRoundTrip(c.events);
  }

  /** Two contexts with the same snapshot agree on everything but the storage directory. */
  lemma SnapshotInjective(c: Context, d: Context)
    requires Snapshot(c) == Snapshot(d)
    ensures c.projectName == d.projectName && c.data == d.data && c.events == d.events
  {
    SnapshotRoundTrip(c);
    SnapshotRoundTrip(d);
  }

  /** The repository's artifact test: one call on a fresh context leaves one record with that agent and path. */
  lemma ArtifactScenario(name: string, dir: string)
    ensures var r := AddArtifact(NewContext(name, dir), "frontend", "/tmp/test");
      && r.Success?
      && Get(r.value, "artifacts", Null) == List([Object(map["agent" := Str("frontend"), "path" := Str("/tmp/test")])])
      && |r.value.events| == 1 && r.value.events[0].kind == "artifact"
  {
  }
}

=== FILE: cycle_check.dfy ===
/**
 * `_validate_dag`: a depth-first search over the dependents graph that keeps
 * a visited set and a recursion stack and reports a cycle when it meets a
 * node that is still on the stack. The search is proved to report a cycle
 * exactly when the dependency edges among registered tasks contain one.
 */
module CycleCheck {
  import opened Wrappers
  import opened DagTasks

  /**
   * `has_cycle(node)`: mark `node` visited, push it, and scan its dependents.
   * The recursion stack is kept in push order; popping is implicit because
   * the caller keeps its own `stack`. Returns whether a cycle was found and
   * the visited set afterwards.
   */
  function Visit(s: Scheduler, node: TaskId, visited: set<TaskId>, stack: seq<TaskId>): (r: (bool, set<TaskId>))
    requires Valid(s) && node in s.tasks && node !in visited
    ensures visited + {node} <= r.1
    decreases |s.tasks.Keys - visited|, 0
  {
    Shrinks(s, node, visited);
    Scan(s, node, 0, visited + {node}, stack + [node])
  }

  /** The loop of `has_cycle` over `graph.get(node, [])`, from index `i` on. */
  function Scan(s: Scheduler, node: TaskId, i: nat, visited: set<TaskId>, stack: seq<TaskId>): (r: (bool, set<TaskId>))
    requires Valid(s) && i <= |Dependents(s, node)|
    ensures visited <= r.1
    decreases |s.tasks.Keys - visited|, |Dependents(s, node)| - i + 1
  {
    var nbrs := Dependents(s, node);
    if i == |nbrs| then (false, visited)
    else
      var n := nbrs[i];
      if n !in visited then
        var sub := Visit(s, n, visited, stack);
        if sub.0 then (true, sub.1)
        else
          NoGrowth(s, visited, sub.1);
          Scan(s, node, i + 1, sub.1, stack)
      else if n in stack then (true, visited)
      else Scan(s, node, i + 1, visited, stack)
  }

  lemma Shrinks(s: Scheduler, node: TaskId, visited: set<TaskId>)
    requires node in s.tasks && node !in visited
    ensures |s.tasks.Keys - (visited + {node})| < |s.tasks.Keys - visited|
  {
    assert s.tasks.Keys - (visited + {node}) < s.tasks.Keys - visited;
    Collections.StrictSubsetCardinality(s.tasks.Keys - (visited + {node}), s.tasks.Keys - visited);
  }

  lemma NoGrowth(s: Scheduler, visited: set<TaskId>, visited': set<TaskId>)
    requires visited <= visited'
    ensures |s.tasks.Keys - visited'| <= |s.tasks.Keys - visited|
  {
    Collections.SubsetDifferenceCardinality(s.tasks.Keys - visited, s.tasks.Keys - visited');
  }

  /** The outer loop of `_validate_dag`, over the tasks in insertion order from index `i`. */
  function CheckFrom(s: Scheduler, i: nat, visited: set<TaskId>): (ok: bool)
    requires Valid(s) && i <= |s.order|
    decreases |s.order| - i
  {
    if i == |s.order| then true
    else
      var t := s.order[i];
      if t !in visited then
        var sub := Visit(s, t, visited, []);
        if sub.0 then false else CheckFrom(s, i + 1, sub.1)
      else CheckFrom(s, i + 1, visited)
  }

  /** `_validate_dag`: true when no cycle was found. */
  function ValidateDag(s: Scheduler): bool
    requires Valid(s)
  {
    CheckFrom(s, 0, {})
  }

  // ---------------------------------------------------------------------
  // Soundness: a reported cycle is a real one.

  /** The recursion stack is a path of registered tasks. */
  ghost predicate StackPath(s: Scheduler, stack: seq<TaskId>)
  {
    IsPath(s, stack) && forall i :: 0 <= i < |stack| ==> stack[i] in s.tasks
  }

  /** A dependent met while it is still on the stack closes a cycle. */
  lemma BackEdgeCycle(s: Scheduler, stack: seq<TaskId>, n: TaskId)
    requires StackPath(s, stack) && |stack| > 0
    requires n in stack && Edge(s, stack[|stack| - 1], n)
    ensures HasCycle(s)
  {
    var j :| 0 <= j < |stack| && stack[j] == n;
    var p := stack[j..];
    assert IsPath(s, p) by {
      forall a, b | 0 <= a < b < |p| && b == a + 1
        ensures Edge(s, p[a], p[b])
      {
        assert p[a] == stack[j + a] && p[b] == stack[j + b];
      }
    }
    assert p[|p| - 1] == stack[|stack| - 1];
    assert IsCycle(s, p);
  }

  lemma {:induction false} VisitSound(s: Scheduler, node: TaskId, visited: set<TaskId>, stack: seq<TaskId>)
    requires Valid(s) && node in s.tasks && node !in visited
    requires StackPath(s, stack) && (|stack| > 0 ==> Edge(s, stack[|stack| - 1], node))
    ensures Visit(s, node, visited, stack).0 ==> HasCycle(s)
    decreases |s.tasks.Keys - visited|, 0
  {
    Shrinks(s, node, visited);
    var stack' := stack + [node];
    assert StackPath(s, stack') by {
      forall a, b | 0 <= a < b < |stack'| && b == a + 1
        ensures Edge(s, stack'[a], stack'[b])
      {
        if b < |stack| {
          assert stack'[a] == stack[a] && stack'[b] == stack[b];
        }
      }
    }
    ScanSound(s, node, 0, visited + {node}, stack');
  }

  lemma {:induction false} ScanSound(s: Scheduler, node: TaskId, i: nat, visited: set<TaskId>, stack: seq<TaskId>)
    requires Valid(s) && i <= |Dependents(s, node)|
    requires StackPath(s, stack) && |stack| > 0 && stack[|stack| - 1] == node
    ensures Scan(s, node, i, visited, stack).0 ==> HasCycle(s)
    decreases |s.tasks.Keys - visited|, |Dependents(s, node)| - i + 1
  {
    var nbrs := Dependents(s, node);
    if i < |nbrs| {
      var n := nbrs[i];
      assert Edge(s, node, n);
      if n !in visited {
        VisitSound(s, n, visited, stack);
        var sub := Visit(s, n, visited, stack);
        if !sub.0 {
          NoGrowth(s, visited, sub.1);
          ScanSound(s, node, i + 1, sub.1, stack);
        }
      } else if n in stack {
        BackEdgeCycle(s, stack, n);
      } else {
        ScanSound(s, node, i + 1, visited, stack);
      }
    }
  }

  // ---------------------------------------------------------------------
  // Completeness: when no cycle is reported, there is none.

  /** Every dependent of a member of `f` is in `f`. */
  ghost predicate ForwardClosed(s: Scheduler, f: set<TaskId>)
  {
    forall x, y :: x in f && Edge(s, x, y) ==> y in f
  }

  /** Every entry of `p` is in `f`. */
  ghost predicate Within(p: seq<TaskId>, f: set<TaskId>)
  {
    forall i :: 0 <= i < |p| ==> p[i] in f
  }

  /** No cycle lies entirely inside `f`. */
  ghost predicate NoCycleWithin(s: Scheduler, f: set<TaskId>)
  {
    forall p :: IsCycle(s, p) ==> !Within(p, f)
  }

  /** The finished nodes: visited and no longer on the stack. */
  ghost predicate FinishedOk(s: Scheduler, visited: set<TaskId>, stack: seq<TaskId>)
  {
    var f := visited - Elements(stack);
    ForwardClosed(s, f) && NoCycleWithin(s, f)
  }

  /** Finishing `node`, all of whose dependents are finished, keeps the finished set acyclic. */
  lemma FinishNode(s: Scheduler, f: set<TaskId>, node: TaskId)
    requires node !in f
    requires ForwardClosed(s, f) && NoCycleWithin(s, f)
    requires forall y :: Edge(s, node, y) ==> y in f
    ensures ForwardClosed(s, f + {node}) && NoCycleWithin(s, f + {node})
  {
    var f' := f + {node};
    forall x, y | x in f' && Edge(s, x, y)
      ensures y in f'
    {
    }
    forall p | IsCycle(s, p)
      ensures !Within(p, f')
    {
      NoCycleThroughNode(s, f, node, p);
    }
  }

  /** A cycle inside `f + {node}` would have to pass through `node`, whose predecessor on it is finished. */
  lemma NoCycleThroughNode(s: Scheduler, f: set<TaskId>, node: TaskId, p: seq<TaskId>)
    requires node !in f
    requires ForwardClosed(s, f) && NoCycleWithin(s, f)
    requires forall y :: Edge(s, node, y) ==> y in f
    requires IsCycle(s, p)
    ensures !Within(p, f + {node})
  {
    if k :| 0 <= k < |p| && p[k] == node {
      if k > 0 {
        assert Edge(s, p[k - 1], p[k]);
      }
    }
  }

  lemma {:induction false} VisitComplete(s: Scheduler, node: TaskId, visited: set<TaskId>, stack: seq<TaskId>)
    requires Valid(s) && node in s.tasks && node !in visited
    requires Elements(stack) <= visited && FinishedOk(s, visited, stack)
    ensures !Visit(s, node, visited, stack).0 ==> FinishedOk(s, Visit(s, node, visited, stack).1, stack)
    decreases |s.tasks.Keys - visited|, 0
  {
    Shrinks(s, node, visited);
    var stack' := stack + [node];
    var visited' := visited + {node};
    VisitStart(s, node, visited, stack);
    ScanComplete(s, node, 0, visited', stack');
    var r := Visit(s, node, visited, stack);
    assert r == Scan(s, node, 0, visited', stack');
    if !r.0 {
      VisitFinish(s, node, r.1, stack);
    }
  }

  /** Pushing `node` leaves the finished set as it was, so the scan starts from a finished state. */
  lemma VisitStart(s: Scheduler, node: TaskId, visited: set<TaskId>, stack: seq<TaskId>)
    requires node !in visited && Elements(stack) <= visited && FinishedOk(s, visited, stack)
    ensures Elements(stack + [node]) <= visited + {node}
    ensures ScanDone(s, node, 0, visited + {node}, stack + [node])
  {
    assert Elements(stack + [node]) == Elements(stack) + {node};
    assert (visited + {node}) - Elements(stack + [node]) == visited - Elements(stack);
  }

  /** Popping `node` after its scan finished all its dependents keeps the finished set closed and acyclic. */
  lemma VisitFinish(s: Scheduler, node: TaskId, visited: set<TaskId>, stack: seq<TaskId>)
    requires node in visited && node !in Elements(stack)
    requires ScanDone(s, node, |Dependents(s, node)|, visited, stack + [node])
    ensures FinishedOk(s, visited, stack)
  {
    var stack' := stack + [node];
    assert Elements(stack') == Elements(stack) + {node};
    var f := visited - Elements(stack');
    assert visited - Elements(stack) == f + {node};
    ScanDoneEdges(s, node, visited, stack');
    FinishNode(s, f, node);
  }

  /** What a scan that finds no cycle leaves behind: every dependent of `node` finished. */
  ghost predicate ScanDone(s: Scheduler, node: TaskId, i: nat, visited: set<TaskId>, stack: seq<TaskId>)
  {
    && FinishedOk(s, visited, stack)
    && forall k :: 0 <= k < i <= |Dependents(s, node)| ==> Dependents(s, node)[k] in visited - Elements(stack)
  }

  /** A finished scan of `node` has finished every task that depends on it. */
  lemma ScanDoneEdges(s: Scheduler, node: TaskId, visited: set<TaskId>, stack: seq<TaskId>)
    requires ScanDone(s, node, |Dependents(s, node)|, visited, stack)
    ensures forall y :: Edge(s, node, y) ==> y in visited - Elements(stack)
  {
    forall y | Edge(s, node, y)
      ensures y in visited - Elements(stack)
    {
      var k :| 0 <= k < |Dependents(s, node)| && Dependents(s, node)[k] == y;
    }
  }

  lemma {:induction false} ScanComplete(s: Scheduler, node: TaskId, i: nat, visited: set<TaskId>, stack: seq<TaskId>)
    requires Valid(s) && i <= |Dependents(s, node)|
    requires Elements(stack) <= visited && ScanDone(s, node, i, visited, stack)
    ensures var r := Scan(s, node, i, visited, stack);
      !r.0 ==> ScanDone(s, node, |Dependents(s, node)|, r.1, stack)
    decreases |s.tasks.Keys - visited|, |Dependents(s, node)| - i + 1
  {
    var nbrs := Dependents(s, node);
    if i < |nbrs| {
      var n := nbrs[i];
      if n !in visited {
        VisitComplete(s, n, visited, stack);
        var sub := Visit(s, n, visited, stack);
        if !sub.0 {
          NoGrowth(s, visited, sub.1);
          ScanDoneStep(s, node, i, visited, sub.1, stack);
          ScanComplete(s, node, i + 1, sub.1, stack);
        }
      } else if n !in stack {
        ScanComplete(s, node, i + 1, visited, stack);
      }
    }
  }

  /** The dependent at index `i` finished by a recursive visit extends the scanned prefix. */
  lemma ScanDoneStep(s: Scheduler, node: TaskId, i: nat, visited: set<TaskId>, visited': set<TaskId>, stack: seq<TaskId>)
    requires i < |Dependents(s, node)|
    requires ScanDone(s, node, i, visited, stack) && visited <= visited'
    requires FinishedOk(s, visited', stack)
    requires Dependents(s, node)[i] in visited' && Dependents(s, node)[i] !in Elements(stack)
    ensures ScanDone(s, node, i + 1, visited', stack)
  {
  }

  lemma {:induction false} CheckFromCorrect(s: Scheduler, i: nat, visited: set<TaskId>)
    requires Valid(s) && i <= |s.order|
    requires FinishedOk(s, visited, [])
    requires forall k :: 0 <= k < i ==> s.order[k] in visited
    ensures CheckFrom(s, i, visited) <==> !HasCycle(s)
    decreases |s.order| - i
  {
    assert Elements<TaskId>([]) == {};
    if i < |s.order| {
      var t := s.order[i];
      if t !in visited {
        VisitSound(s, t, visited, []);
        VisitComplete(s, t, visited, []);
        var sub := Visit(s, t, visited, []);
        if !sub.0 {
          CheckFromCorrect(s, i + 1, sub.1);
        }
      } else {
        CheckFromCorrect(s, i + 1, visited);
      }
    }
  }

  /** `_validate_dag` returns false exactly when the dependency edges contain a cycle. */
  lemma ValidateDagCorrect(s: Scheduler)
    requires Valid(s)
    ensures ValidateDag(s) <==> !HasCycle(s)
  {
    assert Elements<TaskId>([]) == {};
    CheckFromCorrect(s, 0, {});
  }
}

=== FILE: dag_tasks.dfy ===
/**
 * Tasks of the dependency-graph scheduler and the scheduler's graph state:
 * the task record, registration of a task with its dependency edges, the
 * invariant registration keeps, and what it means for the edges to contain
 * a cycle.
 */
module DagTasks {
  import opened Wrappers
  import opened Collections

  type TaskId = string

  datatype TaskStatus = Pending | Running | Completed | Failed | Skipped

  /** The kind of exception stored in a task's `error` field. */
  datatype TaskError = TimedOut | Raised

  /**
   * A task of the graph. The callable, its arguments and its result are
   * opaque and not kept; the start and end timestamps are not kept either.
   * `timeout` is `None` when no timeout applies.
   */
  datatype DagTask = DagTask(
    id: TaskId,
    name: string,
    dependsOn: seq<TaskId>,
    retryCount: nat,
    maxRetries: int,
    timeout: Option<real>,
    baseBackoff: real,
    maxBackoff: real,
    status: TaskStatus,
    error: Option<TaskError>)

  const DefaultMaxRetries: int := 3
  const DefaultTimeout: real := 300.0
  const DefaultBaseBackoff: real := 2.0
  const DefaultMaxBackoff: real := 60.0

  /** A task built with the record's default field values. */
  function NewTask(id: TaskId, name: string, dependsOn: seq<TaskId>): DagTask
  {
    DagTask(id, name, dependsOn, 0, DefaultMaxRetries, Some(DefaultTimeout),
            DefaultBaseBackoff, DefaultMaxBackoff, Pending, None)
  }

  /**
   * The scheduler's state. `order` is the insertion order of `tasks`
   * (a Python dict iterates in that order); `graph` maps a dependency to the
   * tasks that named it, once per naming; `reverse` maps a task to the set of
   * dependencies it was registered with.
   */
  datatype Scheduler = Scheduler(
    maxParallel: int,
    tasks: map<TaskId, DagTask>,
    order: seq<TaskId>,
    graph: map<TaskId, seq<TaskId>>,
    reverse: map<TaskId, set<TaskId>>)

  function EmptyScheduler(maxParallel: int): Scheduler
  {
    Scheduler(maxParallel, map[], [], map[], map[])
  }

  /** `graph.get(x, [])`: the tasks that depend on `x`. */
  function Dependents(s: Scheduler, x: TaskId): seq<TaskId>
  {
    if x in s.graph then s.graph[x] else []
  }

  /** `reverse_graph.get(y, set())`: the dependencies recorded for `y`. */
  function Dependencies(s: Scheduler, y: TaskId): set<TaskId>
  {
    if y in s.reverse then s.reverse[y] else {}
  }

  /** `y` depends on `x`. */
  ghost predicate Edge(s: Scheduler, x: TaskId, y: TaskId)
  {
    y in Dependents(s, x)
  }

  /** What registration through `AddTask` keeps true of the state. */
  ghost predicate Valid(s: Scheduler)
  {
    && Distinct(s.order)
    && (forall t :: t in s.tasks <==> t in s.order)
    && (forall t :: t in s.tasks ==> s.tasks[t].id == t)
    && (forall x, y :: y in Dependents(s, x) <==> x in Dependencies(s, y))
    && (forall x, y :: y in Dependents(s, x) ==> y in s.tasks)
    && (forall t, d :: t in s.tasks && d in s.tasks[t].dependsOn ==> d in Dependencies(s, t))
  }

  /** No task is listed twice as a dependent of the same dependency. */
  ghost predicate SimpleEdges(s: Scheduler)
  {
    forall x :: Distinct(Dependents(s, x))
  }

  /** Every recorded dependency is itself a registered task. */
  ghost predicate DependenciesRegistered(s: Scheduler)
  {
    forall x, y :: x in Dependencies(s, y) ==> x in s.tasks
  }

  /** `n` copies of `id`. */
  function Repeat(id: TaskId, n: nat): (r: seq<TaskId>)
  {
    seq(n, _ => id)
  }

  lemma RepeatMember(id: TaskId, n: nat, y: TaskId)
    ensures y in Repeat(id, n) <==> y == id && n > 0
  {
    if n > 0 {
      assert Repeat(id, n)[0] == id;
    }
  }

  /** One more copy in front. */
  lemma RepeatCons(id: TaskId, n: nat)
    ensures [id] + Repeat(id, n) == Repeat(id, n + 1)
  {
  }

  /** The inner loop of `add_task`: one edge per entry of `deps`. */
  function AddEdges(s: Scheduler, id: TaskId, deps: seq<TaskId>): (r: Scheduler)
    ensures r.tasks == s.tasks && r.order == s.order
    ensures forall x :: Dependents(r, x) == Dependents(s, x) + Repeat(id, multiset(deps)[x])
    ensures forall y :: Dependencies(r, y) == if y == id then Dependencies(s, y) + Elements(deps) else Dependencies(s, y)
    decreases |deps|
  {
    if deps == [] then s
    else
      var dep := deps[0];
      var s1 := s.(graph := s.graph[dep := Dependents(s, dep) + [id]],
                   reverse := s.reverse[id := Dependencies(s, id) + {dep}]);
      var r := AddEdges(s1, id, deps[1..]);
      AddEdgesStep(s, s1, r, id, deps);
      r
  }

  lemma AddEdgesStep(s: Scheduler, s1: Scheduler, r: Scheduler, id: TaskId, deps: seq<TaskId>)
    requires deps != []
    requires s1 == s.(graph := s.graph[deps[0] := Dependents(s, deps[0]) + [id]],
                      reverse := s.reverse[id := Dependencies(s, id) + {deps[0]}])
    requires forall x :: Dependents(r, x) == Dependents(s1, x) + Repeat(id, multiset(deps[1..])[x])
    requires forall y :: Dependencies(r, y) == if y == id then Dependencies(s1, y) + Elements(deps[1..]) else Dependencies(s1, y)
    ensures forall x :: Dependents(r, x) == Dependents(s, x) + Repeat(id, multiset(deps)[x])
    ensures forall y :: Dependencies(r, y) == if y == id then Dependencies(s, y) + Elements(deps) else Dependencies(s, y)
  {
    var dep := deps[0];
    assert deps == [dep] + deps[1..];
    assert Elements(deps) == {dep} + Elements(deps[1..]);
    forall x
      ensures Dependents(r, x) == Dependents(s, x) + Repeat(id, multiset(deps)[x])
    {
      AddEdgeCount(Dependents(s, x), Dependents(s1, x), Dependents(r, x), id, deps, x);
    }
  }

  /** The dependents of one `x` across one step of the edge loop. */
  lemma AddEdgeCount(before: seq<TaskId>, mid: seq<TaskId>, after: seq<TaskId>, id: TaskId, deps: seq<TaskId>, x: TaskId)
    requires deps != []
    requires mid == if x == deps[0] then before + [id] else before
    requires after == mid + Repeat(id, multiset(deps[1..])[x])
    ensures after == before + Repeat(id, multiset(deps)[x])
  {
    assert deps == [deps[0]] + deps[1..];
    assert multiset(deps) == multiset{deps[0]} + multiset(deps[1..]);
    var m := multiset(deps[1..])[x];
    if x == deps[0] {
      assert multiset(deps)[x] == m + 1;
      RepeatCons(id, m);
      assert (before + [id]) + Repeat(id, m) == before + ([id] + Repeat(id, m));
    } else {
      assert multiset(deps)[x] == m;
    }
  }

  /**
   * `add_task`: store the task under its id (a new id goes to the end of the
   * insertion order, a known id keeps its place) and add its edges.
   */
  function AddTask(s: Scheduler, task: DagTask): (r: Scheduler)
    ensures Valid(s) ==> Valid(r)
    ensures r.tasks == s.tasks[task.id := task]
    ensures r.order == if task.id in s.tasks then s.order else s.order + [task.id]
  {
    var s1 := s.(tasks := s.tasks[task.id := task],
                 order := if task.id in s.tasks then s.order else s.order + [task.id]);
    var r := AddEdges(s1, task.id, task.dependsOn);
    AddTaskValid(s, task, s1, r);
    r
  }

  /** The edges `add_task` adds: one per entry of the task's dependency list. */
  lemma AddTaskEdges(s: Scheduler, task: DagTask)
    ensures forall x :: Dependents(AddTask(s, task), x) == Dependents(s, x) + Repeat(task.id, multiset(task.dependsOn)[x])
    ensures forall y :: Dependencies(AddTask(s, task), y) == if y == task.id then Dependencies(s, y) + Elements(task.dependsOn) else Dependencies(s, y)
  {
  }

  lemma AddTaskValid(s: Scheduler, task: DagTask, s1: Scheduler, r: Scheduler)
    requires s1 == s.(tasks := s.tasks[task.id := task],
                      order := if task.id in s.tasks then s.order else s.order + [task.id])
    requires r.tasks == s1.tasks && r.order == s1.order
    requires forall x :: Dependents(r, x) == Dependents(s1, x) + Repeat(task.id, multiset(task.dependsOn)[x])
    requires forall y :: Dependencies(r, y) == if y == task.id then Dependencies(s1, y) + Elements(task.dependsOn) else Dependencies(s1, y)
    ensures Valid(s) ==> Valid(r)
  {
    if Valid(s) {
      if task.id !in s.tasks {
        assert task.id !in s.order;
      }
      assert forall x :: Dependents(s1, x) == Dependents(s, x);
      assert forall y :: Dependencies(s1, y) == Dependencies(s, y);
      AddTaskEdgesCoupled(s, task, r);
      AddTaskEdgesRegistered(s, task, r);
    }
  }

  lemma AddTaskEdgesCoupled(s: Scheduler, task: DagTask, r: Scheduler)
    requires forall x, y :: y in Dependents(s, x) <==> x in Dependencies(s, y)
    requires forall x :: Dependents(r, x) == Dependents(s, x) + Repeat(task.id, multiset(task.dependsOn)[x])
    requires forall y :: Dependencies(r, y) == if y == task.id then Dependencies(s, y) + Elements(task.dependsOn) else Dependencies(s, y)
    ensures forall x, y :: y in Dependents(r, x) <==> x in Dependencies(r, y)
  {
    forall x, y
      ensures y in Dependents(r, x) <==> x in Dependencies(r, y)
    {
      EdgeAdded(s, task, r, x, y);
    }
  }

  lemma AddTaskEdgesRegistered(s: Scheduler, task: DagTask, r: Scheduler)
    requires forall x, y :: y in Dependents(s, x) ==> y in s.tasks
    requires r.tasks == s.tasks[task.id := task]
    requires forall x :: Dependents(r, x) == Dependents(s, x) + Repeat(task.id, multiset(task.dependsOn)[x])
    requires forall y :: Dependencies(r, y) == if y == task.id then Dependencies(s, y) + Elements(task.dependsOn) else Dependencies(s, y)
    ensures forall x, y :: y in Dependents(r, x) ==> y in r.tasks
  {
    forall x, y | y in Dependents(r, x)
      ensures y in r.tasks
    {
      EdgeAdded(s, task, r, x, y);
    }
  }

  /** After registering `task`, `y` depends on `x` iff it did before or `task` names `x`. */
  lemma EdgeAdded(s: Scheduler, task: DagTask, r: Scheduler, x: TaskId, y: TaskId)
    requires Dependents(r, x) == Dependents(s, x) + Repeat(task.id, multiset(task.dependsOn)[x])
    requires Dependencies(r, y) == if y == task.id then Dependencies(s, y) + Elements(task.dependsOn) else Dependencies(s, y)
    ensures y in Dependents(r, x) <==> y in Dependents(s, x) || (y == task.id && x in task.dependsOn)
    ensures x in Dependencies(r, y) <==> x in Dependencies(s, y) || (y == task.id && x in task.dependsOn)
  {
    var n := multiset(task.dependsOn)[x];
    RepeatMember(task.id, n, y);
    assert n > 0 <==> x in task.dependsOn;
  }

  /** `p` follows dependency edges: each entry depends on the one before it. */
  ghost predicate IsPath(s: Scheduler, p: seq<TaskId>)
  {
    forall i, j :: 0 <= i < j < |p| && j == i + 1 ==> Edge(s, p[i], p[j])
  }

  /**
   * A cycle of registered tasks, `p[0] -> ... -> p[|p|-1] -> p[0]`, where
   * `x -> y` means `y` depends on `x`.
   */
  ghost predicate IsCycle(s: Scheduler, p: seq<TaskId>)
  {
    && |p| > 0
    && IsPath(s, p)
    && Edge(s, p[|p| - 1], p[0])
    && (forall i :: 0 <= i < |p| ==> p[i] in s.tasks)
  }

  /** The dependency edges among registered tasks contain a cycle. */
  ghost predicate HasCycle(s: Scheduler)
  {
    exists p :: IsCycle(s, p)
  }

  /** The walk obtained by following `pred` backwards `n` times from `y`. */
  ghost function BackWalk(pred: TaskId -> TaskId, r: set<TaskId>, y: TaskId, n: nat): (w: seq<TaskId>)
    requires y in r
    requires forall z {:trigger pred(z)} :: z in r ==> pred(z) in r
    ensures |w| == n + 1 && w[0] == y
    ensures forall k :: 0 <= k < |w| ==> w[k] in r
    ensures forall k, l :: 0 <= k < l <= n && l == k + 1 ==> w[l] == pred(w[k])
    decreases n
  {
    if n == 0 then [y] else [y] + BackWalk(pred, r, pred(y), n - 1)
  }

  /**
   * A non-empty set of registered tasks in which every member depends on
   * another member (`pred` names one) contains a cycle.
   */
  lemma BackwardClosedHasCycle(s: Scheduler, r: set<TaskId>, pred: TaskId -> TaskId)
    requires r != {} && r <= s.tasks.Keys
    requires forall z {:trigger pred(z)} :: z in r ==> pred(z) in r && Edge(s, pred(z), z)
    ensures HasCycle(s)
  {
    var y :| y in r;
    var w := BackWalk(pred, r, y, |r|);
    assert !Distinct(w) by {
      if Distinct(w) {
        Collections.DistinctCardinality(w);
        assert Elements(w) <= r;
        Collections.SubsetDifferenceCardinality(r, Elements(w));
      }
    }
    var i, j :| 0 <= i < j < |w| && w[i] == w[j];
    WalkSegmentCycle(s, r, pred, w, i, j);
  }

  /** Between two visits of the same task, a backward walk traverses a cycle. */
  lemma WalkSegmentCycle(s: Scheduler, r: set<TaskId>, pred: TaskId -> TaskId, w: seq<TaskId>, i: int, j: int)
    requires r <= s.tasks.Keys
    requires forall z {:trigger pred(z)} :: z in r ==> Edge(s, pred(z), z)
    requires forall k :: 0 <= k < |w| ==> w[k] in r
    requires forall k, l :: 0 <= k < l < |w| && l == k + 1 ==> w[l] == pred(w[k])
    requires 0 <= i < j < |w| && w[i] == w[j]
    ensures HasCycle(s)
  {
    // w[k + 1] -> w[k] is an edge; read w[i..j] backwards.
    var p := seq(j - i, a requires 0 <= a < j - i => w[j - 1 - a]);
    ReversedSegmentPath(s, r, pred, w, i, j, p);
    assert forall a :: 0 <= a < |p| ==> p[a] in s.tasks by {
      forall a | 0 <= a < |p|
        ensures p[a] in s.tasks
      {
        assert p[a] == w[j - 1 - a];
      }
    }
    assert IsCycle(s, p);
  }

  /** The segment `w[i..j]` read backwards is a path that closes into a cycle. */
  lemma ReversedSegmentPath(s: Scheduler, r: set<TaskId>, pred: TaskId -> TaskId, w: seq<TaskId>, i: int, j: int, p: seq<TaskId>)
    requires forall z {:trigger pred(z)} :: z in r ==> Edge(s, pred(z), z)
    requires forall k :: 0 <= k < |w| ==> w[k] in r
    requires forall k, l :: 0 <= k < l < |w| && l == k + 1 ==> w[l] == pred(w[k])
    requires 0 <= i < j < |w| && w[i] == w[j]
    requires |p| == j - i && forall a :: 0 <= a < |p| ==> p[a] == w[j - 1 - a]
    ensures IsPath(s, p) && Edge(s, p[|p| - 1], p[0])
  {
    forall a, b | 0 <= a < b < |p| && b == a + 1
      ensures Edge(s, p[a], p[b])
    {
      var k, l := j - 1 - b, j - 1 - a;
      assert w[l] == pred(w[k]);
    }
    assert w[j] == pred(w[j - 1]);
  }

  /** Registering new ids with duplicate-free dependency lists keeps the edges simple. */
  lemma AddTaskKeepsSimpleEdges(s: Scheduler, task: DagTask)
    requires Valid(s) && SimpleEdges(s)
    requires task.id !in s.tasks && Distinct(task.dependsOn)
    ensures SimpleEdges(AddTask(s, task))
  {
    var r := AddTask(s, task);
    AddTaskEdges(s, task);
    forall x
      ensures Distinct(Dependents(r, x))
    {
      DistinctMultiplicity(task.dependsOn, x);
      assert task.id !in Dependents(s, x);
      AppendFreshDistinct(Dependents(s, x), task.id, multiset(task.dependsOn)[x]);
    }
  }

  /** At most one copy of a new id appended to a duplicate-free list keeps it duplicate-free. */
  lemma AppendFreshDistinct(before: seq<TaskId>, id: TaskId, n: nat)
    requires Distinct(before) && id !in before && n <= 1
    ensures Distinct(before + Repeat(id, n))
  {
    if n == 1 {
      assert Repeat(id, n) == [id];
    } else {
      assert before + Repeat(id, n) == before;
    }
  }

  /** `add_task` for each task of `ts` in turn. */
  function Register(s: Scheduler, ts: seq<DagTask>): (r: Scheduler)
    ensures Valid(s) ==> Valid(r)
    decreases |ts|
  {
    if ts == [] then s else Register(AddTask(s, ts[0]), ts[1..])
  }

  /** The ids of `ts`. */
  function Ids(ts: seq<DagTask>): seq<TaskId>
  {
    seq(|ts|, i requires 0 <= i < |ts| => ts[i].id)
  }

  /** New tasks with distinct ids. */
  ghost predicate FreshIds(s: Scheduler, ts: seq<DagTask>)
  {
    && Distinct(Ids(ts))
    && (forall i :: 0 <= i < |ts| ==> ts[i].id !in s.tasks)
  }

  /** New tasks with distinct ids, none listing a dependency twice. */
  ghost predicate FreshBatch(s: Scheduler, ts: seq<DagTask>)
  {
    && FreshIds(s, ts)
    && (forall i :: 0 <= i < |ts| ==> Distinct(ts[i].dependsOn))
  }

  /** Dropping the first of tasks with distinct ids leaves distinct ids, none of them the first's. */
  lemma IdsTail(ts: seq<DagTask>)
    requires ts != [] && Distinct(Ids(ts))
    ensures Ids(ts) == [ts[0].id] + Ids(ts[1..])
    ensures Distinct(Ids(ts[1..])) && ts[0].id !in Ids(ts[1..])
    ensures forall j :: 0 <= j < |ts| - 1 ==> ts[1..][j].id != ts[0].id
  {
    var t, rest := ts[0], ts[1..];
    assert Ids(ts) == [t.id] + Ids(rest);
    forall i, j | 0 <= i < j < |rest|
      ensures Ids(rest)[i] != Ids(rest)[j]
    {
      assert Ids(rest)[i] == Ids(ts)[i + 1] && Ids(rest)[j] == Ids(ts)[j + 1];
    }
    forall j | 0 <= j < |rest|
      ensures rest[j].id != t.id
    {
      assert Ids(ts)[0] == t.id && Ids(ts)[j + 1] == rest[j].id;
    }
  }

  lemma FreshTail(s: Scheduler, ts: seq<DagTask>)
    requires FreshIds(s, ts) && ts != []
    ensures FreshIds(AddTask(s, ts[0]), ts[1..])
    ensures ts[0].id !in Elements(Ids(ts[1..]))
    ensures Ids(ts) == [ts[0].id] + Ids(ts[1..])
  {
    IdsTail(ts);
    var t, rest := ts[0], ts[1..];
    forall i | 0 <= i < |rest|
      ensures rest[i].id !in AddTask(s, t).tasks
    {
      assert rest[i] == ts[i + 1];
    }
  }

  /** A task that is not registered has no recorded dependencies. */
  lemma UnregisteredHasNoDependencies(s: Scheduler, y: TaskId)
    requires Valid(s) && y !in s.tasks
    ensures Dependencies(s, y) == {}
  {
    forall x
      ensures x !in Dependencies(s, y)
    {
      assert y !in Dependents(s, x);
    }
  }

  /**
   * Registering new tasks with distinct ids appends the ids to the insertion
   * order and stores each task under its id, leaving the others alone.
   */
  lemma RegisterShape(s: Scheduler, ts: seq<DagTask>)
    requires FreshIds(s, ts)
    ensures var r := Register(s, ts);
      && r.order == s.order + Ids(ts)
      && r.tasks.Keys == s.tasks.Keys + Elements(Ids(ts))
      && (forall i :: 0 <= i < |ts| ==> ts[i].id in r.tasks && r.tasks[ts[i].id] == ts[i])
      && (forall y :: y in s.tasks ==> r.tasks[y] == s.tasks[y])
  {
    RegisterOrder(s, ts);
    RegisterStores(s, ts);
  }

  lemma RegisterOrder(s: Scheduler, ts: seq<DagTask>)
    requires FreshIds(s, ts)
    ensures var r := Register(s, ts);
      r.order == s.order + Ids(ts) && r.tasks.Keys == s.tasks.Keys + Elements(Ids(ts))
  {
    RegisterAppends(s, ts);
    RegisterKeys(s, ts);
  }

  lemma {:induction false} RegisterAppends(s: Scheduler, ts: seq<DagTask>)
    requires FreshIds(s, ts)
    ensures Register(s, ts).order == s.order + Ids(ts)
    decreases |ts|
  {
    if ts != [] {
      FreshTail(s, ts);
      var s1 := AddTask(s, ts[0]);
      assert s1.order == s.order + [ts[0].id];
      RegisterAppends(s1, ts[1..]);
      assert Register(s, ts) == Register(s1, ts[1..]);
      assert (s.order + [ts[0].id]) + Ids(ts[1..]) == s.order + ([ts[0].id] + Ids(ts[1..]));
    }
  }

  lemma {:induction false} RegisterKeys(s: Scheduler, ts: seq<DagTask>)
    requires FreshIds(s, ts)
    ensures Register(s, ts).tasks.Keys == s.tasks.Keys + Elements(Ids(ts))
    decreases |ts|
  {
    if ts != [] {
      FreshTail(s, ts);
      RegisterKeys(AddTask(s, ts[0]), ts[1..]);
    }
  }

  lemma {:induction false} RegisterStores(s: Scheduler, ts: seq<DagTask>)
    requires FreshIds(s, ts)
    ensures var r := Register(s, ts);
      && (forall i :: 0 <= i < |ts| ==> ts[i].id in r.tasks && r.tasks[ts[i].id] == ts[i])
      && (forall y :: y in s.tasks ==> y in r.tasks && r.tasks[y] == s.tasks[y])
    decreases |ts|
  {
    if ts != [] {
      var t, rest := ts[0], ts[1..];
      FreshTail(s, ts);
      var s1 := AddTask(s, t);
      RegisterStores(s1, rest);
      var r := Register(s1, rest);
      forall i | 0 <= i < |ts|
        ensures ts[i].id in r.tasks && r.tasks[ts[i].id] == ts[i]
      {
        if i > 0 {
          assert ts[i] == rest[i - 1];
        }
      }
    }
  }

  /**
   * Registering tasks with distinct ids and no recorded dependencies yet
   * records for each exactly the dependencies it lists and leaves every
   * other task's dependencies alone.
   */
  lemma {:induction false} RegisterDependencies(s: Scheduler, ts: seq<DagTask>)
    requires Distinct(Ids(ts))
    requires forall i :: 0 <= i < |ts| ==> Dependencies(s, ts[i].id) == {}
    ensures var r := Register(s, ts);
      && (forall i :: 0 <= i < |ts| ==> Dependencies(r, ts[i].id) == Elements(ts[i].dependsOn))
      && (forall y :: y !in Ids(ts) ==> Dependencies(r, y) == Dependencies(s, y))
    decreases |ts|
  {
    if ts != [] {
      var t, rest := ts[0], ts[1..];
      IdsTail(ts);
      var s1 := AddTask(s, t);
      AddTaskEdges(s, t);
      forall i | 0 <= i < |rest|
        ensures Dependencies(s1, rest[i].id) == {}
      {
        assert ts[i + 1] == rest[i];
      }
      RegisterDependencies(s1, rest);
      var r := Register(s1, rest);
      forall i | 0 <= i < |ts|
        ensures Dependencies(r, ts[i].id) == Elements(ts[i].dependsOn)
      {
        if i > 0 {
          assert ts[i] == rest[i - 1];
        }
      }
    }
  }

  /** Registering a fresh batch keeps the edges simple. */
  lemma {:induction false} RegisterSimple(s: Scheduler, ts: seq<DagTask>)
    requires Valid(s) && SimpleEdges(s) && FreshBatch(s, ts)
    ensures SimpleEdges(Register(s, ts))
    decreases |ts|
  {
    if ts != [] {
      FreshTail(s, ts);
      AddTaskKeepsSimpleEdges(s, ts[0]);
      var s1 := AddTask(s, ts[0]);
      assert FreshBatch(s1, ts[1..]) by {
        forall i | 0 <= i < |ts| - 1
          ensures Distinct(ts[1..][i].dependsOn)
        {
          assert ts[1..][i] == ts[i + 1];
        }
      }
      RegisterSimple(s1, ts[1..]);
    }
  }
}

=== FILE: findings.dfy ===
/**
 * Three places where `DAGScheduler` as written departs from what its
 * documentation and its own tests evidently intend, each modelled as
 * written (with the input that shows the departure) next to the corrected
 * behaviour and the property that holds of it.
 *
 *  1. `run` executes each task once, so a task whose attempt fails with
 *     retries left is left pending and never retried.
 *  2. `run` skips only the direct dependents of a failed task; a task whose
 *     dependency was skipped still runs.
 *  3. `_topological_levels` counts the in-degree over the dependency *set*
 *     but decrements it once per *list* entry, so a duplicated entry in
 *     `depends_on` releases a task while another of its dependencies is
 *     still in the same level.
 */
module Findings {
  import opened Wrappers
  import opened Collections
  import opened DagTasks
  import opened CycleCheck
  import opened TopoLevels
  import opened TaskExecution
  import opened SchedulerRun

  // ---------------------------------------------------------------------
  // Acyclicity through a ranking

  /** Along a path, the rank grows by at least one per edge. */
  lemma {:induction false} RankedPath(s: Scheduler, rank: TaskId -> int, p: seq<TaskId>, i: int)
    requires Valid(s)
    requires forall x, y :: x in Dependencies(s, y) ==> rank(x) < rank(y)
    requires IsPath(s, p) && 0 <= i < |p|
    ensures rank(p[0]) + i <= rank(p[i])
    decreases i
  {
    if i > 0 {
      RankedPath(s, rank, p, i - 1);
      assert Edge(s, p[i - 1], p[i]);
    }
  }

  /** A graph whose every dependency ranks strictly below its dependent has no cycle. */
  lemma RankedAcyclic(s: Scheduler, rank: TaskId -> int)
    requires Valid(s)
    requires forall x, y :: x in Dependencies(s, y) ==> rank(x) < rank(y)
    ensures !HasCycle(s)
  {
    if HasCycle(s) {
      var p :| IsCycle(s, p);
      RankedPath(s, rank, p, |p| - 1);
    }
  }

  // ---------------------------------------------------------------------
  // 1. A failed attempt with retries left is never retried by `run`

  /** Without fail-fast, a registered task without dependencies is always executed. */
  lemma RootExecuted(p: Policy, s: Scheduler, env: Env, y: TaskId)
    requires Valid(s) && SimpleEdges(s) && DependenciesRegistered(s) && !HasCycle(s)
    requires y in s.tasks && s.tasks[y].dependsOn == []
    ensures RunTrace(p, s, env, false).Success?
    ensures y in RunTrace(p, s, env, false).value.executed
  {
    RunWithoutFailFastHandlesAll(p, s, env);
    RunSkipsExactlyBlocked(p, s, env, false);
    var r := RunTrace(p, s, env, false).value;
    assert !Blocked(p, s.tasks[y], r.failed, r.skipped);
  }

  /** The run as written leaves a root task whose one attempt fails with retries left pending and recorded as failed. */
  lemma SingleAttemptLeavesRetriablePending(s: Scheduler, env: Env, y: TaskId)
    requires Valid(s) && SimpleEdges(s) && DependenciesRegistered(s) && !HasCycle(s)
    requires y in s.tasks && s.tasks[y].dependsOn == []
    requires s.tasks[y].retryCount < s.tasks[y].maxRetries
    requires Outcome(s.tasks[y], env.behave(y)(s.tasks[y].retryCount)).Some?
    ensures RunTrace(AsWritten, s, env, false).Success?
    ensures var r := RunTrace(AsWritten, s, env, false).value;
      && y in r.executed && y in r.failed
      && r.tasks[y].status == Pending
      && r.tasks[y].retryCount == s.tasks[y].retryCount + 1
  {
    RootExecuted(AsWritten, s, env, y);
    RunWithoutFailFastHandlesAll(AsWritten, s, env);
    RunExecutesOnce(AsWritten, s, env, false);
  }

  /** A task that is neither completed, failed nor skipped leaves the summary's counts short of the total. */
  lemma UncountedTask(tasks: map<TaskId, DagTask>, y: TaskId)
    requires y in tasks && tasks[y].status !in {Completed, Failed, Skipped}
    ensures |StatusSet(tasks, Completed)| + |StatusSet(tasks, Failed)| + |StatusSet(tasks, Skipped)| < |tasks|
  {
    var c, f, k := StatusSet(tasks, Completed), StatusSet(tasks, Failed), StatusSet(tasks, Skipped);
    assert c * f == {} && (c + f) * k == {};
    assert |c + f + k| == |c| + |f| + |k|;
    assert c + f + k < tasks.Keys by {
      assert y !in c + f + k;
    }
    StrictSubsetCardinality(c + f + k, tasks.Keys);
  }

  /** Hence the summary of such a run does not account for every task. */
  lemma SingleAttemptSummaryFallsShort(s: Scheduler, env: Env, y: TaskId)
    requires Valid(s) && SimpleEdges(s) && DependenciesRegistered(s) && !HasCycle(s)
    requires y in s.tasks && s.tasks[y].dependsOn == []
    requires s.tasks[y].retryCount < s.tasks[y].maxRetries
    requires Outcome(s.tasks[y], env.behave(y)(s.tasks[y].retryCount)).Some?
    ensures Run(AsWritten, s, env, false).Done? <==> s.maxParallel > 0
    ensures var r := Run(AsWritten, s, env, false);
      r.Done? ==> r.summary.completed + r.summary.failed + r.summary.skipped < r.summary.total
  {
    RootUnlessEmpty(s);
    SingleAttemptLeavesRetriablePending(s, env, y);
    var r := RunTrace(AsWritten, s, env, false).value;
    RunTraceKeys(AsWritten, s, env, false);
    UncountedTask(r.tasks, y);
  }

  /** Some attempt the retry budget allows, numbers `retry_count` to `max(retry_count, max_retries)`, succeeds. */
  ghost predicate SomeAllowedAttemptSucceeds(t: DagTask, behave: nat -> Behaviour)
  {
    exists i :: t.retryCount <= i <= LastAttempt(t) && Outcome(t, behave(i)) == None
  }

  /**
   * Under the corrected policy every executed task ends completed or failed,
   * and completed exactly when one of the attempts its budget allows succeeds.
   */
  lemma CorrectedRunRetries(s: Scheduler, env: Env)
    requires Valid(s) && SimpleEdges(s) && !HasCycle(s)
    ensures RunTrace(Corrected, s, env, false).Success?
    ensures var r := RunTrace(Corrected, s, env, false).value;
      forall y :: y in r.executed ==>
        && y in s.tasks && y in r.tasks
        && r.tasks[y].status in {Completed, Failed}
        && (r.tasks[y].status == Completed <==> SomeAllowedAttemptSucceeds(s.tasks[y], env.behave(y)))
  {
    RunExecutesOnce(Corrected, s, env, false);
    var r := RunTrace(Corrected, s, env, false).value;
    ExecutedSettle(s, env, r);
  }

  lemma ExecutedSettle(s: Scheduler, env: Env, r: RunState)
    requires Valid(s) && r.tasks.Keys == s.tasks.Keys
    requires forall y :: y in r.executed ==> y in s.tasks && r.tasks[y] == RunAttempt(Corrected, s.tasks[y], env).task
    ensures forall y :: y in r.executed ==>
        && y in s.tasks && y in r.tasks
        && r.tasks[y].status in {Completed, Failed}
        && (r.tasks[y].status == Completed <==> SomeAllowedAttemptSucceeds(s.tasks[y], env.behave(y)))
  {
    forall y | y in r.executed
      ensures r.tasks[y].status == Completed <==> SomeAllowedAttemptSucceeds(s.tasks[y], env.behave(y))
    {
      assert s.tasks[y].id == y;
      RetriesSucceedIffSomeAttemptDoes(s.tasks[y], env.behave(y), env.clock(y));
    }
  }

  /** The retry test's task: three retries allowed. */
  const RetryTask: DagTask := NewTask("retry_task", "Retry Task", []).(maxRetries := 3)

  /** The scheduler after `add_task(RetryTask)`. */
  function RetryScheduler(maxParallel: int): Scheduler
  {
    AddTask(EmptyScheduler(maxParallel), RetryTask)
  }

  /** The retry test's callable: raises on its first two calls and returns on the third. */
  function RetryEnv(): Env
  {
    Env((id: TaskId) => (n: nat) => if n < 2 then Throws(false) else Returns(0.0),
        (id: TaskId) => (n: nat) => 0.0)
  }

  lemma RetrySchedulerFacts(n: int)
    ensures var s := RetryScheduler(n);
      && Valid(s) && SimpleEdges(s) && DependenciesRegistered(s) && !HasCycle(s)
      && s.tasks.Keys == {"retry_task"} && s.tasks["retry_task"] == RetryTask
  {
    var s0 := EmptyScheduler(n);
    var s := RetryScheduler(n);
    assert Valid(s0) && SimpleEdges(s0);
    AddTaskKeepsSimpleEdges(s0, RetryTask);
    AddTaskEdges(s0, RetryTask);
    assert forall y :: Dependencies(s, y) == {};
    RankedAcyclic(s, _ => 0);
  }

  /**
   * As written, the retry test's run executes the task once, leaves it
   * pending, and reports nothing completed, where the test expects one.
   */
  lemma RetryTestAsWritten(n: int)
    ensures Valid(RetryScheduler(n))
    ensures var r := Run(AsWritten, RetryScheduler(n), RetryEnv(), false);
      && (n > 0 ==> r.Done? && r.summary.total == 1 && r.summary.completed == 0)
      && (n < 0 ==> r == Aborted(NegativeSemaphore))
      && (n == 0 ==> r == NeverReturns)
  {
    RetrySchedulerFacts(n);
    RootUnlessEmpty(RetryScheduler(n));
    SingleAttemptSummaryFallsShort(RetryScheduler(n), RetryEnv(), "retry_task");
  }

  /** Retried in place, the retry test's task completes on its third attempt. */
  lemma RetryTaskThirdAttempt()
    ensures var a := ExecuteWithRetries(RetryTask, RetryEnv().behave("retry_task"), RetryEnv().clock("retry_task"));
      a.success && a.task.status == Completed && a.task.retryCount == 2
  {
    var behave := RetryEnv().behave("retry_task");
    var a := ExecuteWithRetries(RetryTask, behave, RetryEnv().clock("retry_task"));
    assert Outcome(RetryTask, behave(2)) == None;
    RetriesSucceedIffSomeAttemptDoes(RetryTask, behave, RetryEnv().clock("retry_task"));
    assert Outcome(RetryTask, behave(0)).Some? && Outcome(RetryTask, behave(1)).Some?;
  }

  /** A one-task map whose task completed has one completed task. */
  lemma OneCompleted(tasks: map<TaskId, DagTask>, y: TaskId)
    requires tasks.Keys == {y} && tasks[y].status == Completed
    ensures |StatusSet(tasks, Completed)| == 1
  {
    assert StatusSet(tasks, Completed) == {y};
  }

  /**
   * Under the corrected policy the same run completes the task on its third
   * attempt (two retries), as the test expects.
   */
  lemma RetryTestCorrected(n: int)
    ensures Valid(RetryScheduler(n))
    ensures var r := RunTrace(Corrected, RetryScheduler(n), RetryEnv(), false);
      && r.Success? && "retry_task" in r.value.tasks
      && r.value.tasks["retry_task"].status == Completed
      && r.value.tasks["retry_task"].retryCount == 2
    ensures var r := Run(Corrected, RetryScheduler(n), RetryEnv(), false);
      && (n > 0 ==> r.Done? && r.summary.total == 1 && r.summary.completed == 1)
      && (n < 0 ==> r == Aborted(NegativeSemaphore))
      && (n == 0 ==> r == NeverReturns)
  {
    var s, env := RetryScheduler(n), RetryEnv();
    RetrySchedulerFacts(n);
    RootExecuted(Corrected, s, env, "retry_task");
    RunExecutesOnce(Corrected, s, env, false);
    var r := RunTrace(Corrected, s, env, false).value;
    RetryTaskThirdAttempt();
    assert r.tasks["retry_task"] == RunAttempt(Corrected, RetryTask, env).task;
    OneCompleted(r.tasks, "retry_task");
    RootUnlessEmpty(s);
  }

  // ---------------------------------------------------------------------
  // 2. Only direct dependents of a failed task are skipped

  /** A chain `a <- b <- c`: `b` names only `a`, `c` names only `b`. */
  ghost predicate Chain(s: Scheduler, a: TaskId, b: TaskId, c: TaskId)
  {
    && a in s.tasks && b in s.tasks && c in s.tasks
    && s.tasks[a].dependsOn == [] && s.tasks[b].dependsOn == [a] && s.tasks[c].dependsOn == [b]
  }

  /**
   * As written, when the head of a chain fails, its direct dependent is
   * skipped but the task after that still runs, without its dependency ever
   * having run.
   */
  lemma ChainRunsPastSkipped(s: Scheduler, env: Env, a: TaskId, b: TaskId, c: TaskId)
    requires Valid(s) && SimpleEdges(s) && DependenciesRegistered(s) && !HasCycle(s)
    requires Chain(s, a, b, c)
    requires !RunAttempt(AsWritten, s.tasks[a], env).success
    ensures RunTrace(AsWritten, s, env, false).Success?
    ensures var r := RunTrace(AsWritten, s, env, false).value;
      && a in r.failed && b in r.skipped && c in r.executed
      && !RanAfterDependencies(s, r)
  {
    RootExecuted(AsWritten, s, env, a);
    RunWithoutFailFastHandlesAll(AsWritten, s, env);
    RunSkipsExactlyBlocked(AsWritten, s, env, false);
    var r := RunTrace(AsWritten, s, env, false).value;
    assert a in r.failed;
    assert Blocked(AsWritten, s.tasks[b], r.failed, r.skipped);
    assert b in r.skipped;
    assert b !in r.failed;
    assert !Blocked(AsWritten, s.tasks[c], r.failed, r.skipped);
    assert c in r.executed;
    assert b in s.tasks[c].dependsOn && b !in r.executed;
  }

  /** Under the corrected policy the failure of the head skips the whole chain. */
  lemma ChainSkippedTransitively(s: Scheduler, env: Env, a: TaskId, b: TaskId, c: TaskId)
    requires Valid(s) && SimpleEdges(s) && DependenciesRegistered(s) && !HasCycle(s)
    requires Chain(s, a, b, c)
    requires !RunAttempt(Corrected, s.tasks[a], env).success
    ensures RunTrace(Corrected, s, env, false).Success?
    ensures var r := RunTrace(Corrected, s, env, false).value;
      a in r.failed && b in r.skipped && c in r.skipped
  {
    RootExecuted(Corrected, s, env, a);
    RunWithoutFailFastHandlesAll(Corrected, s, env);
    RunSkipsExactlyBlocked(Corrected, s, env, false);
    var r := RunTrace(Corrected, s, env, false).value;
    assert a in r.failed;
    assert Blocked(Corrected, s.tasks[b], r.failed, r.skipped);
    assert b in r.skipped;
    assert Blocked(Corrected, s.tasks[c], r.failed, r.skipped);
  }

  /** The failure-propagation test's two tasks with a third task after the dependent. */
  function ChainTasks(): seq<DagTask>
  {
    [NewTask("fail", "Failing Task", []).(maxRetries := 0),
     NewTask("dep", "Dependent Task", ["fail"]),
     NewTask("after", "After Dependent", ["dep"])]
  }

  function ChainScheduler(maxParallel: int): Scheduler
  {
    Register(EmptyScheduler(maxParallel), ChainTasks())
  }

  /** `fail` always raises; the other callables return at once. */
  function ChainEnv(): Env
  {
    Env((id: TaskId) => (n: nat) => if id == "fail" then Throws(false) else Returns(0.0),
        (id: TaskId) => (n: nat) => 0.0)
  }

  lemma ChainIds()
    ensures Ids(ChainTasks()) == ["fail", "dep", "after"]
    ensures Distinct(Ids(ChainTasks()))
  {
  }

  lemma ChainSimple(n: int)
    ensures Valid(ChainScheduler(n)) && SimpleEdges(ChainScheduler(n))
  {
    var s0, ts := EmptyScheduler(n), ChainTasks();
    assert Valid(s0) && SimpleEdges(s0);
    assert FreshBatch(s0, ts) by {
      ChainIds();
    }
    RegisterSimple(s0, ts);
  }

  /** Registering fresh tasks into an empty scheduler registers exactly their ids. */
  lemma RegisteredKeys(s0: Scheduler, ts: seq<DagTask>, ids: set<TaskId>)
    requires s0.tasks == map[] && FreshIds(s0, ts) && Elements(Ids(ts)) == ids
    ensures Register(s0, ts).tasks.Keys == ids
  {
    RegisterShape(s0, ts);
  }

  lemma ChainKeys(n: int)
    ensures ChainScheduler(n).tasks.Keys == {"fail", "dep", "after"}
  {
    ChainIds();
    RegisteredKeys(EmptyScheduler(n), ChainTasks(), {"fail", "dep", "after"});
  }

  lemma ChainTaskAt(n: int, i: int)
    requires 0 <= i < |ChainTasks()|
    ensures var t := ChainTasks()[i];
      t.id in ChainScheduler(n).tasks && ChainScheduler(n).tasks[t.id] == t
  {
    var s0, ts := EmptyScheduler(n), ChainTasks();
    assert FreshIds(s0, ts) by {
      ChainIds();
    }
    RegisterShape(s0, ts);
  }

  lemma ChainShape(n: int)
    ensures var s := ChainScheduler(n);
      && s.tasks.Keys == {"fail", "dep", "after"}
      && s.tasks["fail"] == ChainTasks()[0]
      && s.tasks["dep"] == ChainTasks()[1]
      && s.tasks["after"] == ChainTasks()[2]
  {
    ChainKeys(n);
    ChainTaskAt(n, 0);
    ChainTaskAt(n, 1);
    ChainTaskAt(n, 2);
  }

  lemma ChainDependencies(n: int)
    ensures var s := ChainScheduler(n);
      forall y :: Dependencies(s, y) == if y == "dep" then {"fail"} else if y == "after" then {"dep"} else {}
  {
    var s0, ts := EmptyScheduler(n), ChainTasks();
    ChainIds();
    RegisterDependencies(s0, ts);
    var s := ChainScheduler(n);
    assert Dependencies(s, "fail") == Elements(ts[0].dependsOn);
    assert Dependencies(s, "dep") == Elements(ts[1].dependsOn);
    assert Dependencies(s, "after") == Elements(ts[2].dependsOn);
  }

  lemma ChainRank(s: Scheduler)
    requires Valid(s)
    requires forall y :: Dependencies(s, y) == if y == "dep" then {"fail"} else if y == "after" then {"dep"} else {}
    ensures !HasCycle(s)
  {
    RankedAcyclic(s, y => if y == "fail" then 0 else if y == "dep" then 1 else 2);
  }

  lemma ChainAcyclic(n: int)
    ensures Valid(ChainScheduler(n)) && !HasCycle(ChainScheduler(n))
  {
    assert Valid(EmptyScheduler(n));
    ChainDependencies(n);
    ChainRank(ChainScheduler(n));
  }

  lemma ChainFacts(n: int)
    ensures var s := ChainScheduler(n);
      && Valid(s) && SimpleEdges(s) && DependenciesRegistered(s) && !HasCycle(s)
      && Chain(s, "fail", "dep", "after")
      && s.tasks["fail"] == ChainTasks()[0]
  {
    ChainSimple(n);
    ChainShape(n);
    ChainAcyclic(n);
    ChainDependencies(n);
  }

  /** As written: `fail` fails, `dep` is skipped, and `after` runs anyway. */
  lemma ChainTestAsWritten(n: int)
    ensures Valid(ChainScheduler(n))
    ensures var r := RunTrace(AsWritten, ChainScheduler(n), ChainEnv(), false);
      && r.Success?
      && "fail" in r.value.failed && "dep" in r.value.skipped && "after" in r.value.executed
  {
    ChainFacts(n);
    ChainRunsPastSkipped(ChainScheduler(n), ChainEnv(), "fail", "dep", "after");
  }

  /** A task whose callable raises on every attempt fails for good, however often it is retried. */
  lemma AlwaysRaisingFails(t: DagTask, behave: nat -> Behaviour, clock: nat -> real)
    requires forall i :: behave(i) == Throws(false)
    ensures !ExecuteWithRetries(t, behave, clock).success
  {
    assert forall i :: Outcome(t, behave(i)).Some?;
    RetriesSucceedIffSomeAttemptDoes(t, behave, clock);
  }

  /** Corrected: `after` is skipped along with `dep`. */
  lemma ChainTestCorrected(n: int)
    ensures Valid(ChainScheduler(n))
    ensures var r := RunTrace(Corrected, ChainScheduler(n), ChainEnv(), false);
      && r.Success?
      && "fail" in r.value.failed && "dep" in r.value.skipped && "after" in r.value.skipped
  {
    var s, env := ChainScheduler(n), ChainEnv();
    ChainFacts(n);
    assert s.tasks["fail"].id == "fail";
    AlwaysRaisingFails(s.tasks["fail"], env.behave("fail"), env.clock("fail"));
    ChainSkippedTransitively(s, env, "fail", "dep", "after");
  }

  // ---------------------------------------------------------------------
  // 3. A duplicated dependency releases a task too early

  /** The rounds only ever append levels; a non-empty queue becomes the next one. */
  lemma {:induction false} LayersPrefix(s: Scheduler, deg: map<TaskId, int>, queue: seq<TaskId>, levels: seq<seq<TaskId>>)
    requires DegreesOk(s, deg)
    ensures var r := Layers(s, deg, queue, levels);
      && |levels| <= |r| && r[..|levels|] == levels
      && (queue != [] ==> |levels| < |r| && r[|levels|] == queue)
    decreases |Positive(deg)| + |queue|
  {
    if queue != [] {
      var step := ProcessLayer(s, deg, queue, []);
      LayersUnfold(s, deg, queue, levels);
      assert step.1[0..] == step.1;
      PositiveShrinks(deg, step.0, step.1);
      LayersPrefix(s, step.0, step.1, levels + [queue]);
      PrefixOfExtension(Layers(s, step.0, step.1, levels + [queue]), levels, queue);
    }
  }

  lemma PrefixOfExtension<T>(r: seq<T>, init: seq<T>, last: T)
    requires |init| + 1 <= |r| && r[..|init| + 1] == init + [last]
    ensures r[..|init|] == init && r[|init|] == last
  {
    assert r[..|init|] == r[..|init| + 1][..|init|];
  }

  /** `a`, then `b` on `a`, then `y` on `a`, `a` again, and `b`. */
  const DupA: DagTask := NewTask("a", "a", [])
  const DupB: DagTask := NewTask("b", "b", ["a"])
  const DupY: DagTask := NewTask("y", "y", ["a", "a", "b"])

  /** The scheduler after the three `add_task` calls. */
  function DuplicateScheduler(maxParallel: int): Scheduler
  {
    AddTask(AddTask(AddTask(EmptyScheduler(maxParallel), DupA), DupB), DupY)
  }

  /** Registering a new id appends it to the order and stores the task. */
  lemma AddFresh(s: Scheduler, t: DagTask)
    requires Valid(s) && t.id !in s.tasks
    ensures var r := AddTask(s, t);
      Valid(r) && r.order == s.order + [t.id] && r.tasks.Keys == s.tasks.Keys + {t.id} && r.tasks[t.id] == t
  {
  }

  /** Three tasks with ids `a`, `b` and `y`. */
  predicate DuplicateIds(a: DagTask, b: DagTask, y: DagTask)
  {
    a.id == "a" && b.id == "b" && y.id == "y"
  }

  lemma DuplicateOrder(s0: Scheduler, a: DagTask, b: DagTask, y: DagTask)
    requires s0 == EmptyScheduler(s0.maxParallel) && DuplicateIds(a, b, y)
    ensures var s := AddTask(AddTask(AddTask(s0, a), b), y);
      Valid(s) && s.order == ["a", "b", "y"] && s.tasks.Keys == {"a", "b", "y"} && s.tasks["y"] == y
  {
    assert Valid(s0);
    AddFresh(s0, a);
    var s1 := AddTask(s0, a);
    AddFresh(s1, b);
    var s2 := AddTask(s1, b);
    AddFresh(s2, y);
  }

  /** The dependents of `x` after one registration. */
  lemma DependentsAfter(s: Scheduler, t: DagTask, x: TaskId)
    ensures Dependents(AddTask(s, t), x) == Dependents(s, x) + Repeat(t.id, multiset(t.dependsOn)[x])
  {
    AddTaskEdges(s, t);
  }

  /** A registration adds the listed dependencies to the task's own recorded set. */
  lemma DependenciesOwn(s: Scheduler, t: DagTask)
    ensures Dependencies(AddTask(s, t), t.id) == Dependencies(s, t.id) + Elements(t.dependsOn)
  {
    AddTaskEdges(s, t);
  }

  /** A registration leaves the recorded dependencies of every other task alone. */
  lemma DependenciesOther(s: Scheduler, t: DagTask, y: TaskId)
    requires y != t.id
    ensures Dependencies(AddTask(s, t), y) == Dependencies(s, y)
  {
    AddTaskEdges(s, t);
  }

  /** The three registrations in turn. */
  ghost predicate DuplicateSteps(s0: Scheduler, s1: Scheduler, s2: Scheduler, s: Scheduler, a: DagTask, b: DagTask, y: DagTask)
  {
    && s0 == EmptyScheduler(s0.maxParallel) && DuplicateIds(a, b, y)
    && s1 == AddTask(s0, a) && s2 == AddTask(s1, b) && s == AddTask(s2, y)
  }

  lemma DuplicateDependenciesA(s0: Scheduler, s1: Scheduler, s2: Scheduler, s: Scheduler, a: DagTask, b: DagTask, y: DagTask)
    requires DuplicateSteps(s0, s1, s2, s, a, b, y) && Elements(a.dependsOn) == {}
    ensures Dependencies(s, "a") == {}
  {
    DependenciesOwn(s0, a);
    DependenciesOther(s1, b, "a");
    DependenciesOther(s2, y, "a");
  }

  lemma DuplicateDependenciesB(s0: Scheduler, s1: Scheduler, s2: Scheduler, s: Scheduler, a: DagTask, b: DagTask, y: DagTask)
    requires DuplicateSteps(s0, s1, s2, s, a, b, y) && Elements(b.dependsOn) == {"a"}
    ensures Dependencies(s, "b") == {"a"}
  {
    DependenciesOther(s0, a, "b");
    DependenciesOwn(s1, b);
    DependenciesOther(s2, y, "b");
  }

  lemma DuplicateDependenciesY(s0: Scheduler, s1: Scheduler, s2: Scheduler, s: Scheduler, a: DagTask, b: DagTask, y: DagTask)
    requires DuplicateSteps(s0, s1, s2, s, a, b, y) && Elements(y.dependsOn) == {"a", "b"}
    ensures Dependencies(s, "y") == {"a", "b"}
  {
    DependenciesOther(s0, a, "y");
    DependenciesOther(s1, b, "y");
    DependenciesOwn(s2, y);
  }

  /** The dependents of `a` after the three registrations, from what each one appends. */
  lemma DuplicateDependents(s0: Scheduler, s1: Scheduler, s2: Scheduler, s: Scheduler, a: DagTask, b: DagTask, y: DagTask)
    requires DuplicateIds(a, b, y) && Dependents(s0, "a") == []
    requires Dependents(s1, "a") == Dependents(s0, "a") + Repeat(a.id, 0)
    requires Dependents(s2, "a") == Dependents(s1, "a") + Repeat(b.id, 1)
    requires Dependents(s, "a") == Dependents(s2, "a") + Repeat(y.id, 2)
    ensures Dependents(s, "a") == ["b", "y", "y"]
  {
    RepeatSmall("a", "b", "y");
    assert Dependents(s1, "a") == [];
    assert Dependents(s2, "a") == ["b"];
  }

  lemma RepeatSmall(a: TaskId, b: TaskId, y: TaskId)
    ensures Repeat(a, 0) == [] && Repeat(b, 1) == [b] && Repeat(y, 2) == [y, y]
  {
    assert Repeat(y, 2)[1] == y;
  }

  lemma DuplicateListed()
    ensures DuplicateIds(DupA, DupB, DupY)
    ensures Elements(DupA.dependsOn) == {} && Elements(DupB.dependsOn) == {"a"} && Elements(DupY.dependsOn) == {"a", "b"}
    ensures multiset(DupA.dependsOn)["a"] == 0 && multiset(DupB.dependsOn)["a"] == 1 && multiset(DupY.dependsOn)["a"] == 2
  {
    assert DupY.dependsOn == ["a", "a", "b"];
    assert multiset(DupY.dependsOn) == multiset{"a", "a", "b"};
  }

  lemma DuplicateEdges(n: int)
    ensures var s := DuplicateScheduler(n);
      && Valid(s)
      && s.order == ["a", "b", "y"] && s.tasks.Keys == {"a", "b", "y"} && s.tasks["y"] == DupY
      && Dependencies(s, "a") == {} && Dependencies(s, "b") == {"a"} && Dependencies(s, "y") == {"a", "b"}
      && Dependents(s, "a") == ["b", "y", "y"]
  {
    var s0 := EmptyScheduler(n);
    DuplicateListed();
    DuplicateOrder(s0, DupA, DupB, DupY);
    var s1 := AddTask(s0, DupA);
    var s2 := AddTask(s1, DupB);
    var s := AddTask(s2, DupY);
    DuplicateDependenciesA(s0, s1, s2, s, DupA, DupB, DupY);
    DuplicateDependenciesB(s0, s1, s2, s, DupA, DupB, DupY);
    DuplicateDependenciesY(s0, s1, s2, s, DupA, DupB, DupY);
    DependentsAfter(s0, DupA, "a");
    DependentsAfter(s1, DupB, "a");
    DependentsAfter(s2, DupY, "a");
    DuplicateDependents(s0, s1, s2, s, DupA, DupB, DupY);
  }

  /** What the three registrations leave behind, as far as the levels are concerned. */
  ghost predicate DuplicateState(s: Scheduler)
  {
    && Valid(s)
    && s.order == ["a", "b", "y"] && s.tasks.Keys == {"a", "b", "y"}
    && Dependencies(s, "a") == {} && Dependencies(s, "b") == {"a"} && Dependencies(s, "y") == {"a", "b"}
    && Dependents(s, "a") == ["b", "y", "y"]
  }

  lemma DuplicateInitialQueue(s: Scheduler)
    requires DuplicateState(s)
    ensures var deg := InitialDegrees(s);
      && deg["a"] == 0 && deg["b"] == 1 && deg["y"] == 2
      && ZeroDegree(s.order, deg) == ["a"]
  {
    var deg := InitialDegrees(s);
    assert |Dependencies(s, "y")| == 2;
    var q := ZeroDegree(s.order, deg);
    assert q == ["a"] by {
      assert ZeroDegree(s.order[2..], deg) == [];
      assert ZeroDegree(s.order[1..], deg) == [];
      assert s.order[1..] == ["b", "y"] && s.order[1..][1..] == ["y"] && s.order[2..] == ["y"];
    }
  }

  lemma DuplicateFirstRound(s: Scheduler, deg: map<TaskId, int>)
    requires DuplicateState(s) && DegreesOk(s, deg)
    requires deg["b"] == 1 && deg["y"] == 2
    ensures var step := ProcessLayer(s, deg, ["a"], []);
      "b" in step.1 && "y" in step.1
  {
    var step := ProcessLayer(s, deg, ["a"], []);
    assert Incoming(s, ["a"], "b") == 1 && Incoming(s, ["a"], "y") == 2 by {
      assert ["a"][1..] == [];
      assert multiset(Dependents(s, "a")) == multiset{"b", "y", "y"};
    }
    assert step.1[0..] == step.1;
  }

  /** One round of the outer loop. */
  lemma LayersUnfold(s: Scheduler, deg: map<TaskId, int>, queue: seq<TaskId>, levels: seq<seq<TaskId>>)
    requires DegreesOk(s, deg) && queue != []
    ensures var step := ProcessLayer(s, deg, queue, []);
      DegreesOk(s, step.0) && Layers(s, deg, queue, levels) == Layers(s, step.0, step.1, levels + [queue])
  {
  }

  /** The first level is the initial queue, and the second the tasks the first round releases. */
  lemma FirstTwoLayers(s: Scheduler, deg: map<TaskId, int>, q: seq<TaskId>)
    requires DegreesOk(s, deg) && q != []
    ensures var step := ProcessLayer(s, deg, q, []);
      var r := Layers(s, deg, q, []);
      && |r| >= 1 && r[0] == q
      && (step.1 != [] ==> |r| >= 2 && r[1] == step.1)
  {
    var step := ProcessLayer(s, deg, q, []);
    LayersUnfold(s, deg, q, []);
    var first: seq<seq<TaskId>> := [q];
    assert [] + [q] == first;
    LayersPrefix(s, step.0, step.1, first);
    var r := Layers(s, step.0, step.1, first);
    assert r[0] == r[..1][0];
  }

  /** In that state, the second level holds both `b` and `y`. */
  lemma SharedLevel(s: Scheduler)
    requires DuplicateState(s)
    ensures var levels := TopologicalLevels(s);
      |levels| >= 2 && levels[0] == ["a"] && "b" in levels[1] && "y" in levels[1]
  {
    var deg := InitialDegrees(s);
    DuplicateInitialQueue(s);
    DuplicateFirstRound(s, deg);
    FirstTwoLayers(s, deg, ["a"]);
  }

  /**
   * `y` names `b`, yet both land in the second level: `y`'s in-degree is 2
   * (its dependency set `{a, b}`), and finishing `a` alone takes 2 off it
   * because `a` appears twice in `y`'s list.
   */
  lemma DuplicateDependencySharesLevel(n: int)
    ensures Valid(DuplicateScheduler(n)) && !SimpleEdges(DuplicateScheduler(n))
    ensures var s := DuplicateScheduler(n);
      var levels := TopologicalLevels(s);
      && |levels| >= 2 && levels[0] == ["a"]
      && "b" in levels[1] && "y" in levels[1]
      && "y" in s.tasks && "b" in s.tasks["y"].dependsOn
  {
    var s := DuplicateScheduler(n);
    DuplicateEdges(n);
    assert Dependents(s, "a")[1] == Dependents(s, "a")[2];
    SharedLevel(s);
  }

  /** The first level is `[a]` alone, so a task of the second level has only `a` before it. */
  lemma OnlyRootBefore(levels: seq<seq<TaskId>>)
    requires |levels| >= 2 && levels[0] == ["a"]
    ensures Placed(levels[..1]) == {"a"}
  {
    assert levels[..1] == [["a"]];
    assert Flatten(levels[..1]) == Flatten(levels[..1][..0]) + ["a"];
  }

  /**
   * So the levels as written break the guarantee that every recorded
   * dependency of a task is placed in an earlier level.
   */
  lemma DuplicateBreaksDepsEarlier(n: int)
    ensures Valid(DuplicateScheduler(n))
    ensures !DepsEarlier(DuplicateScheduler(n), TopologicalLevels(DuplicateScheduler(n)))
    ensures !LevelsExact(DuplicateScheduler(n), TopologicalLevels(DuplicateScheduler(n)))
  {
    var s := DuplicateScheduler(n);
    DuplicateEdges(n);
    SharedLevel(s);
    var levels := TopologicalLevels(s);
    OnlyRootBefore(levels);
    assert "y" in levels[1] && "b" in Dependencies(s, "y") && "b" !in Placed(levels[..1]);
  }

  // The correction: drop repeated entries of `depends_on` at registration.

  /** `xs` with repeated entries dropped, each first occurrence kept in place. */
  function Dedup(xs: seq<TaskId>): (r: seq<TaskId>)
    ensures Distinct(r) && Elements(r) == Elements(xs)
    ensures Distinct(xs) ==> r == xs
    decreases |xs|
  {
    if xs == [] then []
    else
      var init, last := xs[..|xs| - 1], xs[|xs| - 1];
      assert xs == init + [last];
      var rest := Dedup(init);
      assert Distinct(xs) ==> Distinct(init) && last !in init;
      if last in init then rest
      else
        DistinctConcat(rest, [last]);
        assert Elements(rest + [last]) == Elements(init) + {last};
        rest + [last]
  }

  /** `add_task` with the dependency list deduplicated first. */
  function AddTaskDeduped(s: Scheduler, t: DagTask): (r: Scheduler)
    ensures Valid(s) ==> Valid(r)
  {
    AddTask(s, t.(dependsOn := Dedup(t.dependsOn)))
  }

  /**
   * Deduplicated registration records the same dependencies as `add_task`
   * and keeps every dependents list free of repeats, so the levels keep
   * each recorded dependency of a task in an earlier level.
   */
  lemma DedupedRegistrationKeepsLevelsOrdered(s: Scheduler, t: DagTask)
    requires Valid(s) && SimpleEdges(s) && t.id !in s.tasks
    ensures var r := AddTaskDeduped(s, t);
      && Valid(r) && SimpleEdges(r)
      && Dependencies(r, t.id) == Dependencies(AddTask(s, t), t.id)
      && DepsEarlier(r, TopologicalLevels(r))
  {
    var u := t.(dependsOn := Dedup(t.dependsOn));
    AddTaskKeepsSimpleEdges(s, u);
    DependenciesOwn(s, u);
    DependenciesOwn(s, t);
    TopologicalLevelsExact(AddTask(s, u));
  }

  /** The three registrations of the duplicate example, deduplicated. */
  function DedupedScheduler(maxParallel: int): Scheduler
  {
    AddTaskDeduped(AddTaskDeduped(AddTaskDeduped(EmptyScheduler(maxParallel), DupA), DupB), DupY)
  }

  /** A deduplicated registration of a fresh id keeps the scheduler valid and free of repeated edges, and stores the task under its id. */
  lemma DedupedStep(s: Scheduler, t: DagTask)
    requires Valid(s) && SimpleEdges(s) && t.id !in s.tasks
    ensures var r := AddTaskDeduped(s, t);
      && Valid(r) && SimpleEdges(r)
      && r.tasks.Keys == s.tasks.Keys + {t.id}
      && r.tasks[t.id] == t.(dependsOn := Dedup(t.dependsOn))
  {
    DedupedRegistrationKeepsLevelsOrdered(s, t);
    AddFresh(s, t.(dependsOn := Dedup(t.dependsOn)));
  }

  /** Three deduplicated registrations of distinct ids, the last of which lists `b`. */
  lemma DedupedThree(s0: Scheduler, a: DagTask, b: DagTask, y: DagTask)
    requires s0 == EmptyScheduler(s0.maxParallel) && DuplicateIds(a, b, y)
    ensures var s := AddTaskDeduped(AddTaskDeduped(AddTaskDeduped(s0, a), b), y);
      && Valid(s) && SimpleEdges(s)
      && "y" in s.tasks && Elements(s.tasks["y"].dependsOn) == Elements(y.dependsOn)
  {
    assert Valid(s0) && SimpleEdges(s0);
    DedupedStep(s0, a);
    var s1 := AddTaskDeduped(s0, a);
    DedupedStep(s1, b);
    var s2 := AddTaskDeduped(s1, b);
    DedupedStep(s2, y);
  }

  /** Deduplicated, the example's `y` never shares a level with its dependency `b`. */
  lemma DedupedSeparatesLevels(n: int)
    ensures Valid(DedupedScheduler(n)) && SimpleEdges(DedupedScheduler(n))
    ensures var levels := TopologicalLevels(DedupedScheduler(n));
      forall i :: 0 <= i < |levels| ==> !("b" in levels[i] && "y" in levels[i])
  {
    var s := DedupedScheduler(n);
    DuplicateListed();
    DedupedThree(EmptyScheduler(n), DupA, DupB, DupY);
    assert "b" in s.tasks["y"].dependsOn by {
      assert "b" in Elements(DupY.dependsOn);
    }
    LevelsRespectDependencies(s);
  }

  // A repeated entry also lets a task past a dependency that is never placed:
  // `y` names `z` twice and `w` once, so finishing `z` alone takes its
  // in-degree of 2 down to 0. With `w` unregistered, `y` is scheduled and run
  // anyway; with `w` being `y` itself, a task on a cycle is scheduled.

  const TwiceZ: DagTask := NewTask("z", "z", [])

  function TwiceY(w: TaskId): DagTask
  {
    NewTask("y", "y", [w, "z", "z"])
  }

  /** `z`, then `y` on `w`, `z` and `z` again. */
  function TwiceScheduler(maxParallel: int, w: TaskId): Scheduler
  {
    AddTask(AddTask(EmptyScheduler(maxParallel), TwiceZ), TwiceY(w))
  }

  /** What the two registrations leave behind. */
  ghost predicate TwiceState(s: Scheduler, w: TaskId)
  {
    && Valid(s)
    && s.order == ["z", "y"] && s.tasks.Keys == {"z", "y"}
    && Dependencies(s, "z") == {} && Dependencies(s, "y") == {w, "z"}
    && Dependents(s, "z") == ["y", "y"] && Dependents(s, w) == ["y"]
  }

  lemma TwiceListed(w: TaskId)
    requires w != "z"
    ensures Elements(TwiceZ.dependsOn) == {} && Elements(TwiceY(w).dependsOn) == {w, "z"}
    ensures multiset(TwiceZ.dependsOn)["z"] == 0 && multiset(TwiceY(w).dependsOn)["z"] == 2
    ensures multiset(TwiceZ.dependsOn)[w] == 0 && multiset(TwiceY(w).dependsOn)[w] == 1
  {
    assert TwiceY(w).dependsOn == [w, "z", "z"];
    assert multiset(TwiceY(w).dependsOn) == multiset{w, "z", "z"};
  }

  /** The two registrations in turn. */
  ghost predicate TwiceSteps(s0: Scheduler, s1: Scheduler, s: Scheduler, w: TaskId)
  {
    s0 == EmptyScheduler(s0.maxParallel) && s1 == AddTask(s0, TwiceZ) && s == AddTask(s1, TwiceY(w)) && w != "z"
  }

  lemma TwiceOrder(s0: Scheduler, z: DagTask, y: DagTask)
    requires s0 == EmptyScheduler(s0.maxParallel) && z.id == "z" && y.id == "y"
    ensures var s := AddTask(AddTask(s0, z), y);
      Valid(s) && s.order == ["z", "y"] && s.tasks.Keys == {"z", "y"} && s.tasks["y"] == y
  {
    assert Valid(s0);
    AddFresh(s0, z);
    var s1 := AddTask(s0, z);
    assert s1.order == ["z"] && s1.tasks.Keys == {"z"};
    AddFresh(s1, y);
  }

  lemma TwiceDependencies(s0: Scheduler, s1: Scheduler, s: Scheduler, w: TaskId)
    requires TwiceSteps(s0, s1, s, w)
    ensures Dependencies(s, "z") == {} && Dependencies(s, "y") == {w, "z"}
  {
    TwiceListed(w);
    DependenciesOwn(s0, TwiceZ);
    DependenciesOther(s1, TwiceY(w), "z");
    DependenciesOther(s0, TwiceZ, "y");
    DependenciesOwn(s1, TwiceY(w));
  }

  lemma TwiceDependents(s0: Scheduler, s1: Scheduler, s: Scheduler, w: TaskId)
    requires TwiceSteps(s0, s1, s, w)
    ensures Dependents(s, "z") == ["y", "y"] && Dependents(s, w) == ["y"]
  {
    TwiceListed(w);
    DependentsAfter(s0, TwiceZ, "z");
    DependentsAfter(s1, TwiceY(w), "z");
    DependentsAfter(s0, TwiceZ, w);
    DependentsAfter(s1, TwiceY(w), w);
    RepeatSmall("z", "y", "y");
    assert Dependents(s0, "z") == [] && Dependents(s0, w) == [];
  }

  lemma TwiceEdges(n: int, w: TaskId)
    requires w != "z"
    ensures TwiceState(TwiceScheduler(n, w), w)
    ensures TwiceScheduler(n, w).tasks["y"] == TwiceY(w)
  {
    var s0 := EmptyScheduler(n);
    var s1 := AddTask(s0, TwiceZ);
    var s := AddTask(s1, TwiceY(w));
    TwiceOrder(s0, TwiceZ, TwiceY(w));
    TwiceDependencies(s0, s1, s, w);
    TwiceDependents(s0, s1, s, w);
  }

  lemma TwiceInitialQueue(s: Scheduler, w: TaskId)
    requires TwiceState(s, w) && w != "z"
    ensures var deg := InitialDegrees(s);
      && deg["z"] == 0 && deg["y"] == 2
      && ZeroDegree(s.order, deg) == ["z"]
  {
    var deg := InitialDegrees(s);
    assert |Dependencies(s, "y")| == 2;
    assert ZeroDegree(s.order, deg) == ["z"] by {
      assert ZeroDegree(s.order[2..], deg) == [];
      assert ZeroDegree(s.order[1..], deg) == [];
      assert s.order[1..] == ["y"] && s.order[1..][1..] == [] && s.order[2..] == [];
    }
  }

  /** `z` alone starts, and finishing it releases `y`, so every task is scheduled. */
  lemma TwiceLevels(s: Scheduler, w: TaskId)
    requires TwiceState(s, w) && w != "z"
    ensures var levels := TopologicalLevels(s);
      && |levels| >= 2 && levels[0] == ["z"] && "y" in levels[1]
      && Placed(levels) == s.tasks.Keys
  {
    var deg := InitialDegrees(s);
    TwiceInitialQueue(s, w);
    var step := ProcessLayer(s, deg, ["z"], []);
    assert Incoming(s, ["z"], "y") == 2 by {
      assert ["z"][1..] == [];
      assert multiset(Dependents(s, "z")) == multiset{"y", "y"};
    }
    assert step.1[0..] == step.1;
    assert "y" in step.1;
    FirstTwoLayers(s, deg, ["z"]);
    var levels := TopologicalLevels(s);
    FlattenMember(levels, 0, "z");
    FlattenMember(levels, 1, "y");
    TopologicalLevelsWellFormed(s);
  }

  /** Both shapes of the example repeat an entry of `z`'s dependents list and schedule every task. */
  lemma TwiceShape(s: Scheduler, w: TaskId)
    requires TwiceState(s, w) && w != "z"
    ensures !SimpleEdges(s)
    ensures Placed(TopologicalLevels(s)) == s.tasks.Keys && "y" in Flatten(TopologicalLevels(s))
  {
    assert Dependents(s, "z")[0] == Dependents(s, "z")[1];
    TwiceLevels(s, w);
  }

  /**
   * With `w` never registered, `y` is still scheduled, so the conclusion of
   * `UnregisteredDependencyBlocks` fails once a dependency list repeats an
   * entry.
   */
  lemma UnregisteredDependencyScheduled(n: int)
    ensures var s := TwiceScheduler(n, "x");
      && Valid(s) && !SimpleEdges(s) && !HasCycle(s)
      && "y" in s.tasks && "x" in s.tasks["y"].dependsOn && "x" !in s.tasks
      && "y" in Flatten(TopologicalLevels(s))
  {
    TwiceEdges(n, "x");
    UnregisteredShape(TwiceScheduler(n, "x"));
  }

  lemma UnregisteredShape(s: Scheduler)
    requires TwiceState(s, "x") && s.tasks["y"] == TwiceY("x")
    ensures && Valid(s) && !SimpleEdges(s) && !HasCycle(s)
      && "y" in s.tasks && "x" in s.tasks["y"].dependsOn && "x" !in s.tasks
      && "y" in Flatten(TopologicalLevels(s))
  {
    TwiceShape(s, "x");
    assert "x" in TwiceY("x").dependsOn;
    TwiceAcyclic(s);
  }

  /** With `w` unregistered, `y` ranks above everything it depends on. */
  lemma TwiceAcyclic(s: Scheduler)
    requires TwiceState(s, "x")
    ensures !HasCycle(s)
  {
    var rank := (t: TaskId) => if t == "y" then 1 else 0;
    forall a, b | a in Dependencies(s, b)
      ensures rank(a) < rank(b)
    {
      assert b in Dependents(s, a);
    }
    RankedAcyclic(s, rank);
  }

  /**
   * And `run` does reach it: without fail-fast `y` is executed or skipped,
   * where `RunLeavesUnregisteredDependencyPending` promises neither.
   */
  lemma UnregisteredDependencyRun(n: int, p: Policy, env: Env)
    ensures var s := TwiceScheduler(n, "x");
      && Valid(s) && !SimpleEdges(s) && !HasCycle(s)
      && "y" in s.tasks && "x" in s.tasks["y"].dependsOn && "x" !in s.tasks
      && RunTrace(p, s, env, false).Success?
      && ("y" in RunTrace(p, s, env, false).value.executed || "y" in RunTrace(p, s, env, false).value.skipped)
  {
    var s := TwiceScheduler(n, "x");
    UnregisteredDependencyScheduled(n);
    RunWithoutFailFastHandlesAll(p, s, env);
  }

  /** The re-registration example: `z`, then `y` on `z`, then `y` again on `z` and the unregistered `x`. */
  const ReY: DagTask := NewTask("y", "y", ["z"])
  const ReYAgain: DagTask := NewTask("y", "y", ["z", "x"])

  function ReRegisterScheduler(maxParallel: int): Scheduler
  {
    AddTask(AddTask(AddTask(EmptyScheduler(maxParallel), TwiceZ), ReY), ReYAgain)
  }

  lemma ReListed()
    ensures Elements(ReY.dependsOn) == {"z"} && Elements(ReYAgain.dependsOn) == {"z", "x"}
    ensures Distinct(ReY.dependsOn) && Distinct(ReYAgain.dependsOn)
    ensures multiset(ReY.dependsOn)["z"] == 1 && multiset(ReY.dependsOn)["x"] == 0
    ensures multiset(ReYAgain.dependsOn)["z"] == 1 && multiset(ReYAgain.dependsOn)["x"] == 1
  {
    assert ReY.dependsOn == ["z"] && ReYAgain.dependsOn == ["z", "x"];
    assert multiset(ReYAgain.dependsOn) == multiset{"z", "x"};
  }

  /**
   * Registering `y` a second time repeats it in `z`'s dependents list just
   * as a repeated entry does, although neither of its lists repeats an
   * entry: `y` names the unregistered `x` and is still scheduled.
   */
  lemma ReRegistrationScheduled(n: int)
    ensures var s := ReRegisterScheduler(n);
      && Valid(s) && !SimpleEdges(s) && !HasCycle(s)
      && Distinct(ReY.dependsOn) && Distinct(ReYAgain.dependsOn)
      && "y" in s.tasks && s.tasks["y"] == ReYAgain && "x" !in s.tasks
      && "y" in Flatten(TopologicalLevels(s))
  {
    var s0 := EmptyScheduler(n);
    var s1 := AddTask(s0, TwiceZ);
    var s2 := AddTask(s1, ReY);
    var s := AddTask(s2, ReYAgain);
    ReListed();
    ReFirstState(s0, ReY);
    ReRegistered(s2, ReYAgain);
    TwiceShape(s, "x");
    TwiceAcyclic(s);
  }

  /** The state after `z` and then `y` on `z` alone. */
  ghost predicate ReFirst(s: Scheduler)
  {
    && Valid(s) && s.order == ["z", "y"] && s.tasks.Keys == {"z", "y"}
    && Dependencies(s, "z") == {} && Dependencies(s, "y") == {"z"}
    && Dependents(s, "z") == ["y"] && Dependents(s, "x") == []
  }

  lemma ReFirstState(s0: Scheduler, a: DagTask)
    requires s0 == EmptyScheduler(s0.maxParallel) && a.id == "y"
    requires Elements(a.dependsOn) == {"z"} && multiset(a.dependsOn)["z"] == 1 && multiset(a.dependsOn)["x"] == 0
    ensures ReFirst(AddTask(AddTask(s0, TwiceZ), a))
  {
    TwiceOrder(s0, TwiceZ, a);
    ReFirstDependencies(s0, a);
    ReFirstDependents(s0, a);
  }

  lemma ReFirstDependencies(s0: Scheduler, a: DagTask)
    requires s0 == EmptyScheduler(s0.maxParallel) && a.id == "y" && Elements(a.dependsOn) == {"z"}
    ensures var s := AddTask(AddTask(s0, TwiceZ), a);
      Dependencies(s, "z") == {} && Dependencies(s, "y") == {"z"}
  {
    var s1 := AddTask(s0, TwiceZ);
    TwiceListed("x");
    DependenciesOwn(s0, TwiceZ);
    DependenciesOther(s1, a, "z");
    DependenciesOther(s0, TwiceZ, "y");
    DependenciesOwn(s1, a);
    assert Dependencies(s0, "y") == {};
  }

  lemma ReFirstDependents(s0: Scheduler, a: DagTask)
    requires s0 == EmptyScheduler(s0.maxParallel) && a.id == "y"
    requires multiset(a.dependsOn)["z"] == 1 && multiset(a.dependsOn)["x"] == 0
    ensures var s := AddTask(AddTask(s0, TwiceZ), a);
      Dependents(s, "z") == ["y"] && Dependents(s, "x") == []
  {
    var s1 := AddTask(s0, TwiceZ);
    TwiceListed("x");
    DependentsAfter(s0, TwiceZ, "z");
    DependentsAfter(s1, a, "z");
    DependentsAfter(s0, TwiceZ, "x");
    DependentsAfter(s1, a, "x");
    RepeatSmall("y", "y", "y");
    assert Dependents(s0, "z") == [] && Dependents(s0, "x") == [];
  }

  /** Registering `y` again on `z` and `x` adds a second `z` entry and the `x` edge. */
  lemma ReRegistered(s2: Scheduler, b: DagTask)
    requires ReFirst(s2) && b.id == "y"
    requires Elements(b.dependsOn) == {"z", "x"} && multiset(b.dependsOn)["z"] == 1 && multiset(b.dependsOn)["x"] == 1
    ensures TwiceState(AddTask(s2, b), "x") && AddTask(s2, b).tasks["y"] == b
  {
    ReAgainDependencies(s2, b);
    ReAgainDependents(s2, b);
  }

  lemma ReAgainDependencies(s2: Scheduler, b: DagTask)
    requires ReFirst(s2) && b.id == "y" && Elements(b.dependsOn) == {"z", "x"}
    ensures Dependencies(AddTask(s2, b), "z") == {} && Dependencies(AddTask(s2, b), "y") == {"x", "z"}
  {
    DependenciesOther(s2, b, "z");
    DependenciesOwn(s2, b);
  }

  lemma ReAgainDependents(s2: Scheduler, b: DagTask)
    requires ReFirst(s2) && b.id == "y" && multiset(b.dependsOn)["z"] == 1 && multiset(b.dependsOn)["x"] == 1
    ensures Dependents(AddTask(s2, b), "z") == ["y", "y"] && Dependents(AddTask(s2, b), "x") == ["y"]
  {
    DependentsAfter(s2, b, "z");
    DependentsAfter(s2, b, "x");
    RepeatSmall("y", "y", "y");
    assert ["y"] + ["y"] == ["y", "y"];
  }

  /**
   * With `w` being `y` itself, `y` lies on a cycle of one edge, yet every task
   * is scheduled, so `CycleNeverScheduled` and `SchedulesAllIffAcyclic` both
   * fail once a dependency list repeats an entry.
   */
  lemma SelfCycleScheduled(n: int)
    ensures var s := TwiceScheduler(n, "y");
      && Valid(s) && !SimpleEdges(s)
      && IsCycle(s, ["y"]) && HasCycle(s)
      && Placed(TopologicalLevels(s)) == s.tasks.Keys
  {
    TwiceEdges(n, "y");
    SelfCycleShape(TwiceScheduler(n, "y"));
  }

  lemma SelfCycleShape(s: Scheduler)
    requires TwiceState(s, "y")
    ensures && Valid(s) && !SimpleEdges(s)
      && IsCycle(s, ["y"]) && HasCycle(s)
      && Placed(TopologicalLevels(s)) == s.tasks.Keys
  {
    TwiceShape(s, "y");
    SelfLoop(s);
  }

  lemma SelfLoop(s: Scheduler)
    requires TwiceState(s, "y")
    ensures IsCycle(s, ["y"])
  {
    assert Edge(s, "y", "y");
    assert IsPath(s, ["y"]);
  }
}

=== FILE: orchestrator.dfy ===
/**
 * `Orchestrator`: the fixed four-task plan and the way `run` executes it,
 * in three hard-coded levels chosen by comparing each task's dependency
 * set with a literal.
 *
 * An agent function is a parameter: what it does to the shared context is
 * its own business, modelled as an arbitrary context transformer that may
 * also raise. A raise ends `exec_task` before its `task_complete` event and
 * makes the level's `gather`, and so `run`, raise. Tasks of
 * one level run concurrently; the model runs them one after another in a
 * given completion order, which may be any permutation of the level.
 */
module Orchestrator {
  import opened Wrappers
  import opened Collections
  import opened ContextStore
  import DagTasks
  import TopoLevels

  /** `Task`, without its callable. */
  datatype PlannedTask = PlannedTask(id: string, name: string, agent: string, dependsOn: seq<string>)

  function TaskIds(ts: seq<PlannedTask>): (r: seq<string>)
    ensures |r| == |ts|
  {
    seq(|ts|, i requires 0 <= i < |ts| => ts[i].id)
  }

  const Frontend := PlannedTask("frontend", "Generate Frontend", "frontend", [])
  const Backend := PlannedTask("backend", "Generate Backend", "backend", [])
  const Tests := PlannedTask("tests", "Generate Tests", "testing", ["frontend", "backend"])
  const Docs := PlannedTask("docs", "Generate Documentation", "documentation", ["frontend", "backend", "tests"])

  /** `plan`: the prompt does not influence it. */
  function Plan(): seq<PlannedTask>
  {
    [Frontend, Backend, Tests, Docs]
  }

  /** The plan's tasks, in order, with distinct ids, and the dependencies of each. */
  lemma PlanContents()
    ensures |Plan()| == 4
    ensures TaskIds(Plan()) == ["frontend", "backend", "tests", "docs"]
    ensures Distinct(TaskIds(Plan()))
    ensures Elements(Plan()[0].dependsOn) == {} && Elements(Plan()[1].dependsOn) == {}
    ensures Elements(Plan()[2].dependsOn) == {"frontend", "backend"}
    ensures Elements(Plan()[3].dependsOn) == {"frontend", "backend", "tests"}
  {
  }

  /**
   * The filter of level `i` in `run`: no dependencies at all, exactly
   * {frontend, backend}, or exactly {frontend, backend, tests}.
   */
  predicate InLevel(t: PlannedTask, i: nat)
  {
    if i == 0 then t.dependsOn == []
    else if i == 1 then Elements(t.dependsOn) == {"frontend", "backend"}
    else if i == 2 then Elements(t.dependsOn) == {"frontend", "backend", "tests"}
    else false
  }

  /** `t` as the filter of level `i` keeps it: alone when it passes, dropped otherwise. */
  function Kept(t: PlannedTask, i: nat): (r: seq<PlannedTask>)
    ensures r == [t] || r == []
    ensures t in r <==> InLevel(t, i)
  {
    if InLevel(t, i) then [t] else []
  }

  /** The list comprehension building level `i`: the tasks passing its filter, in plan order. */
  function Level(tasks: seq<PlannedTask>, i: nat): (r: seq<PlannedTask>)
    ensures forall t :: t in r <==> t in tasks && InLevel(t, i)
    ensures IsSubsequence(r, tasks)
    ensures |r| <= |tasks|
    decreases |tasks|
  {
    if tasks == [] then []
    else
      var init, last := tasks[..|tasks| - 1], tasks[|tasks| - 1];
      assert init + [last] == tasks;
      SubsequenceSnoc(Level(init, i), init, last);
      assert Level(init, i) + Kept(last, i) == if InLevel(last, i) then Level(init, i) + [last] else Level(init, i);
      Level(init, i) + Kept(last, i)
  }

  /** No task passes two filters, whatever the task list: the levels are disjoint. */
  lemma LevelsDisjoint(tasks: seq<PlannedTask>, t: PlannedTask, i: nat, j: nat)
    requires t in Level(tasks, i) && t in Level(tasks, j)
    ensures i == j
  {
    assert "frontend" in {"frontend", "backend"} && "tests" in {"frontend", "backend", "tests"};
    if t.dependsOn == [] {
      assert Elements(t.dependsOn) == {};
    }
  }

  lemma LevelSnoc(tasks: seq<PlannedTask>, t: PlannedTask, i: nat)
    ensures Level(tasks + [t], i) == Level(tasks, i) + Kept(t, i)
  {
    assert (tasks + [t])[..|tasks|] == tasks;
  }

  /** Which filter each planned task passes. */
  lemma PlanFilters()
    ensures InLevel(Frontend, 0) && !InLevel(Frontend, 1) && !InLevel(Frontend, 2)
    ensures InLevel(Backend, 0) && !InLevel(Backend, 1) && !InLevel(Backend, 2)
    ensures !InLevel(Tests, 0) && InLevel(Tests, 1) && !InLevel(Tests, 2)
    ensures !InLevel(Docs, 0) && !InLevel(Docs, 1) && InLevel(Docs, 2)
  {
    assert "frontend" in {"frontend", "backend"} && "frontend" in {"frontend", "backend", "tests"};
    assert "frontend" !in Elements(Frontend.dependsOn) && "frontend" !in Elements(Backend.dependsOn);
    assert Elements(Tests.dependsOn) == {"frontend", "backend"} by {
      assert Tests.dependsOn[0] == "frontend" && Tests.dependsOn[1] == "backend";
    }
    assert Elements(Docs.dependsOn) == {"frontend", "backend", "tests"} by {
      assert Docs.dependsOn[0] == "frontend" && Docs.dependsOn[1] == "backend" && Docs.dependsOn[2] == "tests";
    }
    assert "tests" !in Elements(Tests.dependsOn);
  }

  /** The filter of level `i` over the first `k` tasks of a list, one task at a time. */
  lemma LevelStep(tasks: seq<PlannedTask>, k: nat, i: nat, before: seq<PlannedTask>)
    requires k < |tasks| && Level(tasks[..k], i) == before
    ensures Level(tasks[..k + 1], i) == before + Kept(tasks[k], i)
  {
    assert tasks[..k + 1] == tasks[..k] + [tasks[k]];
    LevelSnoc(tasks[..k], tasks[k], i);
  }

  /** The filter of level `i` over a four-task list keeps the passing tasks in list order. */
  lemma LevelOfFour(ts: seq<PlannedTask>, i: nat)
    requires |ts| == 4
    ensures Level(ts, i)
      == Kept(ts[0], i) + Kept(ts[1], i)
       + Kept(ts[2], i) + Kept(ts[3], i)
  {
    var a0 := Kept(ts[0], i);
    var a1 := Kept(ts[1], i);
    var a2 := Kept(ts[2], i);
    var a3 := Kept(ts[3], i);
    assert Level(ts[..1], i) == a0 by {
      assert ts[..0] == [];
      LevelStep(ts, 0, i, []);
      assert [] + a0 == a0;
    }
    assert Level(ts[..2], i) == a0 + a1 by {
      LevelStep(ts, 1, i, a0);
    }
    assert Level(ts[..3], i) == a0 + a1 + a2 by {
      LevelStep(ts, 2, i, a0 + a1);
    }
    assert Level(ts[..4], i) == a0 + a1 + a2 + a3 by {
      LevelStep(ts, 3, i, a0 + a1 + a2);
    }
    assert ts[..4] == ts;
  }

  lemma PlanLevel0()
    ensures Level(Plan(), 0) == [Frontend, Backend]
  {
    PlanFilters();
    LevelOfFour(Plan(), 0);
  }

  lemma PlanLevel1()
    ensures Level(Plan(), 1) == [Tests]
  {
    PlanFilters();
    LevelOfFour(Plan(), 1);
  }

  lemma PlanLevel2()
    ensures Level(Plan(), 2) == [Docs]
  {
    PlanFilters();
    LevelOfFour(Plan(), 2);
  }

  /** On the plan, the filters give [frontend, backend], [tests] and [docs]. */
  lemma PlanLevels()
    ensures Level(Plan(), 0) == [Frontend, Backend]
    ensures Level(Plan(), 1) == [Tests]
    ensures Level(Plan(), 2) == [Docs]
  {
    PlanLevel0();
    PlanLevel1();
    PlanLevel2();
  }

  /** The ids of the tasks in levels `0 .. i - 1`. */
  function IdsBefore(levels: seq<seq<PlannedTask>>, i: nat): set<string>
    requires i <= |levels|
  {
    set j, t | 0 <= j < i && t in levels[j] :: t.id
  }

  /** Every dependency of a task names a task of a strictly earlier level. */
  ghost predicate DependenciesEarlier(levels: seq<seq<PlannedTask>>)
  {
    forall i, t, d :: 0 <= i < |levels| && t in levels[i] && d in t.dependsOn ==> d in IdsBefore(levels, i)
  }

  /** The three levels `run` builds. */
  function Levels(tasks: seq<PlannedTask>): (r: seq<seq<PlannedTask>>)
    ensures |r| == 3
  {
    [Level(tasks, 0), Level(tasks, 1), Level(tasks, 2)]
  }

  /** On the plan the levels cover all four tasks, once each, with every dependency in an earlier level. */
  lemma PlanLevelsCoverAndRespectDependencies()
    ensures Levels(Plan()) == [[Frontend, Backend], [Tests], [Docs]]
    ensures Flatten(Levels(Plan())) == Plan()
    ensures DependenciesEarlier(Levels(Plan()))
  {
    PlanLevels();
    var levels := [[Frontend, Backend], [Tests], [Docs]];
    assert Levels(Plan()) == levels;
    PlanLevelsFlatten(levels);
    PlanLevelsOrdered(levels);
  }

  lemma PlanLevelsFlatten(levels: seq<seq<PlannedTask>>)
    requires levels == [[Frontend, Backend], [Tests], [Docs]]
    ensures Flatten(levels) == Plan()
  {
    assert levels[..2][..1] == [levels[0]] && levels[..1][..0] == [];
    assert Flatten(levels[..1]) == levels[0];
    assert Flatten(levels[..2]) == Flatten(levels[..1]) + levels[1];
    assert Flatten(levels) == Flatten(levels[..2]) + levels[2];
  }

  lemma PlanLevelsOrdered(levels: seq<seq<PlannedTask>>)
    requires levels == [[Frontend, Backend], [Tests], [Docs]]
    ensures DependenciesEarlier(levels)
  {
    assert Frontend in levels[0] && Backend in levels[0] && Tests in levels[1];
    assert "frontend" in IdsBefore(levels, 1) && "backend" in IdsBefore(levels, 1);
    assert "frontend" in IdsBefore(levels, 2) && "backend" in IdsBefore(levels, 2) && "tests" in IdsBefore(levels, 2);
    forall i, t: PlannedTask, d | 1 <= i < |levels| && t in levels[i] && d in t.dependsOn
      ensures d in IdsBefore(levels, i)
    {
      if i == 1 {
        assert t == Tests;
      } else {
        assert t == Docs;
      }
    }
  }

  /** The event `exec_task` logs once the agent function has returned. */
  function Completion(id: string): Event
  {
    Event("task_complete", map["task" := Str(id)])
  }

  /**
   * What an agent function leaves behind: the shared context as it wrote
   * it, and whether the call raised (an agent writes files through a worker
   * thread, and `to_thread` re-raises what the thread raised).
   */
  datatype AgentRun = AgentRun(ctx: Context, raised: bool)

  type Agent = (PlannedTask, Context) -> AgentRun

  /** The shared context after a call of `exec_task` or of `run`, and whether the call raised. */
  datatype Outcome = Outcome(ctx: Context, raised: bool)

  /**
   * `exec_task`: run the agent on the context, then log its completion. A
   * raising agent propagates, so nothing is logged for it.
   */
  function ExecTask(ctx: Context, t: PlannedTask, agent: Agent): (r: Outcome)
    ensures r.raised == agent(t, ctx).raised
    ensures r.ctx.data == agent(t, ctx).ctx.data
    ensures !r.raised ==> r.ctx.events == agent(t, ctx).ctx.events + [Completion(t.id)]
    ensures r.raised ==> r.ctx.events == agent(t, ctx).ctx.events
  {
    var a := agent(t, ctx);
    if a.raised then Outcome(a.ctx, true)
    else Outcome(AppendEvent(a.ctx, "task_complete", map["task" := Str(t.id)]), false)
  }

  /** A `gather` so far: the context, how many of its tasks completed, and whether one raised. */
  datatype LevelRun = LevelRun(ctx: Context, done: nat, raised: bool)

  /**
   * One `gather`: the tasks of a level, finishing in the order given. The
   * first task whose agent raises makes the `gather` raise; the tasks
   * finishing after it log nothing.
   */
  function ExecLevel(ctx: Context, order: seq<PlannedTask>, agent: Agent): (r: LevelRun)
    ensures r.done <= |order|
    ensures r.raised <==> r.done < |order|
    decreases |order|
  {
    if order == [] then LevelRun(ctx, 0, false)
    else
      var prev := ExecLevel(ctx, order[..|order| - 1], agent);
      if prev.raised then prev
      else
        var o := ExecTask(prev.ctx, order[|order| - 1], agent);
        LevelRun(o.ctx, if o.raised then |order| - 1 else |order|, o.raised)
  }

  /**
   * A `gather` stops at the first raising agent: the tasks before it all
   * completed without a raise, and the agent of the task at `done` raised
   * on the context they left.
   */
  lemma {:induction false} ExecLevelStopsAtFirstRaise(ctx: Context, order: seq<PlannedTask>, agent: Agent)
    ensures var r := ExecLevel(ctx, order, agent);
      var before := ExecLevel(ctx, order[..r.done], agent);
      && !before.raised && before.done == r.done
      && (r.raised ==> agent(order[r.done], before.ctx).raised && r.ctx == agent(order[r.done], before.ctx).ctx)
      && (!r.raised ==> r == before)
    decreases |order|
  {
    var r := ExecLevel(ctx, order, agent);
    if order == [] {
      assert order[..0] == order;
    } else {
      var init := order[..|order| - 1];
      var last := order[|order| - 1];
      ExecLevelStopsAtFirstRaise(ctx, init, agent);
      var prev := ExecLevel(ctx, init, agent);
      if prev.raised {
        assert order[..prev.done] == init[..prev.done];
        assert order[prev.done] == init[prev.done];
      } else if agent(last, prev.ctx).raised {
        assert order[..r.done] == init;
      } else {
        assert order[..r.done] == order;
      }
    }
  }

  /** The task ids of the completion events of a log, in order. */
  function CompletedIds(events: seq<Event>): seq<string>
    decreases |events|
  {
    if events == [] then []
    else
      var last := events[|events| - 1];
      CompletedIds(events[..|events| - 1]) +
        (if last.kind == "task_complete" && "task" in last.payload && last.payload["task"].Str?
         then [last.payload["task"].s] else [])
  }

  /** An agent that logs no completion events of its own. */
  ghost predicate Quiet(agent: Agent)
  {
    forall t, c :: CompletedIds(agent(t, c).ctx.events) == CompletedIds(c.events)
  }

  /** An agent that never raises. */
  ghost predicate Returns(agent: Agent)
  {
    forall t, c :: !agent(t, c).raised
  }

  lemma CompletedIdsAppend(events: seq<Event>, id: string)
    ensures CompletedIds(events + [Completion(id)]) == CompletedIds(events) + [id]
  {
    assert (events + [Completion(id)])[..|events|] == events;
  }

  /** With a quiet agent, `exec_task` logs the task's completion iff the agent returns. */
  lemma ExecTaskCompletions(ctx: Context, t: PlannedTask, agent: Agent)
    requires Quiet(agent)
    ensures var o := ExecTask(ctx, t, agent);
      CompletedIds(o.ctx.events) == CompletedIds(ctx.events) + (if o.raised then [] else [t.id])
  {
    var a := agent(t, ctx);
    assert CompletedIds(a.ctx.events) == CompletedIds(ctx.events);
    if !a.raised {
      CompletedIdsAppend(a.ctx.events, t.id);
    }
  }

  lemma TaskIdsSnoc(ts: seq<PlannedTask>)
    requires ts != []
    ensures TaskIds(ts) == TaskIds(ts[..|ts| - 1]) + [ts[|ts| - 1].id]
  {
  }

  /**
   * A `gather` logs one completion per task that finished before the first
   * raise, in completion order, after what was logged before.
   */
  lemma {:induction false} ExecLevelCompletions(ctx: Context, order: seq<PlannedTask>, agent: Agent)
    requires Quiet(agent)
    ensures var r := ExecLevel(ctx, order, agent);
      CompletedIds(r.ctx.events) == CompletedIds(ctx.events) + TaskIds(order)[..r.done]
    decreases |order|
  {
    if order != [] {
      var init := order[..|order| - 1];
      var last := order[|order| - 1];
      ExecLevelCompletions(ctx, init, agent);
      TaskIdsSnoc(order);
      var prev := ExecLevel(ctx, init, agent);
      if !prev.raised {
        ExecTaskCompletions(prev.ctx, last, agent);
      }
      SnocLogged(CompletedIds(ctx.events), TaskIds(init), last.id, prev.done, prev.raised);
    }
  }

  /** The log a `gather` reaches on its first tasks, extended by what its last task logs. */
  lemma SnocLogged(before: seq<string>, ids: seq<string>, id: string, done: nat, raised: bool)
    requires done <= |ids| && (raised <==> done < |ids|)
    ensures raised ==> before + ids[..done] == before + (ids + [id])[..done]
    ensures !raised ==> before + ids[..done] == before + (ids + [id])[..|ids|]
    ensures !raised ==> before + ids[..done] + [id] == before + (ids + [id])[..|ids| + 1]
  {
    assert (ids + [id])[..|ids|] == ids;
    assert (ids + [id])[..|ids| + 1] == ids + [id];
  }

  /** With agents that never raise, a `gather` completes every task. */
  lemma {:induction false} ExecLevelReturns(ctx: Context, order: seq<PlannedTask>, agent: Agent)
    requires Returns(agent)
    ensures !ExecLevel(ctx, order, agent).raised
    decreases |order|
  {
    if order != [] {
      ExecLevelReturns(ctx, order[..|order| - 1], agent);
      var prev := ExecLevel(ctx, order[..|order| - 1], agent);
      assert !agent(order[|order| - 1], prev.ctx).raised;
    }
  }

  /** Completion orders for the three levels: each a permutation of its level. */
  ghost predicate CompletionOrders(tasks: seq<PlannedTask>, orders: seq<seq<PlannedTask>>)
  {
    |orders| == 3 && forall i :: 0 <= i < 3 ==> multiset(orders[i]) == multiset(Level(tasks, i))
  }

  /** The three `gather` calls of `run`, one level after the other; a raise ends `run`. */
  function RunTasks(ctx: Context, tasks: seq<PlannedTask>, orders: seq<seq<PlannedTask>>, agent: Agent): Outcome
    requires CompletionOrders(tasks, orders)
  {
    RunLevels(ctx, orders, agent)
  }

  /** The `gather` calls over the three completion orders. */
  function RunLevels(ctx: Context, orders: seq<seq<PlannedTask>>, agent: Agent): Outcome
    requires |orders| == 3
  {
    var l0 := ExecLevel(ctx, orders[0], agent);
    if l0.raised then Outcome(l0.ctx, true)
    else
      var l1 := ExecLevel(l0.ctx, orders[1], agent);
      if l1.raised then Outcome(l1.ctx, true)
      else
        var l2 := ExecLevel(l1.ctx, orders[2], agent);
        Outcome(l2.ctx, l2.raised)
  }

  /** `run`: plan, then run the three levels. */
  function Run(ctx: Context, orders: seq<seq<PlannedTask>>, agent: Agent): Outcome
    requires CompletionOrders(Plan(), orders)
  {
    RunTasks(ctx, Plan(), orders, agent)
  }

  /** The completions of the three levels, in the order `run` goes through them. */
  function AllCompletions(orders: seq<seq<PlannedTask>>): seq<string>
    requires |orders| == 3
  {
    TaskIds(orders[0]) + TaskIds(orders[1]) + TaskIds(orders[2])
  }

  /**
   * The completion events `run` adds are a prefix of those of level 0, then
   * level 1, then level 2, in each level's completion order: all of them
   * when no agent raises, and up to the first raise otherwise, in which case
   * `run` raises and no later level starts.
   */
  lemma RunCompletions(ctx: Context, tasks: seq<PlannedTask>, orders: seq<seq<PlannedTask>>, agent: Agent)
    requires CompletionOrders(tasks, orders) && Quiet(agent)
    ensures var r := RunTasks(ctx, tasks, orders, agent);
      exists n :: 0 <= n <= |AllCompletions(orders)|
        && CompletedIds(r.ctx.events) == CompletedIds(ctx.events) + AllCompletions(orders)[..n]
        && (r.raised <==> n < |AllCompletions(orders)|)
  {
    var n := RunCompletedCount(ctx, orders, agent);
  }

  /** The number of completions `run` logs, with the facts `RunCompletions` states of it. */
  lemma RunCompletedCount(ctx: Context, orders: seq<seq<PlannedTask>>, agent: Agent) returns (n: nat)
    requires |orders| == 3 && Quiet(agent)
    ensures var r := RunLevels(ctx, orders, agent);
      && n <= |AllCompletions(orders)|
      && CompletedIds(r.ctx.events) == CompletedIds(ctx.events) + AllCompletions(orders)[..n]
      && (r.raised <==> n < |AllCompletions(orders)|)
  {
    var l0 := ExecLevel(ctx, orders[0], agent);
    var l1 := ExecLevel(l0.ctx, orders[1], agent);
    ExecLevelCompletions(ctx, orders[0], agent);
    ExecLevelCompletions(l0.ctx, orders[1], agent);
    ExecLevelCompletions(l1.ctx, orders[2], agent);
    n := CountFromLevels(ctx, orders, agent);
  }

  /** Putting the three `gather` logs together. */
  lemma CountFromLevels(ctx: Context, orders: seq<seq<PlannedTask>>, agent: Agent) returns (n: nat)
    requires |orders| == 3
    requires var l0 := ExecLevel(ctx, orders[0], agent);
      var l1 := ExecLevel(l0.ctx, orders[1], agent);
      var l2 := ExecLevel(l1.ctx, orders[2], agent);
      && CompletedIds(l0.ctx.events) == CompletedIds(ctx.events) + TaskIds(orders[0])[..l0.done]
      && CompletedIds(l1.ctx.events) == CompletedIds(l0.ctx.events) + TaskIds(orders[1])[..l1.done]
      && CompletedIds(l2.ctx.events) == CompletedIds(l1.ctx.events) + TaskIds(orders[2])[..l2.done]
    ensures var r := RunLevels(ctx, orders, agent);
      && n <= |AllCompletions(orders)|
      && CompletedIds(r.ctx.events) == CompletedIds(ctx.events) + AllCompletions(orders)[..n]
      && (r.raised <==> n < |AllCompletions(orders)|)
  {
    var l0 := ExecLevel(ctx, orders[0], agent);
    var l1 := ExecLevel(l0.ctx, orders[1], agent);
    var l2 := ExecLevel(l1.ctx, orders[2], agent);
    assert AllCompletions(orders) == TaskIds(orders[0]) + TaskIds(orders[1]) + TaskIds(orders[2]);
    n := CombineLogs(CompletedIds(ctx.events), TaskIds(orders[0]), TaskIds(orders[1]), TaskIds(orders[2]),
      CompletedIds(l0.ctx.events), CompletedIds(l1.ctx.events), CompletedIds(l2.ctx.events),
      l0.done, l1.done, l2.done, l0.raised, l1.raised, l2.raised);
  }

  /**
   * Three logs, each extending the one before by a prefix of its level's
   * ids, the prefix being short exactly when that level raised: the log
   * where the first raise stops is a prefix of all the ids together.
   */
  lemma CombineLogs(before: seq<string>, a: seq<string>, b: seq<string>, c: seq<string>,
                    log0: seq<string>, log1: seq<string>, log2: seq<string>,
                    d0: nat, d1: nat, d2: nat, r0: bool, r1: bool, r2: bool) returns (n: nat)
    requires d0 <= |a| && (r0 <==> d0 < |a|) && log0 == before + a[..d0]
    requires d1 <= |b| && (r1 <==> d1 < |b|) && log1 == log0 + b[..d1]
    requires d2 <= |c| && (r2 <==> d2 < |c|) && log2 == log1 + c[..d2]
    ensures var log := if r0 then log0 else if r1 then log1 else log2;
      var raised := r0 || r1 || r2;
      n <= |a + b + c| && log == before + (a + b + c)[..n] && (raised <==> n < |a + b + c|)
  {
    if r0 {
      n := d0;
      PrefixOfFirst(before, a, b, c, n);
    } else if r1 {
      n := |a| + d1;
      assert a[..d0] == a;
      PrefixOfSecond(before, a, b, c, d1);
    } else {
      n := |a| + |b| + d2;
      assert a[..d0] == a && b[..d1] == b;
      PrefixOfThird(before, a, b, c, d2);
    }
  }

  lemma PrefixOfFirst<T>(x: seq<T>, a: seq<T>, b: seq<T>, c: seq<T>, n: nat)
    requires n < |a|
    ensures n < |a + b + c| && x + a[..n] == x + (a + b + c)[..n]
  {
    assert a[..n] == (a + b + c)[..n];
  }

  lemma PrefixOfSecond<T>(x: seq<T>, a: seq<T>, b: seq<T>, c: seq<T>, n: nat)
    requires n < |b|
    ensures |a| + n < |a + b + c| && x + a + b[..n] == x + (a + b + c)[..|a| + n]
  {
    assert a + b[..n] == (a + b + c)[..|a| + n];
  }

  lemma PrefixOfThird<T>(x: seq<T>, a: seq<T>, b: seq<T>, c: seq<T>, n: nat)
    requires n <= |c|
    ensures |a| + |b| + n <= |a + b + c| && (|a| + |b| + n < |a + b + c| <==> n < |c|)
    ensures x + a + b + c[..n] == x + (a + b + c)[..|a| + |b| + n]
  {
    assert a + b + c[..n] == (a + b + c)[..|a| + |b| + n];
  }

  /** With agents that never raise, `run` does not raise. */
  lemma RunReturns(ctx: Context, orders: seq<seq<PlannedTask>>, agent: Agent)
    requires |orders| == 3 && Returns(agent)
    ensures !RunLevels(ctx, orders, agent).raised
  {
    var l0 := ExecLevel(ctx, orders[0], agent);
    ExecLevelReturns(ctx, orders[0], agent);
    var l1 := ExecLevel(l0.ctx, orders[1], agent);
    ExecLevelReturns(l0.ctx, orders[1], agent);
    ExecLevelReturns(l1.ctx, orders[2], agent);
  }

  /** What runs in level `i` is a task of the list that passes the level's filter. */
  lemma OrderedTasksPassFilters(tasks: seq<PlannedTask>, orders: seq<seq<PlannedTask>>, i: int, t: PlannedTask)
    requires CompletionOrders(tasks, orders)
    requires 0 <= i < 3 && t in orders[i]
    ensures t in tasks && InLevel(t, i)
  {
    assert t in multiset(orders[i]);
  }

  /**
   * A task whose dependency set matches none of the three filters is never
   * run: none of the completions `run` logs carries its id (the id being
   * unique in the task list).
   */
  lemma DroppedTaskNeverRuns(tasks: seq<PlannedTask>, orders: seq<seq<PlannedTask>>, t: PlannedTask)
    requires CompletionOrders(tasks, orders)
    requires t in tasks && Distinct(TaskIds(tasks))
    requires !InLevel(t, 0) && !InLevel(t, 1) && !InLevel(t, 2)
    ensures t.id !in TaskIds(orders[0]) + TaskIds(orders[1]) + TaskIds(orders[2])
  {
    if t.id in TaskIds(orders[0]) + TaskIds(orders[1]) + TaskIds(orders[2]) {
      var u := OrderedTaskOrigin(tasks, orders, t.id);
      UniqueId(tasks, t, u);
      assert false;
    }
  }

  /** A completion `run` logs comes from a task of the list that passes one of the filters. */
  lemma OrderedTaskOrigin(tasks: seq<PlannedTask>, orders: seq<seq<PlannedTask>>, id: string) returns (u: PlannedTask)
    requires CompletionOrders(tasks, orders)
    requires id in TaskIds(orders[0]) + TaskIds(orders[1]) + TaskIds(orders[2])
    ensures u in tasks && u.id == id && (InLevel(u, 0) || InLevel(u, 1) || InLevel(u, 2))
  {
    var i := if id in TaskIds(orders[0]) then 0 else if id in TaskIds(orders[1]) then 1 else 2;
    var k :| 0 <= k < |orders[i]| && TaskIds(orders[i])[k] == id;
    u := orders[i][k];
    OrderedTasksPassFilters(tasks, orders, i, u);
  }

  lemma UniqueId(tasks: seq<PlannedTask>, t: PlannedTask, u: PlannedTask)
    requires Distinct(TaskIds(tasks)) && t in tasks && u in tasks && t.id == u.id
    ensures t == u
  {
    var i :| 0 <= i < |tasks| && tasks[i] == t;
    var j :| 0 <= j < |tasks| && tasks[j] == u;
    assert TaskIds(tasks)[i] == TaskIds(tasks)[j];
  }

  lemma SingletonPermutation(s: seq<PlannedTask>, x: PlannedTask)
    requires multiset(s) == multiset([x])
    ensures s == [x]
  {
    assert |s| == |multiset(s)| == 1;
    assert s[0] in multiset(s);
  }

  lemma PairPermutation(s: seq<PlannedTask>, x: PlannedTask, y: PlannedTask)
    requires x != y && multiset(s) == multiset([x, y])
    ensures s == [x, y] || s == [y, x]
  {
    assert |s| == |multiset(s)| == 2;
    assert s == [s[0], s[1]];
    assert s[0] in multiset(s) && s[1] in multiset(s);
  }

  /** The completion orders of the plan: frontend and backend in either order, then tests, then docs. */
  lemma PlanOrders(orders: seq<seq<PlannedTask>>)
    requires CompletionOrders(Plan(), orders)
    ensures orders[0] == [Frontend, Backend] || orders[0] == [Backend, Frontend]
    ensures orders[1] == [Tests] && orders[2] == [Docs]
  {
    PlanLevels();
    PairPermutation(orders[0], Frontend, Backend);
    SingletonPermutation(orders[1], Tests);
    SingletonPermutation(orders[2], Docs);
  }

  /**
   * On the plan, `run` logs frontend and backend (in either order), then
   * tests, then docs, after whatever was logged before; a raising agent cuts
   * that log short, and `run` raises exactly when it is cut short.
   */
  lemma PlanRunOrder(ctx: Context, orders: seq<seq<PlannedTask>>, agent: Agent)
    requires CompletionOrders(Plan(), orders) && Quiet(agent)
    ensures var r := Run(ctx, orders, agent);
      var logged, before := CompletedIds(r.ctx.events), CompletedIds(ctx.events);
      exists n :: 0 <= n <= 4 && (r.raised <==> n < 4)
        && (logged == before + ["frontend", "backend", "tests", "docs"][..n]
         || logged == before + ["backend", "frontend", "tests", "docs"][..n])
  {
    var n := RunCompletedCount(ctx, orders, agent);
    var r := Run(ctx, orders, agent);
    assert r == RunLevels(ctx, orders, agent);
    PlanCompletions(orders);
    PrefixOfEither(CompletedIds(r.ctx.events), CompletedIds(ctx.events), AllCompletions(orders), n, r.raised);
  }

  /** The completions of the plan's levels, in either order of the first level. */
  lemma PlanCompletions(orders: seq<seq<PlannedTask>>)
    requires CompletionOrders(Plan(), orders)
    ensures var ids := AllCompletions(orders);
      ids == ["frontend", "backend", "tests", "docs"] || ids == ["backend", "frontend", "tests", "docs"]
  {
    PlanOrders(orders);
    PlanOrderIds(orders);
  }

  lemma PrefixOfEither(logged: seq<string>, before: seq<string>, ids: seq<string>, n: nat, raised: bool)
    requires ids == ["frontend", "backend", "tests", "docs"] || ids == ["backend", "frontend", "tests", "docs"]
    requires n <= |ids| && logged == before + ids[..n] && (raised <==> n < |ids|)
    ensures
      exists m :: 0 <= m <= 4 && (raised <==> m < 4)
        && (logged == before + ["frontend", "backend", "tests", "docs"][..m]
         || logged == before + ["backend", "frontend", "tests", "docs"][..m])
  {
    assert 0 <= n <= 4 && (raised <==> n < 4);
  }

  lemma PlanOrderIds(orders: seq<seq<PlannedTask>>)
    requires |orders| == 3
    requires orders[0] == [Frontend, Backend] || orders[0] == [Backend, Frontend]
    requires orders[1] == [Tests] && orders[2] == [Docs]
    ensures var ids := AllCompletions(orders);
      ids == ["frontend", "backend", "tests", "docs"] || ids == ["backend", "frontend", "tests", "docs"]
  {
    TaskIdsOne(Tests);
    TaskIdsOne(Docs);
    if orders[0] == [Frontend, Backend] {
      TaskIdsPair(Frontend, Backend);
    } else {
      TaskIdsPair(Backend, Frontend);
    }
  }

  lemma TaskIdsOne(a: PlannedTask)
    ensures TaskIds([a]) == [a.id]
  {
  }

  lemma TaskIdsPair(a: PlannedTask, b: PlannedTask)
    ensures TaskIds([a, b]) == [a.id, b.id]
  {
  }

  /** A planned task as the scheduler's task, with the scheduler's defaults. */
  function AsDagTask(t: PlannedTask): DagTasks.DagTask
  {
    DagTasks.NewTask(t.id, t.name, t.dependsOn)
  }

  function PlanDagTasks(): (r: seq<DagTasks.DagTask>)
    ensures |r| == 4
  {
    [AsDagTask(Plan()[0]), AsDagTask(Plan()[1]), AsDagTask(Plan()[2]), AsDagTask(Plan()[3])]
  }

  /** The plan registered, task by task, with the dependency-graph scheduler. */
  function PlanScheduler(maxParallel: int): DagTasks.Scheduler
  {
    DagTasks.Register(DagTasks.EmptyScheduler(maxParallel), PlanDagTasks())
  }

  lemma PlanDagIds()
    ensures DagTasks.Ids(PlanDagTasks()) == ["frontend", "backend", "tests", "docs"]
    ensures Distinct(DagTasks.Ids(PlanDagTasks()))
    ensures Elements(DagTasks.Ids(PlanDagTasks())) == {"frontend", "backend", "tests", "docs"}
  {
  }

  lemma PlanSchedulerSimple(n: int)
    ensures DagTasks.Valid(PlanScheduler(n)) && DagTasks.SimpleEdges(PlanScheduler(n))
  {
    var e := DagTasks.EmptyScheduler(n);
    assert DagTasks.Valid(e);
    assert DagTasks.FreshBatch(e, PlanDagTasks()) by {
      PlanDagIds();
    }
    DagTasks.RegisterSimple(e, PlanDagTasks());
  }

  lemma PlanSchedulerKeys(n: int)
    ensures PlanScheduler(n).tasks.Keys == {"frontend", "backend", "tests", "docs"}
  {
    var e := DagTasks.EmptyScheduler(n);
    assert PlanScheduler(n).tasks.Keys == Elements(DagTasks.Ids(PlanDagTasks())) by {
      assert DagTasks.FreshIds(e, PlanDagTasks()) by {
        PlanDagIds();
      }
      DagTasks.RegisterShape(e, PlanDagTasks());
    }
    PlanDagIds();
  }

  lemma PlanSchedulerDependency(n: int, i: int)
    requires 0 <= i < 4
    ensures DagTasks.Dependencies(PlanScheduler(n), PlanDagTasks()[i].id) == Elements(PlanDagTasks()[i].dependsOn)
  {
    assert Distinct(DagTasks.Ids(PlanDagTasks())) by {
      PlanDagIds();
    }
    DagTasks.RegisterDependencies(DagTasks.EmptyScheduler(n), PlanDagTasks());
  }

  lemma PlanSchedulerShape(n: int)
    ensures DagTasks.Valid(PlanScheduler(n)) && DagTasks.SimpleEdges(PlanScheduler(n))
    ensures PlanScheduler(n).tasks.Keys == {"frontend", "backend", "tests", "docs"}
    ensures DagTasks.Dependencies(PlanScheduler(n), "frontend") == {}
    ensures DagTasks.Dependencies(PlanScheduler(n), "backend") == {}
    ensures DagTasks.Dependencies(PlanScheduler(n), "tests") == {"frontend", "backend"}
    ensures DagTasks.Dependencies(PlanScheduler(n), "docs") == {"frontend", "backend", "tests"}
  {
    PlanSchedulerSimple(n);
    PlanSchedulerKeys(n);
    PlanFilters();
    PlanSchedulerDependency(n, 0);
    PlanSchedulerDependency(n, 1);
    PlanSchedulerDependency(n, 2);
    PlanSchedulerDependency(n, 3);
  }

  /**
   * The scheduler's Kahn levels for the plan are the orchestrator's three
   * hard-coded levels: the ad-hoc split agrees with the general algorithm.
   */
  lemma SchedulerAgreesWithLevelSplit(n: int)
    ensures DagTasks.Valid(PlanScheduler(n))
    ensures var levels := TopoLevels.TopologicalLevels(PlanScheduler(n));
      && |levels| == 3
      && Elements(levels[0]) == Elements(TaskIds(Level(Plan(), 0)))
      && Elements(levels[1]) == Elements(TaskIds(Level(Plan(), 1)))
      && Elements(levels[2]) == Elements(TaskIds(Level(Plan(), 2)))
  {
    PlanSchedulerLevels(n);
    PlanLevelIds();
  }

  lemma PlanLevelIds()
    ensures Elements(TaskIds(Level(Plan(), 0))) == {"frontend", "backend"}
    ensures Elements(TaskIds(Level(Plan(), 1))) == {"tests"}
    ensures Elements(TaskIds(Level(Plan(), 2))) == {"docs"}
  {
    PlanLevelIds0();
    PlanLevelIds1();
    PlanLevelIds2();
  }

  lemma PlanLevelIds0()
    ensures Elements(TaskIds(Level(Plan(), 0))) == {"frontend", "backend"}
  {
    PlanLevel0();
    TaskIdsPair(Frontend, Backend);
  }

  lemma PlanLevelIds1()
    ensures Elements(TaskIds(Level(Plan(), 1))) == {"tests"}
  {
    PlanLevel1();
    TaskIdsOne(Tests);
  }

  lemma PlanLevelIds2()
    ensures Elements(TaskIds(Level(Plan(), 2))) == {"docs"}
  {
    PlanLevel2();
    TaskIdsOne(Docs);
  }

  /** The scheduler's levels for the plan: {frontend, backend}, then {tests}, then {docs}. */
  lemma PlanSchedulerLevels(n: int)
    ensures DagTasks.Valid(PlanScheduler(n))
    ensures var levels := TopoLevels.TopologicalLevels(PlanScheduler(n));
      && |levels| == 3
      && Elements(levels[0]) == {"frontend", "backend"}
      && Elements(levels[1]) == {"tests"}
      && Elements(levels[2]) == {"docs"}
  {
    var s := PlanScheduler(n);
    PlanSchedulerSimple(n);
    var levels := TopoLevels.TopologicalLevels(s);
    assert PlanLike(s, levels) by {
      PlanSchedulerShape(n);
      TopoLevels.TopologicalLevelsExact(s);
    }
    PlanPlaced(s, levels);
    PlanOnly(s, levels);
  }

  /** The plan's graph as seen through the level theorems. */
  ghost predicate PlanLike(s: DagTasks.Scheduler, levels: seq<seq<string>>)
  {
    && TopoLevels.LevelsExact(s, levels)
    && s.tasks.Keys == {"frontend", "backend", "tests", "docs"}
    && DagTasks.Dependencies(s, "frontend") == {} && DagTasks.Dependencies(s, "backend") == {}
    && DagTasks.Dependencies(s, "tests") == {"frontend", "backend"}
    && DagTasks.Dependencies(s, "docs") == {"frontend", "backend", "tests"}
  }

  lemma PlanPlaced(s: DagTasks.Scheduler, levels: seq<seq<string>>)
    requires PlanLike(s, levels)
    ensures |levels| >= 3
    ensures "frontend" in levels[0] && "backend" in levels[0] && "tests" in levels[1] && "docs" in levels[2]
  {
    TopoLevels.LevelOfRoot(s, levels, "frontend");
    TopoLevels.LevelOfRoot(s, levels, "backend");
    FlattenMember(levels[..1], 0, "frontend");
    FlattenMember(levels[..1], 0, "backend");
    TopoLevels.LevelAfter(s, levels, "tests", 0, "frontend");
    assert "docs" in levels[2] by {
      FlattenMember(levels[..2], 0, "frontend");
      FlattenMember(levels[..2], 0, "backend");
      FlattenMember(levels[..2], 1, "tests");
      TopoLevels.LevelAfter(s, levels, "docs", 1, "tests");
    }
  }

  /** Each task of the plan sits in one level only, and there is no fourth level. */
  lemma PlanOnly(s: DagTasks.Scheduler, levels: seq<seq<string>>)
    requires PlanLike(s, levels)
    requires |levels| >= 3
    requires "frontend" in levels[0] && "backend" in levels[0] && "tests" in levels[1] && "docs" in levels[2]
    ensures |levels| == 3
    ensures Elements(levels[0]) == {"frontend", "backend"}
    ensures Elements(levels[1]) == {"tests"}
    ensures Elements(levels[2]) == {"docs"}
  {
    forall i, z | 0 <= i < |levels| && z in levels[i]
      ensures i == 0 ==> z == "frontend" || z == "backend"
      ensures i == 1 ==> z == "tests"
      ensures i == 2 ==> z == "docs"
      ensures i < 3
    {
      FlattenMember(levels, i, z);
      var home := if z == "frontend" || z == "backend" then 0 else if z == "tests" then 1 else 2;
      FlattenUnique(levels, i, home, z);
    }
    var last := |levels| - 1;
    assert levels[last][0] in levels[last];
  }
}

=== FILE: scenarios.dfy ===
/**
 * Concrete registrations taken from the repository's unit tests, with the
 * outcomes those tests check, derived from the general theorems.
 */
module Scenarios {
  import opened Wrappers
  import opened Collections
  import opened DagTasks
  import opened TopoLevels
  import opened CycleCheck
  import opened SchedulerRun

  /** Diamond: A and B first, C and D on both, E on C and D. */
  function DiamondTasks(): seq<DagTask>
  {
    [NewTask("A", "A", []), NewTask("B", "B", []),
     NewTask("C", "C", ["A", "B"]), NewTask("D", "D", ["A", "B"]),
     NewTask("E", "E", ["C", "D"])]
  }

  /** The scheduler after registering the diamond, for any `max_parallel`. */
  function Diamond(maxParallel: int): Scheduler
  {
    Register(EmptyScheduler(maxParallel), DiamondTasks())
  }

  lemma DiamondIds()
    ensures Ids(DiamondTasks()) == ["A", "B", "C", "D", "E"]
    ensures Distinct(Ids(DiamondTasks()))
    ensures Elements(Ids(DiamondTasks())) == {"A", "B", "C", "D", "E"}
  {
  }

  lemma DiamondSimple(n: int)
    ensures Valid(Diamond(n)) && SimpleEdges(Diamond(n))
  {
    assert Valid(EmptyScheduler(n));
    assert FreshBatch(EmptyScheduler(n), DiamondTasks()) by {
      DiamondIds();
    }
    RegisterSimple(EmptyScheduler(n), DiamondTasks());
  }

  lemma DiamondKeys(n: int)
    ensures Diamond(n).tasks.Keys == {"A", "B", "C", "D", "E"}
  {
    assert Diamond(n).tasks.Keys == Elements(Ids(DiamondTasks())) by {
      assert FreshIds(EmptyScheduler(n), DiamondTasks()) by {
        DiamondIds();
      }
      RegisterShape(EmptyScheduler(n), DiamondTasks());
    }
    DiamondIds();
  }

  lemma DiamondDependency(n: int, i: int)
    requires 0 <= i < |DiamondTasks()|
    ensures Dependencies(Diamond(n), DiamondTasks()[i].id) == Elements(DiamondTasks()[i].dependsOn)
  {
    var ts := DiamondTasks();
    assert Distinct(Ids(ts)) by {
      DiamondIds();
    }
    RegisterDependencies(EmptyScheduler(n), ts);
  }

  lemma DiamondTaskFacts()
    ensures |DiamondTasks()| == 5
    ensures DiamondTasks()[0].id == "A" && Elements(DiamondTasks()[0].dependsOn) == {}
    ensures DiamondTasks()[1].id == "B" && Elements(DiamondTasks()[1].dependsOn) == {}
    ensures DiamondTasks()[2].id == "C" && Elements(DiamondTasks()[2].dependsOn) == {"A", "B"}
    ensures DiamondTasks()[3].id == "D" && Elements(DiamondTasks()[3].dependsOn) == {"A", "B"}
    ensures DiamondTasks()[4].id == "E" && Elements(DiamondTasks()[4].dependsOn) == {"C", "D"}
  {
  }

  lemma DiamondDependencies(n: int)
    ensures Dependencies(Diamond(n), "A") == {} && Dependencies(Diamond(n), "B") == {}
    ensures Dependencies(Diamond(n), "C") == {"A", "B"} && Dependencies(Diamond(n), "D") == {"A", "B"}
    ensures Dependencies(Diamond(n), "E") == {"C", "D"}
  {
    DiamondTaskFacts();
    DiamondDependency(n, 0);
    DiamondDependency(n, 1);
    DiamondDependency(n, 2);
    DiamondDependency(n, 3);
    DiamondDependency(n, 4);
  }

  /** The levels the diamond test expects: {A, B}, then {C, D}, then exactly [E]. */
  lemma DiamondLevels(n: int)
    ensures Valid(Diamond(n))
    ensures var levels := TopologicalLevels(Diamond(n));
      && |levels| == 3
      && Elements(levels[0]) == {"A", "B"}
      && Elements(levels[1]) == {"C", "D"}
      && levels[2] == ["E"]
  {
    var s := Diamond(n);
    assert Valid(s) && SimpleEdges(s) by {
      DiamondSimple(n);
    }
    assert s.tasks.Keys == {"A", "B", "C", "D", "E"} by {
      DiamondKeys(n);
    }
    assert && Dependencies(s, "A") == {} && Dependencies(s, "B") == {}
           && Dependencies(s, "C") == {"A", "B"} && Dependencies(s, "D") == {"A", "B"}
           && Dependencies(s, "E") == {"C", "D"} by {
      DiamondDependencies(n);
    }
    DiamondShape(s);
  }

  /** Any registration with the diamond's tasks and dependencies gets the diamond's levels. */
  lemma DiamondShape(s: Scheduler)
    requires Valid(s) && SimpleEdges(s)
    requires s.tasks.Keys == {"A", "B", "C", "D", "E"}
    requires Dependencies(s, "A") == {} && Dependencies(s, "B") == {}
    requires Dependencies(s, "C") == {"A", "B"} && Dependencies(s, "D") == {"A", "B"}
    requires Dependencies(s, "E") == {"C", "D"}
    ensures var levels := TopologicalLevels(s);
      && |levels| == 3
      && Elements(levels[0]) == {"A", "B"}
      && Elements(levels[1]) == {"C", "D"}
      && levels[2] == ["E"]
  {
    var levels := TopologicalLevels(s);
    TopologicalLevelsExact(s);
    DiamondPlaced(s, levels);
    DiamondOnly(s, levels);
  }

  /** The diamond's shape as seen through the level theorems. */
  ghost predicate DiamondLike(s: Scheduler, levels: seq<seq<TaskId>>)
  {
    && LevelsExact(s, levels)
    && s.tasks.Keys == {"A", "B", "C", "D", "E"}
    && Dependencies(s, "A") == {} && Dependencies(s, "B") == {}
    && Dependencies(s, "C") == {"A", "B"} && Dependencies(s, "D") == {"A", "B"}
    && Dependencies(s, "E") == {"C", "D"}
  }

  lemma DiamondPlaced(s: Scheduler, levels: seq<seq<TaskId>>)
    requires DiamondLike(s, levels)
    ensures |levels| >= 3
    ensures "A" in levels[0] && "B" in levels[0] && "C" in levels[1] && "D" in levels[1] && "E" in levels[2]
  {
    LevelOfRoot(s, levels, "A");
    LevelOfRoot(s, levels, "B");
    DiamondMiddle(s, levels);
    assert "E" in levels[2] by {
      FlattenMember(levels[..2], 1, "C");
      FlattenMember(levels[..2], 1, "D");
      LevelAfter(s, levels, "E", 1, "C");
    }
  }

  lemma DiamondMiddle(s: Scheduler, levels: seq<seq<TaskId>>)
    requires DiamondLike(s, levels)
    requires |levels| > 0 && "A" in levels[0] && "B" in levels[0]
    ensures |levels| > 1 && "C" in levels[1] && "D" in levels[1]
  {
    FlattenMember(levels[..1], 0, "A");
    FlattenMember(levels[..1], 0, "B");
    LevelAfter(s, levels, "C", 0, "A");
    LevelAfter(s, levels, "D", 0, "A");
  }

  /** Each task of the diamond sits in one level only, and no fourth level exists. */
  lemma DiamondOnly(s: Scheduler, levels: seq<seq<TaskId>>)
    requires DiamondLike(s, levels)
    requires |levels| >= 3
    requires "A" in levels[0] && "B" in levels[0] && "C" in levels[1] && "D" in levels[1] && "E" in levels[2]
    ensures |levels| == 3
    ensures Elements(levels[0]) == {"A", "B"}
    ensures Elements(levels[1]) == {"C", "D"}
    ensures levels[2] == ["E"]
  {
    forall i, z | 0 <= i < |levels| && z in levels[i]
      ensures i == 0 ==> z == "A" || z == "B"
      ensures i == 1 ==> z == "C" || z == "D"
      ensures i == 2 ==> z == "E"
      ensures i < 3
    {
      FlattenMember(levels, i, z);
      var home := if z == "A" || z == "B" then 0 else if z == "C" || z == "D" then 1 else 2;
      FlattenUnique(levels, i, home, z);
    }
    var last := |levels| - 1;
    assert levels[last][0] in levels[last];
    FlattenPartDistinct(levels, 2);
    DistinctCardinality(levels[2]);
    assert Elements(levels[2]) == {"E"};
    assert levels[2][0] == "E";
  }

  // ---------------------------------------------------------------------
  // Cycles

  /** Registering a task that lists `x` adds the edge from `x` to it. */
  lemma ListingAddsEdge(s: Scheduler, t: DagTask, x: TaskId)
    requires x in t.dependsOn
    ensures Edge(AddTask(s, t), x, t.id)
  {
    AddTaskEdges(s, t);
    assert x in multiset(t.dependsOn);
    RepeatMember(t.id, multiset(t.dependsOn)[x], t.id);
  }

  /** Registration never removes an edge. */
  lemma RegistrationKeepsEdge(s: Scheduler, t: DagTask, x: TaskId, y: TaskId)
    requires Edge(s, x, y)
    ensures Edge(AddTask(s, t), x, y)
  {
    AddTaskEdges(s, t);
  }

  /** Two registered tasks that depend on each other form a cycle. */
  lemma TwoCycle(s: Scheduler, a: TaskId, b: TaskId)
    requires a in s.tasks && b in s.tasks && Edge(s, a, b) && Edge(s, b, a)
    ensures HasCycle(s)
  {
    assert IsCycle(s, [a, b]);
  }

  /** Three registered tasks linked round in a ring form a cycle. */
  lemma ThreeCycle(s: Scheduler, a: TaskId, b: TaskId, c: TaskId)
    requires a in s.tasks && b in s.tasks && c in s.tasks
    requires Edge(s, a, b) && Edge(s, b, c) && Edge(s, c, a)
    ensures HasCycle(s)
  {
    var p := [a, b, c];
    assert IsPath(s, p);
    assert IsCycle(s, p);
  }

  /** `a` listing `b` and then `b` listing `a`: the registrations of the two-node cycle test. */
  lemma MutualRegistrationCycles(s: Scheduler, a: DagTask, b: DagTask)
    requires Valid(s) && b.id in a.dependsOn && a.id in b.dependsOn
    ensures Valid(AddTask(AddTask(s, a), b)) && HasCycle(AddTask(AddTask(s, a), b))
  {
    var s1 := AddTask(s, a);
    var s2 := AddTask(s1, b);
    ListingAddsEdge(s, a, b.id);
    RegistrationKeepsEdge(s1, b, b.id, a.id);
    ListingAddsEdge(s1, b, a.id);
    TwoCycle(s2, a.id, b.id);
  }

  /** `a` listing `c`, `b` listing `a`, `c` listing `b`: the registrations of the three-node cycle test. */
  lemma RingRegistrationCycles(s: Scheduler, a: DagTask, b: DagTask, c: DagTask)
    requires Valid(s) && c.id in a.dependsOn && a.id in b.dependsOn && b.id in c.dependsOn
    ensures Valid(AddTask(AddTask(AddTask(s, a), b), c))
    ensures HasCycle(AddTask(AddTask(AddTask(s, a), b), c))
  {
    var s1 := AddTask(s, a);
    var s2 := AddTask(s1, b);
    var s3 := AddTask(s2, c);
    ListingAddsEdge(s, a, c.id);
    RegistrationKeepsEdge(s1, b, c.id, a.id);
    RegistrationKeepsEdge(s2, c, c.id, a.id);
    ListingAddsEdge(s1, b, a.id);
    RegistrationKeepsEdge(s2, c, a.id, b.id);
    ListingAddsEdge(s2, c, b.id);
    ThreeCycle(s3, a.id, b.id, c.id);
  }

  /** `run` on a cyclic graph: the validation fails and the run ends with the "Invalid DAG" error. */
  lemma CycleRejected(s: Scheduler, p: Policy, env: Env, failFast: bool)
    requires Valid(s) && HasCycle(s)
    ensures !ValidateDag(s) && Run(p, s, env, failFast) == Aborted(InvalidDag)
  {
    ValidateDagCorrect(s);
  }

  /** The registrations of the two-node cycle test: `a` on `b`, `b` on `a`. */
  const PairA: DagTask := NewTask("a", "a", ["b"])
  const PairB: DagTask := NewTask("b", "b", ["a"])

  function TwoNodeCycle(maxParallel: int): Scheduler
  {
    AddTask(AddTask(EmptyScheduler(maxParallel), PairA), PairB)
  }

  /** Whatever the tasks would do, `run` refuses the two-node cycle with its "Invalid DAG" error. */
  lemma TwoNodeCycleRejected(n: int, p: Policy, env: Env, failFast: bool)
    ensures Valid(TwoNodeCycle(n)) && !ValidateDag(TwoNodeCycle(n))
    ensures Run(p, TwoNodeCycle(n), env, failFast) == Aborted(InvalidDag)
  {
    var s0 := EmptyScheduler(n);
    assert Valid(s0);
    assert PairB.id in PairA.dependsOn && PairA.id in PairB.dependsOn;
    MutualRegistrationCycles(s0, PairA, PairB);
    CycleRejected(TwoNodeCycle(n), p, env, failFast);
  }

  /** The registrations of the three-node cycle test: `A` on `C`, `B` on `A`, `C` on `B`. */
  const RingA: DagTask := NewTask("A", "A", ["C"])
  const RingB: DagTask := NewTask("B", "B", ["A"])
  const RingC: DagTask := NewTask("C", "C", ["B"])

  function RingCycle(maxParallel: int): Scheduler
  {
    AddTask(AddTask(AddTask(EmptyScheduler(maxParallel), RingA), RingB), RingC)
  }

  /** Whatever the tasks would do, `run` refuses the three-node cycle. */
  lemma RingCycleRejected(n: int, p: Policy, env: Env, failFast: bool)
    ensures Valid(RingCycle(n)) && !ValidateDag(RingCycle(n))
    ensures Run(p, RingCycle(n), env, failFast) == Aborted(InvalidDag)
  {
    var s0 := EmptyScheduler(n);
    assert Valid(s0);
    assert RingC.id in RingA.dependsOn && RingA.id in RingB.dependsOn && RingB.id in RingC.dependsOn;
    RingRegistrationCycles(s0, RingA, RingB, RingC);
    CycleRejected(RingCycle(n), p, env, failFast);
  }
}

=== FILE: scheduler_run.dfy ===
/**
 * `DAGScheduler.run` and `_create_summary`: validate, compute the levels,
 * then for each level skip the tasks with a failed dependency, execute the
 * rest, record the failures, and stop at the first failure in fail-fast
 * mode.
 *
 * `asyncio.gather` runs the tasks of one level concurrently under a
 * semaphore; each execution only touches its own task, so running them
 * one after another in level order gives the same final state.
 */
module SchedulerRun {
  import opened Wrappers
  import opened Collections
  import opened DagTasks
  import opened CycleCheck
  import opened TopoLevels
  import opened TaskExecution

  /**
   * Which behaviour of `run` is modelled: the code as written executes each
   * task once and skips only the direct dependents of a failed task; the
   * corrected one retries a task until it completes or fails for good and
   * also skips the dependents of a skipped task.
   */
  datatype Policy = Policy(retryInRun: bool, skipTransitive: bool)

  const AsWritten: Policy := Policy(false, false)
  const Corrected: Policy := Policy(true, true)

  /** The outside world: what each task's callable does on attempt `n`, and the clock reading for that attempt's backoff. */
  datatype Env = Env(behave: TaskId -> nat -> Behaviour, clock: TaskId -> nat -> real)

  /** What one execution of a task in a level does to it. */
  function RunAttempt(p: Policy, t: DagTask, env: Env): (r: Attempt)
    ensures r.task.id == t.id && r.task.dependsOn == t.dependsOn && r.task.name == t.name
    ensures r.success <==> r.task.status == Completed
    ensures p.retryInRun ==> r.task.status in {Completed, Failed}
  {
    if p.retryInRun then ExecuteWithRetries(t, env.behave(t.id), env.clock(t.id))
    else ExecuteTask(t, env.behave(t.id)(t.retryCount), env.clock(t.id)(t.retryCount))
  }

  /** The state `run` keeps: the tasks, `failed_tasks`, `skipped_tasks`, the executions so far in order, and whether fail-fast stopped the run. */
  datatype RunState = RunState(
    tasks: map<TaskId, DagTask>,
    failed: set<TaskId>,
    skipped: set<TaskId>,
    executed: seq<TaskId>,
    stopped: bool)

  /** The errors `run` raises: the invalid-DAG `ValueError`, and the `ValueError` of `asyncio.Semaphore` for a negative `max_parallel`. */
  datatype RunError = InvalidDag | NegativeSemaphore

  /** `any(dep in failed_tasks for dep in task.depends_on)`, extended to skipped dependencies under the corrected policy. */
  predicate Blocked(p: Policy, t: DagTask, failed: set<TaskId>, skipped: set<TaskId>)
  {
    exists d :: d in t.dependsOn && (d in failed || (p.skipTransitive && d in skipped))
  }

  /** The tasks of a level that are skipped. */
  function BlockedIn(p: Policy, tasks: map<TaskId, DagTask>, level: seq<TaskId>, failed: set<TaskId>, skipped: set<TaskId>): set<TaskId>
    requires forall y :: y in level ==> y in tasks
  {
    set y | y in level && Blocked(p, tasks[y], failed, skipped)
  }

  /** `tasks_to_run`: the tasks of a level that are not skipped, in level order. */
  function Runnable(p: Policy, tasks: map<TaskId, DagTask>, level: seq<TaskId>, failed: set<TaskId>, skipped: set<TaskId>): (r: seq<TaskId>)
    requires forall y :: y in level ==> y in tasks
    ensures forall y :: y in r <==> y in level && !Blocked(p, tasks[y], failed, skipped)
    ensures IsSubsequence(r, level)
    ensures Distinct(level) ==> Distinct(r)
    ensures (forall y :: y in level ==> !Blocked(p, tasks[y], failed, skipped)) ==> r == level
  {
    if level == [] then []
    else
      var rest := Runnable(p, tasks, level[1..], failed, skipped);
      assert Distinct(level) ==> level[0] !in level[1..];
      assert level == [level[0]] + level[1..];
      if Blocked(p, tasks[level[0]], failed, skipped) then
        SubsequenceCons(rest, level[0], level[1..]);
        rest
      else [level[0]] + rest
  }

  /** Every task of `b` gets the skipped status. */
  function MarkSkipped(tasks: map<TaskId, DagTask>, b: set<TaskId>): (r: map<TaskId, DagTask>)
    ensures r.Keys == tasks.Keys
    ensures forall y :: y in tasks && y !in b ==> r[y] == tasks[y]
    ensures forall y :: y in tasks && y in b ==> r[y] == tasks[y].(status := Skipped)
  {
    map y | y in tasks :: if y in b then tasks[y].(status := Skipped) else tasks[y]
  }

  /** The `asyncio.gather` of a level: every task of `ids` executed once, with its success flag. */
  function ExecuteAll(p: Policy, tasks: map<TaskId, DagTask>, ids: seq<TaskId>, env: Env): (r: (map<TaskId, DagTask>, seq<bool>))
    requires forall y :: y in ids ==> y in tasks
    requires Distinct(ids)
    ensures r.0.Keys == tasks.Keys && |r.1| == |ids|
    ensures forall i :: 0 <= i < |ids| ==> r.1[i] == RunAttempt(p, tasks[ids[i]], env).success
    ensures forall y :: y in ids ==> r.0[y] == RunAttempt(p, tasks[y], env).task
    ensures forall y :: y in tasks && y !in ids ==> r.0[y] == tasks[y]
  {
    if ids == [] then (tasks, [])
    else
      var a := RunAttempt(p, tasks[ids[0]], env);
      assert ids[0] !in ids[1..] && Distinct(ids[1..]);
      var rest := ExecuteAll(p, tasks[ids[0] := a.task], ids[1..], env);
      ExecuteAllCons(p, tasks, ids, env, rest);
      (rest.0, [a.success] + rest.1)
  }

  /** The first task's attempt followed by the others' gives the whole level's results. */
  lemma ExecuteAllCons(p: Policy, tasks: map<TaskId, DagTask>, ids: seq<TaskId>, env: Env, rest: (map<TaskId, DagTask>, seq<bool>))
    requires ids != [] && Distinct(ids) && forall y :: y in ids ==> y in tasks
    requires var t := tasks[ids[0] := RunAttempt(p, tasks[ids[0]], env).task];
      && rest.0.Keys == t.Keys && |rest.1| == |ids| - 1
      && (forall i :: 0 <= i < |ids| - 1 ==> rest.1[i] == RunAttempt(p, t[ids[1..][i]], env).success)
      && (forall y :: y in ids[1..] ==> rest.0[y] == RunAttempt(p, t[y], env).task)
      && (forall y :: y in t && y !in ids[1..] ==> rest.0[y] == t[y])
    ensures var a := RunAttempt(p, tasks[ids[0]], env);
      var r := (rest.0, [a.success] + rest.1);
      && r.0.Keys == tasks.Keys && |r.1| == |ids|
      && (forall i :: 0 <= i < |ids| ==> r.1[i] == RunAttempt(p, tasks[ids[i]], env).success)
      && (forall y :: y in ids ==> r.0[y] == RunAttempt(p, tasks[y], env).task)
      && (forall y :: y in tasks && y !in ids ==> r.0[y] == tasks[y])
  {
    ConsResults(p, tasks, ids, env, rest.1);
    assert ids[0] !in ids[1..];
    assert forall y :: y in ids ==> y == ids[0] || y in ids[1..];
  }

  /** The first task's success flag, then those of the rest, run after it. */
  lemma ConsResults(p: Policy, tasks: map<TaskId, DagTask>, ids: seq<TaskId>, env: Env, rest: seq<bool>)
    requires ids != [] && Distinct(ids) && forall y :: y in ids ==> y in tasks
    requires var t := tasks[ids[0] := RunAttempt(p, tasks[ids[0]], env).task];
      && |rest| == |ids| - 1
      && forall i :: 0 <= i < |ids| - 1 ==> rest[i] == RunAttempt(p, t[ids[1..][i]], env).success
    ensures var r := [RunAttempt(p, tasks[ids[0]], env).success] + rest;
      forall i :: 0 <= i < |ids| ==> r[i] == RunAttempt(p, tasks[ids[i]], env).success
  {
    var r := [RunAttempt(p, tasks[ids[0]], env).success] + rest;
    forall i | 1 <= i < |ids|
      ensures r[i] == RunAttempt(p, tasks[ids[i]], env).success
    {
      assert ids[i] == ids[1..][i - 1] && ids[i] != ids[0];
      assert r[i] == rest[i - 1];
    }
  }

  /** The tasks whose result is a failure. */
  function FailedIds(ids: seq<TaskId>, results: seq<bool>): (r: set<TaskId>)
    requires |ids| == |results|
    ensures forall y :: y in r <==> exists i :: 0 <= i < |ids| && ids[i] == y && !results[i]
  {
    if ids == [] then {}
    else
      var rest := FailedIds(ids[1..], results[1..]);
      assert forall i :: 1 <= i < |ids| ==> ids[i] == ids[1..][i - 1] && results[i] == results[1..][i - 1];
      (if results[0] then {} else {ids[0]}) + rest
  }

  /** Index `k` holds the first failure of `results`. */
  predicate FirstFailure(results: seq<bool>, k: int)
  {
    0 <= k < |results| && !results[k] && forall j :: 0 <= j < k ==> results[j]
  }

  /**
   * The "track failures" loop: every failed task joins `failed_tasks`; in
   * fail-fast mode the loop returns at the first one, so later failures of
   * the same level are not recorded.
   */
  function TrackFailures(ids: seq<TaskId>, results: seq<bool>, failed: set<TaskId>, failFast: bool): (r: (set<TaskId>, bool))
    requires |ids| == |results|
    ensures !failFast ==> !r.1 && r.0 == failed + FailedIds(ids, results)
    ensures failFast ==> (r.1 <==> FailedIds(ids, results) != {})
    ensures failFast && !r.1 ==> r.0 == failed
    ensures failFast && r.1 ==> exists k :: FirstFailure(results, k) && r.0 == failed + {ids[k]}
  {
    if ids == [] then (failed, false)
    else if !results[0] && failFast then
      assert FirstFailure(results, 0);
      (failed + {ids[0]}, true)
    else
      var rest := TrackFailures(ids[1..], results[1..], if results[0] then failed else failed + {ids[0]}, failFast);
      if failFast && rest.1 then
        var k :| FirstFailure(results[1..], k) && rest.0 == failed + {ids[1..][k]};
        assert FirstFailure(results, k + 1);
        rest
      else
        rest
  }

  /** The tasks of a level that run and fail. */
  function LevelFailures(p: Policy, env: Env, st: RunState, level: seq<TaskId>): set<TaskId>
    requires forall y :: y in level ==> y in st.tasks
  {
    set y | y in level && !Blocked(p, st.tasks[y], st.failed, st.skipped) && !RunAttempt(p, st.tasks[y], env).success
  }

  /**
   * One level of `run`: the tasks with a failed dependency are skipped, the
   * others are executed together, and their failures recorded; in fail-fast
   * mode the first failure (in level order) stops the run, and only it is
   * recorded.
   */
  function RunLevel(p: Policy, env: Env, failFast: bool, st: RunState, level: seq<TaskId>): (r: RunState)
    requires forall y :: y in level ==> y in st.tasks
    requires Distinct(level)
    ensures r.tasks.Keys == st.tasks.Keys
    ensures r.skipped == st.skipped + BlockedIn(p, st.tasks, level, st.failed, st.skipped)
    ensures r.executed == st.executed + Runnable(p, st.tasks, level, st.failed, st.skipped)
    ensures forall y :: y in st.tasks && y !in level ==> r.tasks[y] == st.tasks[y]
    ensures forall y :: y in level && Blocked(p, st.tasks[y], st.failed, st.skipped) ==> r.tasks[y] == st.tasks[y].(status := Skipped)
    ensures forall y :: y in level && !Blocked(p, st.tasks[y], st.failed, st.skipped) ==> r.tasks[y] == RunAttempt(p, st.tasks[y], env).task
    ensures !failFast ==> !r.stopped && r.failed == st.failed + LevelFailures(p, env, st, level)
    ensures failFast && !r.stopped ==> r.failed == st.failed && LevelFailures(p, env, st, level) == {}
    ensures failFast && r.stopped ==> exists y :: y in LevelFailures(p, env, st, level) && r.failed == st.failed + {y}
  {
    var blocked := BlockedIn(p, st.tasks, level, st.failed, st.skipped);
    var toRun := Runnable(p, st.tasks, level, st.failed, st.skipped);
    var marked := MarkSkipped(st.tasks, blocked);
    if toRun == [] then
      assert LevelFailures(p, env, st, level) == {};
      st.(tasks := marked, skipped := st.skipped + blocked, stopped := false)
    else
      var ex := ExecuteAll(p, marked, toRun, env);
      var tr := TrackFailures(toRun, ex.1, st.failed, failFast);
      assert FailedIds(toRun, ex.1) == LevelFailures(p, env, st, level) by {
        LevelFailuresAre(p, env, st, level, marked, toRun, ex.1);
      }
      RunState(ex.0, tr.0, st.skipped + blocked, st.executed + toRun, tr.1)
  }

  lemma LevelFailuresAre(p: Policy, env: Env, st: RunState, level: seq<TaskId>, marked: map<TaskId, DagTask>, toRun: seq<TaskId>, results: seq<bool>)
    requires forall y :: y in level ==> y in st.tasks
    requires marked.Keys == st.tasks.Keys
    requires forall y :: y in toRun <==> y in level && !Blocked(p, st.tasks[y], st.failed, st.skipped)
    requires forall y :: y in toRun ==> marked[y] == st.tasks[y]
    requires |results| == |toRun|
    requires forall i :: 0 <= i < |toRun| ==> results[i] == RunAttempt(p, marked[toRun[i]], env).success
    ensures FailedIds(toRun, results) == LevelFailures(p, env, st, level)
  {
    forall y | y in LevelFailures(p, env, st, level)
      ensures y in FailedIds(toRun, results)
    {
      var i :| 0 <= i < |toRun| && toRun[i] == y;
      assert !results[i];
    }
  }

  /** The levels are usable by `run`: each one duplicate-free and made of known tasks. */
  ghost predicate LevelsOk(tasks: map<TaskId, DagTask>, levels: seq<seq<TaskId>>)
  {
    forall i :: 0 <= i < |levels| ==> Distinct(levels[i]) && forall y :: y in levels[i] ==> y in tasks
  }

  /** The level loop from level `k` on; fail-fast ends it early. */
  function RunLevels(p: Policy, env: Env, failFast: bool, levels: seq<seq<TaskId>>, k: nat, st: RunState): (r: RunState)
    requires k <= |levels| && LevelsOk(st.tasks, levels)
    ensures r.tasks.Keys == st.tasks.Keys
    decreases |levels| - k
  {
    if k == |levels| then st
    else
      var st1 := RunLevel(p, env, failFast, st, levels[k]);
      if st1.stopped then st1 else RunLevels(p, env, failFast, levels, k + 1, st1)
  }

  function InitialRun(s: Scheduler): RunState
  {
    RunState(s.tasks, {}, {}, [], false)
  }

  lemma WellFormedLevelsOk(s: Scheduler, levels: seq<seq<TaskId>>)
    requires WellFormed(s, levels)
    ensures LevelsOk(s.tasks, levels)
  {
    forall i | 0 <= i < |levels|
      ensures Distinct(levels[i]) && forall y :: y in levels[i] ==> y in s.tasks
    {
      FlattenPartDistinct(levels, i);
      forall y | y in levels[i]
        ensures y in s.tasks
      {
        FlattenMember(levels, i, y);
      }
    }
  }

  /**
   * The final state of the level loop of `run`, or the `ValueError` it
   * raises on a cyclic graph. Each `gather` is taken to admit its tasks,
   * which is what a positive `max_parallel` does; `Run` adds the other cases.
   */
  function RunTrace(p: Policy, s: Scheduler, env: Env, failFast: bool): (r: Result<RunState, RunError>)
    requires Valid(s)
  {
    if !ValidateDag(s) then Failure(InvalidDag)
    else
      var levels := TopologicalLevels(s);
      TopologicalLevelsWellFormed(s);
      WellFormedLevelsOk(s, levels);
      Success(RunLevels(p, env, failFast, levels, 0, InitialRun(s)))
  }

  // ---------------------------------------------------------------------
  // What holds after each level

  /** The levels hold registered tasks, none twice, and every dependency a task names is recorded. */
  ghost predicate Usable(s: Scheduler, levels: seq<seq<TaskId>>)
  {
    && WellFormed(s, levels)
    && (forall t, d :: t in s.tasks && d in s.tasks[t].dependsOn ==> d in Dependencies(s, t))
  }

  /** In addition, the levels list every dependency a task names in a level before the task's own. */
  ghost predicate Ordered(s: Scheduler, levels: seq<seq<TaskId>>)
  {
    Usable(s, levels) && DepsEarlier(s, levels)
  }

  /** The levels before `k` have been handled, each of their tasks executed or skipped, and no other task. */
  ghost predicate SetsInv(levels: seq<seq<TaskId>>, k: nat, st: RunState)
    requires k <= |levels|
  {
    && Distinct(st.executed)
    && (forall y :: y in st.executed ==> y !in st.skipped)
    && (forall y :: y in Placed(levels[..k]) <==> y in st.executed || y in st.skipped)
  }

  /** An executed task is the result of one execution, a skipped one only changed status, the others are untouched. */
  ghost predicate TasksInv(p: Policy, s: Scheduler, env: Env, st: RunState)
  {
    && st.tasks.Keys == s.tasks.Keys
    && (forall y :: y in st.tasks && y !in st.executed && y !in st.skipped ==> st.tasks[y] == s.tasks[y])
    && (forall y :: y in st.executed ==> y in s.tasks && st.tasks[y] == RunAttempt(p, s.tasks[y], env).task)
    && (forall y :: y in st.skipped ==> y in s.tasks && st.tasks[y] == s.tasks[y].(status := Skipped))
  }

  /** Skipped tasks have a failed dependency, judged by the current failure sets. */
  ghost predicate SkipInv(p: Policy, s: Scheduler, st: RunState)
  {
    forall y :: y in st.skipped ==> y in s.tasks && Blocked(p, s.tasks[y], st.failed, st.skipped)
  }

  /** Executed tasks have no failed dependency, judged by the current failure sets. */
  ghost predicate ExecInv(p: Policy, s: Scheduler, st: RunState)
  {
    forall y :: y in st.executed ==> y in s.tasks && !Blocked(p, s.tasks[y], st.failed, st.skipped)
  }

  /** Recorded failures are executions that failed; without fail-fast all of them are recorded. */
  ghost predicate FailureInv(p: Policy, s: Scheduler, env: Env, failFast: bool, st: RunState)
  {
    && (forall y :: y in st.failed ==> y in st.executed && y in s.tasks && !RunAttempt(p, s.tasks[y], env).success)
    && (!failFast ==> !st.stopped && forall y :: y in st.executed && y in s.tasks && !RunAttempt(p, s.tasks[y], env).success ==> y in st.failed)
    && (failFast ==> st.skipped == {} && |st.failed| <= 1 && (st.failed != {} ==> st.stopped))
  }

  /** Task `y` is registered and one execution of it completes. */
  ghost predicate Succeeds(p: Policy, s: Scheduler, env: Env, y: TaskId)
  {
    y in s.tasks && RunAttempt(p, s.tasks[y], env).success
  }

  /** `level[i]` is the first task of the level, in level order, whose execution fails. */
  ghost predicate FirstFailing(p: Policy, s: Scheduler, env: Env, level: seq<TaskId>, i: int)
  {
    && 0 <= i < |level| && level[i] in s.tasks && !RunAttempt(p, s.tasks[level[i]], env).success
    && forall j :: 0 <= j < i ==> Succeeds(p, s, env, level[j])
  }

  /** Fail-fast stopped in level `k`: every earlier task succeeded and `failed` holds just the first failure of level `k`. */
  ghost predicate StoppedAt(p: Policy, s: Scheduler, env: Env, levels: seq<seq<TaskId>>, k: nat, failed: set<TaskId>)
    requires k < |levels|
  {
    && (forall y :: y in Flatten(levels[..k]) ==> Succeeds(p, s, env, y))
    && exists i :: FirstFailing(p, s, env, levels[k], i) && failed == {levels[k][i]}
  }

  /** In fail-fast mode the levels before `k` were executed in full, and the run goes on exactly while every execution succeeded. */
  ghost predicate FailFastInv(p: Policy, s: Scheduler, env: Env, levels: seq<seq<TaskId>>, k: nat, st: RunState)
    requires k <= |levels|
  {
    && st.executed == Flatten(levels[..k])
    && (!st.stopped ==> st.failed == {} && forall y :: y in st.executed ==> Succeeds(p, s, env, y))
    && (st.stopped ==> 0 < k && StoppedAt(p, s, env, levels, k - 1, st.failed))
  }

  ghost predicate RunInv(p: Policy, s: Scheduler, env: Env, failFast: bool, levels: seq<seq<TaskId>>, k: nat, st: RunState)
    requires k <= |levels|
  {
    && SetsInv(levels, k, st) && TasksInv(p, s, env, st) && SkipInv(p, s, st) && FailureInv(p, s, env, failFast, st)
    && (failFast ==> FailFastInv(p, s, env, levels, k, st))
    && (DepsEarlier(s, levels) ==> ExecInv(p, s, st))
  }

  /** How level `k` relates to the levels before it. */
  lemma LevelFacts(s: Scheduler, levels: seq<seq<TaskId>>, k: nat)
    requires Usable(s, levels) && k < |levels|
    ensures Distinct(levels[k])
    ensures forall y :: y in Placed(levels[..k + 1]) <==> y in Placed(levels[..k]) || y in levels[k]
    ensures forall y :: y in levels[k] ==> y !in Placed(levels[..k]) && y in s.tasks
  {
    FlattenPartDistinct(levels, k);
    assert levels[..k + 1] == levels[..k] + [levels[k]];
    PlacedAppend(levels[..k], levels[k]);
    forall y | y in levels[k]
      ensures y !in Placed(levels[..k]) && y in s.tasks
    {
      FlattenMember(levels, k, y);
      if y in Placed(levels[..k]) {
        var j := FlattenMemberInverse(levels[..k], y);
        assert levels[..k][j] == levels[j];
        FlattenUnique(levels, j, k, y);
        assert false;
      }
    }
  }

  /** When each level comes after the dependencies of its tasks, no task handled so far depends on one of level `k`. */
  lemma LevelAfterDependencies(s: Scheduler, levels: seq<seq<TaskId>>, k: nat)
    requires Ordered(s, levels) && k < |levels|
    ensures forall y, d :: y in Placed(levels[..k + 1]) && y in s.tasks && d in s.tasks[y].dependsOn ==> d !in levels[k]
  {
    LevelFacts(s, levels, k);
    forall y, d | y in Placed(levels[..k + 1]) && y in s.tasks && d in s.tasks[y].dependsOn
      ensures d !in levels[k]
    {
      var i := FlattenMemberInverse(levels[..k + 1], y);
      assert levels[..k + 1][i] == levels[i];
      assert d in Placed(levels[..i]);
      PlacedPrefix(levels, i, k);
    }
  }

  /** Adding only tasks of a level nobody depends on leaves the skip decision unchanged. */
  lemma BlockedFrame(p: Policy, t: DagTask, failed: set<TaskId>, skipped: set<TaskId>, failed': set<TaskId>, skipped': set<TaskId>, level: seq<TaskId>)
    requires failed <= failed' && skipped <= skipped'
    requires forall y :: y in failed' - failed ==> y in level
    requires forall y :: y in skipped' - skipped ==> y in level
    requires forall d :: d in t.dependsOn ==> d !in level
    ensures Blocked(p, t, failed', skipped') == Blocked(p, t, failed, skipped)
  {
  }

  lemma StepSets(p: Policy, s: Scheduler, env: Env, failFast: bool, levels: seq<seq<TaskId>>, k: nat, st: RunState)
    requires Usable(s, levels) && k < |levels| && st.tasks.Keys == s.tasks.Keys
    requires LevelsOk(st.tasks, levels)
    requires SetsInv(levels, k, st)
    ensures SetsInv(levels, k + 1, RunLevel(p, env, failFast, st, levels[k]))
  {
    LevelFacts(s, levels, k);
    var r := RunLevel(p, env, failFast, st, levels[k]);
    var toRun := Runnable(p, st.tasks, levels[k], st.failed, st.skipped);
    var blocked := BlockedIn(p, st.tasks, levels[k], st.failed, st.skipped);
    SetsAdvance(levels, k, st, r, toRun, blocked);
  }

  /** Handling a level not yet seen, each of its tasks run or skipped, keeps the handled tasks equal to the placed ones. */
  lemma SetsAdvance(levels: seq<seq<TaskId>>, k: nat, st: RunState, r: RunState, toRun: seq<TaskId>, blocked: set<TaskId>)
    requires k < |levels| && SetsInv(levels, k, st)
    requires forall y :: y in Placed(levels[..k + 1]) <==> y in Placed(levels[..k]) || y in levels[k]
    requires forall y :: y in levels[k] ==> y !in Placed(levels[..k])
    requires r.executed == st.executed + toRun && r.skipped == st.skipped + blocked && Distinct(toRun)
    requires forall y :: y in toRun <==> y in levels[k] && y !in blocked
    requires forall y :: y in blocked ==> y in levels[k]
    ensures SetsInv(levels, k + 1, r)
  {
    DistinctConcat(st.executed, toRun);
  }

  lemma StepTasks(p: Policy, s: Scheduler, env: Env, failFast: bool, levels: seq<seq<TaskId>>, k: nat, st: RunState)
    requires Usable(s, levels) && k < |levels|
    requires LevelsOk(st.tasks, levels)
    requires SetsInv(levels, k, st) && TasksInv(p, s, env, st)
    ensures TasksInv(p, s, env, RunLevel(p, env, failFast, st, levels[k]))
  {
    LevelFacts(s, levels, k);
    LevelTasks(p, s, env, failFast, st, levels[k]);
  }

  /** A level of tasks not yet handled moves each of them to its executed or skipped form. */
  lemma LevelTasks(p: Policy, s: Scheduler, env: Env, failFast: bool, st: RunState, level: seq<TaskId>)
    requires Distinct(level) && TasksInv(p, s, env, st)
    requires forall y :: y in level ==> y in st.tasks && y !in st.executed && y !in st.skipped
    ensures TasksInv(p, s, env, RunLevel(p, env, failFast, st, level))
  {
    var r := RunLevel(p, env, failFast, st, level);
    forall y | y in r.executed
      ensures y in s.tasks && r.tasks[y] == RunAttempt(p, s.tasks[y], env).task
    {
      if y !in st.executed {
        assert y in Runnable(p, st.tasks, level, st.failed, st.skipped);
      }
    }
  }

  /** A level only adds its own tasks to the failure and skip sets. */
  lemma LevelAdditions(p: Policy, env: Env, failFast: bool, st: RunState, level: seq<TaskId>)
    requires forall y :: y in level ==> y in st.tasks
    requires Distinct(level)
    ensures var r := RunLevel(p, env, failFast, st, level);
      && st.failed <= r.failed && st.skipped <= r.skipped
      && (forall y :: y in r.failed - st.failed ==> y in level)
      && (forall y :: y in r.skipped - st.skipped ==> y in level)
  {
    var r := RunLevel(p, env, failFast, st, level);
    if failFast && r.stopped {
      var z :| z in LevelFailures(p, env, st, level) && r.failed == st.failed + {z};
    }
  }

  lemma StepSkipped(p: Policy, s: Scheduler, env: Env, failFast: bool, levels: seq<seq<TaskId>>, k: nat, st: RunState)
    requires Usable(s, levels) && k < |levels|
    requires LevelsOk(st.tasks, levels)
    requires SetsInv(levels, k, st) && TasksInv(p, s, env, st) && SkipInv(p, s, st)
    ensures SkipInv(p, s, RunLevel(p, env, failFast, st, levels[k]))
  {
    LevelFacts(s, levels, k);
    var level := levels[k];
    var r := RunLevel(p, env, failFast, st, level);
    LevelAdditions(p, env, failFast, st, level);
    forall y | y in r.skipped
      ensures y in s.tasks && Blocked(p, s.tasks[y], r.failed, r.skipped)
    {
      if y !in st.skipped {
        assert y in level && st.tasks[y] == s.tasks[y];
      }
    }
  }

  lemma StepExecuted(p: Policy, s: Scheduler, env: Env, failFast: bool, levels: seq<seq<TaskId>>, k: nat, st: RunState)
    requires Ordered(s, levels) && k < |levels|
    requires LevelsOk(st.tasks, levels)
    requires SetsInv(levels, k, st) && TasksInv(p, s, env, st) && ExecInv(p, s, st)
    ensures ExecInv(p, s, RunLevel(p, env, failFast, st, levels[k]))
  {
    LevelFacts(s, levels, k);
    LevelAfterDependencies(s, levels, k);
    var level := levels[k];
    var r := RunLevel(p, env, failFast, st, level);
    LevelAdditions(p, env, failFast, st, level);
    forall y | y in r.executed
      ensures y in s.tasks && !Blocked(p, s.tasks[y], r.failed, r.skipped)
    {
      if y !in st.executed {
        assert y in level && st.tasks[y] == s.tasks[y];
      }
      assert y in Placed(levels[..k + 1]);
      BlockedFrame(p, s.tasks[y], st.failed, st.skipped, r.failed, r.skipped, level);
    }
  }

  lemma StepFailures(p: Policy, s: Scheduler, env: Env, failFast: bool, levels: seq<seq<TaskId>>, k: nat, st: RunState)
    requires Usable(s, levels) && k < |levels| && !st.stopped
    requires LevelsOk(st.tasks, levels)
    requires SetsInv(levels, k, st) && TasksInv(p, s, env, st) && FailureInv(p, s, env, failFast, st)
    ensures FailureInv(p, s, env, failFast, RunLevel(p, env, failFast, st, levels[k]))
  {
    LevelFacts(s, levels, k);
    var level := levels[k];
    var r := RunLevel(p, env, failFast, st, level);
    assert forall y :: y in level ==> st.tasks[y] == s.tasks[y];
    if failFast {
      assert st.failed == {};
      assert BlockedIn(p, st.tasks, level, st.failed, st.skipped) == {};
    }
  }

  /** The success flag of one execution of each of `ids`, in order. */
  function Attempts(p: Policy, tasks: map<TaskId, DagTask>, ids: seq<TaskId>, env: Env): (r: seq<bool>)
    requires forall y :: y in ids ==> y in tasks
    ensures |r| == |ids|
    ensures forall i :: 0 <= i < |ids| ==> (r[i] <==> RunAttempt(p, tasks[ids[i]], env).success)
  {
    seq(|ids|, i requires 0 <= i < |ids| => RunAttempt(p, tasks[ids[i]], env).success)
  }

  /** Executing tasks that agree with `tasks` on `ids` gives the same results as `Attempts`. */
  lemma ExecuteAllAttempts(p: Policy, tasks: map<TaskId, DagTask>, marked: map<TaskId, DagTask>, ids: seq<TaskId>, env: Env)
    requires Distinct(ids)
    requires forall y :: y in ids ==> y in tasks && y in marked && marked[y] == tasks[y]
    ensures ExecuteAll(p, marked, ids, env).1 == Attempts(p, tasks, ids, env)
  {
    assert forall i :: 0 <= i < |ids| ==> ids[i] in ids;
  }

  /** In fail-fast mode a level that stops the run records the first of its executions, in `tasks_to_run` order, that failed. */
  lemma RunLevelFirstFailure(p: Policy, env: Env, st: RunState, level: seq<TaskId>) returns (i: int)
    requires forall y :: y in level ==> y in st.tasks
    requires Distinct(level)
    ensures var r := RunLevel(p, env, true, st, level);
      var toRun := Runnable(p, st.tasks, level, st.failed, st.skipped);
      r.stopped ==> FirstFailure(Attempts(p, st.tasks, toRun, env), i) && r.failed == st.failed + {toRun[i]}
  {
    i := 0;
    var blocked := BlockedIn(p, st.tasks, level, st.failed, st.skipped);
    var toRun := Runnable(p, st.tasks, level, st.failed, st.skipped);
    var marked := MarkSkipped(st.tasks, blocked);
    var r := RunLevel(p, env, true, st, level);
    if toRun != [] {
      var ex := ExecuteAll(p, marked, toRun, env);
      ExecuteAllAttempts(p, st.tasks, marked, toRun, env);
      var tr := TrackFailures(toRun, ex.1, st.failed, true);
      assert r.stopped == tr.1 && r.failed == tr.0;
      if tr.1 {
        i :| FirstFailure(ex.1, i) && tr.0 == st.failed + {toRun[i]};
      }
    }
  }

  /** The first failure among the level's attempts is its first failing task. */
  lemma FirstFailingTask(p: Policy, s: Scheduler, env: Env, tasks: map<TaskId, DagTask>, level: seq<TaskId>, i: int)
    requires forall y :: y in level ==> y in tasks && y in s.tasks && tasks[y] == s.tasks[y]
    requires FirstFailure(Attempts(p, tasks, level, env), i)
    ensures FirstFailing(p, s, env, level, i)
  {
    assert forall j :: 0 <= j < |level| ==> level[j] in level;
  }

  /** With nothing failed or skipped yet, a level runs in full. */
  lemma FailFastRunsLevel(p: Policy, env: Env, levels: seq<seq<TaskId>>, k: nat, st: RunState)
    requires k < |levels| && LevelsOk(st.tasks, levels)
    requires st.failed == {} && st.skipped == {} && st.executed == Flatten(levels[..k])
    ensures var r := RunLevel(p, env, true, st, levels[k]);
      r.executed == st.executed + levels[k] && r.executed == Flatten(levels[..k + 1])
  {
    assert Runnable(p, st.tasks, levels[k], st.failed, st.skipped) == levels[k];
    assert levels[..k + 1] == levels[..k] + [levels[k]];
    FlattenAppend(levels[..k], levels[k]);
  }

  /** With nothing failed or skipped yet, a level either stops at its first failing task or succeeds throughout. */
  lemma FailFastLevelOutcome(p: Policy, s: Scheduler, env: Env, st: RunState, level: seq<TaskId>) returns (i: int)
    requires Distinct(level)
    requires forall y :: y in level ==> y in st.tasks && y in s.tasks && st.tasks[y] == s.tasks[y]
    requires st.failed == {} && st.skipped == {}
    ensures var r := RunLevel(p, env, true, st, level);
      r.stopped ==> FirstFailing(p, s, env, level, i) && r.failed == {level[i]}
    ensures var r := RunLevel(p, env, true, st, level);
      !r.stopped ==> r.failed == {} && forall y :: y in level ==> Succeeds(p, s, env, y)
  {
    var r := RunLevel(p, env, true, st, level);
    NothingBlocked(p, st.tasks, level);
    i := RunLevelFirstFailure(p, env, st, level);
    if r.stopped {
      FirstFailingTask(p, s, env, st.tasks, level, i);
    } else {
      NoFailureSucceeds(p, s, env, st, level);
    }
  }

  /** With nothing failed or skipped, no task is blocked and the whole level runs. */
  lemma NothingBlocked(p: Policy, tasks: map<TaskId, DagTask>, level: seq<TaskId>)
    requires forall y :: y in level ==> y in tasks
    ensures Runnable(p, tasks, level, {}, {}) == level
  {
    assert forall y :: y in level ==> !Blocked(p, tasks[y], {}, {});
  }

  /** A level without failures, nothing failed or skipped before it, succeeds throughout. */
  lemma NoFailureSucceeds(p: Policy, s: Scheduler, env: Env, st: RunState, level: seq<TaskId>)
    requires forall y :: y in level ==> y in st.tasks && y in s.tasks && st.tasks[y] == s.tasks[y]
    requires st.failed == {} && st.skipped == {} && LevelFailures(p, env, st, level) == {}
    ensures forall y :: y in level ==> Succeeds(p, s, env, y)
  {
    forall y | y in level
      ensures Succeeds(p, s, env, y)
    {
      assert !Blocked(p, st.tasks[y], st.failed, st.skipped);
      assert y !in LevelFailures(p, env, st, level);
    }
  }

  lemma StepFailFast(p: Policy, s: Scheduler, env: Env, levels: seq<seq<TaskId>>, k: nat, st: RunState)
    requires Usable(s, levels) && k < |levels| && !st.stopped
    requires LevelsOk(st.tasks, levels)
    requires SetsInv(levels, k, st) && TasksInv(p, s, env, st) && FailureInv(p, s, env, true, st)
    requires FailFastInv(p, s, env, levels, k, st)
    ensures FailFastInv(p, s, env, levels, k + 1, RunLevel(p, env, true, st, levels[k]))
  {
    LevelFacts(s, levels, k);
    var level := levels[k];
    var r := RunLevel(p, env, true, st, level);
    assert forall y :: y in level ==> st.tasks[y] == s.tasks[y];
    FailFastRunsLevel(p, env, levels, k, st);
    var i := FailFastLevelOutcome(p, s, env, st, level);
    if r.stopped {
      assert StoppedAt(p, s, env, levels, k, r.failed);
    }
  }

  lemma RunLevelInv(p: Policy, s: Scheduler, env: Env, failFast: bool, levels: seq<seq<TaskId>>, k: nat, st: RunState)
    requires Usable(s, levels) && k < |levels| && !st.stopped
    requires LevelsOk(st.tasks, levels)
    requires RunInv(p, s, env, failFast, levels, k, st)
    ensures RunInv(p, s, env, failFast, levels, k + 1, RunLevel(p, env, failFast, st, levels[k]))
  {
    StepSets(p, s, env, failFast, levels, k, st);
    StepTasks(p, s, env, failFast, levels, k, st);
    StepSkipped(p, s, env, failFast, levels, k, st);
    StepFailures(p, s, env, failFast, levels, k, st);
    if failFast {
      StepFailFast(p, s, env, levels, k, st);
    }
    if DepsEarlier(s, levels) {
      StepExecuted(p, s, env, failFast, levels, k, st);
    }
  }

  lemma InitialRunInv(p: Policy, s: Scheduler, env: Env, failFast: bool, levels: seq<seq<TaskId>>)
    ensures RunInv(p, s, env, failFast, levels, 0, InitialRun(s))
  {
    assert levels[..0] == [];
  }

  /**
   * Induction over the level loop: a property of the run state that every
   * level keeps while the run goes on holds where the loop ends, and the
   * loop ends early only when a level stopped it.
   */
  lemma {:induction false} RunLevelsKeep(p: Policy, env: Env, failFast: bool, levels: seq<seq<TaskId>>, k: nat, st: RunState, inv: (nat, RunState) -> bool) returns (n: nat)
    requires k <= |levels| && LevelsOk(st.tasks, levels) && !st.stopped && inv(k, st)
    requires forall j: nat, t: RunState {:trigger RunLevel(p, env, failFast, t, levels[j])}
      | j < |levels| && LevelsOk(t.tasks, levels) && !t.stopped && inv(j, t) ::
      inv(j + 1, RunLevel(p, env, failFast, t, levels[j]))
    ensures k <= n <= |levels| && inv(n, RunLevels(p, env, failFast, levels, k, st))
    ensures n < |levels| ==> RunLevels(p, env, failFast, levels, k, st).stopped
    decreases |levels| - k
  {
    if k == |levels| {
      n := k;
    } else {
      var st1 := RunLevel(p, env, failFast, st, levels[k]);
      assert inv(k + 1, st1);
      if st1.stopped {
        n := k + 1;
      } else {
        n := RunLevelsKeep(p, env, failFast, levels, k + 1, st1, inv);
      }
    }
  }

  /**
   * On an acyclic graph `run` goes through the levels; `n` is the number of
   * levels it handled, all of them unless fail-fast stopped it.
   */
  lemma RunReachesLevel(p: Policy, s: Scheduler, env: Env, failFast: bool) returns (n: nat)
    requires Valid(s) && !HasCycle(s)
    ensures RunTrace(p, s, env, failFast).Success?
    ensures n <= |TopologicalLevels(s)| && Usable(s, TopologicalLevels(s))
    ensures SimpleEdges(s) ==> Ordered(s, TopologicalLevels(s))
    ensures RunInv(p, s, env, failFast, TopologicalLevels(s), n, RunTrace(p, s, env, failFast).value)
    ensures n < |TopologicalLevels(s)| ==> RunTrace(p, s, env, failFast).value.stopped
  {
    ValidateDagCorrect(s);
    var levels := TopologicalLevels(s);
    TopologicalLevelsWellFormed(s);
    if SimpleEdges(s) {
      TopologicalLevelsExact(s);
    }
    WellFormedLevelsOk(s, levels);
    InitialRunInv(p, s, env, failFast, levels);
    var inv := (j: nat, t: RunState) => j <= |levels| && RunInv(p, s, env, failFast, levels, j, t);
    forall j: nat, t: RunState | j < |levels| && LevelsOk(t.tasks, levels) && !t.stopped && inv(j, t)
      ensures inv(j + 1, RunLevel(p, env, failFast, t, levels[j]))
    {
      RunLevelInv(p, s, env, failFast, levels, j, t);
    }
    n := RunLevelsKeep(p, env, failFast, levels, 0, InitialRun(s), inv);
  }

  // ---------------------------------------------------------------------
  // What `run` guarantees

  /** `run` raises its `ValueError` exactly when the dependency graph has a cycle. */
  lemma RunRejectsExactlyCycles(p: Policy, s: Scheduler, env: Env, failFast: bool)
    requires Valid(s)
    ensures RunTrace(p, s, env, failFast).Failure? <==> HasCycle(s)
  {
    ValidateDagCorrect(s);
  }

  /**
   * Each task is executed at most once and never both executed and
   * skipped; an executed task ends as that one execution left it, a
   * skipped task only changes status, and every other task is untouched.
   */
  lemma RunExecutesOnce(p: Policy, s: Scheduler, env: Env, failFast: bool)
    requires Valid(s) && !HasCycle(s)
    ensures RunTrace(p, s, env, failFast).Success?
    ensures var r := RunTrace(p, s, env, failFast).value;
      && r.tasks.Keys == s.tasks.Keys
      && Distinct(r.executed)
      && (forall y :: y in r.executed ==> y !in r.skipped)
      && (forall y :: y in r.executed || y in r.skipped ==> y in s.tasks)
      && (forall y :: y in r.executed ==> r.tasks[y] == RunAttempt(p, s.tasks[y], env).task)
      && (forall y :: y in r.skipped ==> r.tasks[y] == s.tasks[y].(status := Skipped))
      && (forall y :: y in r.tasks && y !in r.executed && y !in r.skipped ==> r.tasks[y] == s.tasks[y])
  {
    var n := RunReachesLevel(p, s, env, failFast);
    var r := RunTrace(p, s, env, failFast).value;
    ExecutedOnce(p, s, env, TopologicalLevels(s), n, r);
  }

  lemma ExecutedOnce(p: Policy, s: Scheduler, env: Env, levels: seq<seq<TaskId>>, n: nat, r: RunState)
    requires n <= |levels| && SetsInv(levels, n, r) && TasksInv(p, s, env, r)
    ensures r.tasks.Keys == s.tasks.Keys
    ensures Distinct(r.executed)
    ensures forall y :: y in r.executed ==> y !in r.skipped
    ensures forall y :: y in r.executed || y in r.skipped ==> y in s.tasks
    ensures forall y :: y in r.executed ==> r.tasks[y] == RunAttempt(p, s.tasks[y], env).task
    ensures forall y :: y in r.skipped ==> r.tasks[y] == s.tasks[y].(status := Skipped)
    ensures forall y :: y in r.tasks && y !in r.executed && y !in r.skipped ==> r.tasks[y] == s.tasks[y]
  {
  }

  /**
   * A task is skipped only when a dependency it names has failed (under the
   * corrected policy, skipped dependencies count as failed), and a recorded
   * failure is an execution that failed. When no dependency list repeats an
   * entry, a task is also executed only when none of its dependencies
   * failed.
   */
  lemma RunSkipsExactlyBlocked(p: Policy, s: Scheduler, env: Env, failFast: bool)
    requires Valid(s) && !HasCycle(s)
    ensures RunTrace(p, s, env, failFast).Success?
    ensures var r := RunTrace(p, s, env, failFast).value;
      && (forall y :: y in r.skipped ==> y in s.tasks && Blocked(p, s.tasks[y], r.failed, r.skipped))
      && (forall y :: y in r.failed ==> y in r.executed && y in s.tasks && !RunAttempt(p, s.tasks[y], env).success)
    ensures var r := RunTrace(p, s, env, failFast).value;
      SimpleEdges(s) ==> forall y :: y in r.executed ==> y in s.tasks && !Blocked(p, s.tasks[y], r.failed, r.skipped)
  {
    var n := RunReachesLevel(p, s, env, failFast);
    BlockingFacts(p, s, env, failFast, TopologicalLevels(s), n, RunTrace(p, s, env, failFast).value);
  }

  lemma BlockingFacts(p: Policy, s: Scheduler, env: Env, failFast: bool, levels: seq<seq<TaskId>>, n: nat, r: RunState)
    requires n <= |levels| && RunInv(p, s, env, failFast, levels, n, r)
    ensures forall y :: y in r.skipped ==> y in s.tasks && Blocked(p, s.tasks[y], r.failed, r.skipped)
    ensures forall y :: y in r.failed ==> y in r.executed && y in s.tasks && !RunAttempt(p, s.tasks[y], env).success
    ensures DepsEarlier(s, levels) ==> forall y :: y in r.executed ==> y in s.tasks && !Blocked(p, s.tasks[y], r.failed, r.skipped)
  {
  }

  /**
   * Without fail-fast, on an acyclic graph, every scheduled task is either
   * executed or skipped, and the failure set is exactly the executions that
   * failed; when the dependencies are all registered and no dependency list
   * repeats an entry, that is every task.
   */
  lemma RunWithoutFailFastHandlesAll(p: Policy, s: Scheduler, env: Env)
    requires Valid(s) && !HasCycle(s)
    ensures RunTrace(p, s, env, false).Success?
    ensures var r := RunTrace(p, s, env, false).value;
      && (forall y :: y in Placed(TopologicalLevels(s)) <==> y in r.executed || y in r.skipped)
      && (forall y :: y in r.failed <==> y in r.executed && y in s.tasks && !RunAttempt(p, s.tasks[y], env).success)
    ensures var r := RunTrace(p, s, env, false).value;
      SimpleEdges(s) && DependenciesRegistered(s) ==> forall y :: y in s.tasks <==> y in r.executed || y in r.skipped
  {
    var n := RunReachesLevel(p, s, env, false);
    var levels := TopologicalLevels(s);
    HandledAll(p, s, env, levels, n, RunTrace(p, s, env, false).value);
    if SimpleEdges(s) && DependenciesRegistered(s) {
      SchedulesAllIffAcyclic(s);
    }
  }

  /**
   * A task naming a dependency that was never registered is never reached:
   * `run` neither executes nor skips it and it keeps its registered state
   * (still pending), so the summary counts it in no status list.
   */
  lemma RunLeavesUnregisteredDependencyPending(p: Policy, s: Scheduler, env: Env, failFast: bool, y: TaskId, x: TaskId)
    requires Valid(s) && SimpleEdges(s) && !HasCycle(s)
    requires y in s.tasks && x in s.tasks[y].dependsOn && x !in s.tasks
    ensures RunTrace(p, s, env, failFast).Success?
    ensures var r := RunTrace(p, s, env, failFast).value;
      y !in r.executed && y !in r.skipped && y in r.tasks && r.tasks[y] == s.tasks[y]
  {
    var n := RunReachesLevel(p, s, env, failFast);
    var levels := TopologicalLevels(s);
    UnregisteredDependencyBlocks(s, y, x);
    PlacedPrefix(levels, n, n);
    RunExecutesOnce(p, s, env, failFast);
  }

  lemma HandledAll(p: Policy, s: Scheduler, env: Env, levels: seq<seq<TaskId>>, n: nat, r: RunState)
    requires n <= |levels| && RunInv(p, s, env, false, levels, n, r)
    requires n < |levels| ==> r.stopped
    ensures forall y :: y in Placed(levels) <==> y in r.executed || y in r.skipped
    ensures forall y :: y in r.failed <==> y in r.executed && y in s.tasks && !RunAttempt(p, s.tasks[y], env).success
  {
    assert levels[..n] == levels;
  }

  /**
   * In fail-fast mode nothing is ever skipped and every task not executed
   * keeps its initial state. Either every execution succeeds and all the
   * scheduled levels run, or the run stops in some level `k`: the levels up
   * to `k` were executed in full, every earlier task succeeded, and the one
   * recorded failure is the first failing task of level `k` in level order.
   */
  lemma FailFastNeverSkips(p: Policy, s: Scheduler, env: Env)
    requires Valid(s) && !HasCycle(s)
    ensures RunTrace(p, s, env, true).Success?
    ensures var r := RunTrace(p, s, env, true).value;
      && r.skipped == {}
      && (forall y :: y in r.tasks && y !in r.executed ==> r.tasks[y] == s.tasks[y])
      && (r.failed == {} <==> !r.stopped)
    ensures var r := RunTrace(p, s, env, true).value;
      var levels := TopologicalLevels(s);
      !r.stopped ==> r.executed == Flatten(levels) && forall y :: y in r.executed ==> Succeeds(p, s, env, y)
    ensures var r := RunTrace(p, s, env, true).value;
      var levels := TopologicalLevels(s);
      r.stopped ==> exists k :: 0 <= k < |levels| && r.executed == Flatten(levels[..k + 1]) && StoppedAt(p, s, env, levels, k, r.failed)
  {
    var n := RunReachesLevel(p, s, env, true);
    FailFastFacts(p, s, env, TopologicalLevels(s), n, RunTrace(p, s, env, true).value);
  }

  lemma FailFastFacts(p: Policy, s: Scheduler, env: Env, levels: seq<seq<TaskId>>, n: nat, r: RunState)
    requires n <= |levels| && RunInv(p, s, env, true, levels, n, r)
    requires n < |levels| ==> r.stopped
    ensures r.skipped == {}
    ensures forall y :: y in r.tasks && y !in r.executed ==> r.tasks[y] == s.tasks[y]
    ensures r.failed == {} <==> !r.stopped
    ensures !r.stopped ==> r.executed == Flatten(levels) && forall y :: y in r.executed ==> Succeeds(p, s, env, y)
    ensures r.stopped ==> exists k :: 0 <= k < |levels| && r.executed == Flatten(levels[..k + 1]) && StoppedAt(p, s, env, levels, k, r.failed)
  {
    if r.stopped {
      var k := n - 1;
      assert r.executed == Flatten(levels[..k + 1]) && StoppedAt(p, s, env, levels, k, r.failed);
      var i :| FirstFailing(p, s, env, levels[k], i) && r.failed == {levels[k][i]};
      assert levels[k][i] in r.failed;
    } else {
      assert levels[..n] == levels;
    }
  }

  /** Every executed task's dependencies were executed and completed. */
  ghost predicate RanAfterDependencies(s: Scheduler, r: RunState)
  {
    && (forall y :: y in r.executed ==> y in s.tasks)
    && (forall y, d :: y in r.executed && y in s.tasks && d in s.tasks[y].dependsOn ==>
          d in r.executed && d in r.tasks && r.tasks[d].status == Completed)
  }

  /**
   * With skipped dependencies counted as failed and without fail-fast,
   * every executed task's dependencies were all executed and completed.
   */
  lemma TransitiveSkipRunsOnlyAfterCompletion(p: Policy, s: Scheduler, env: Env)
    requires p.skipTransitive
    requires Valid(s) && SimpleEdges(s) && !HasCycle(s)
    ensures RunTrace(p, s, env, false).Success?
    ensures RanAfterDependencies(s, RunTrace(p, s, env, false).value)
  {
    var n := RunReachesLevel(p, s, env, false);
    var levels := TopologicalLevels(s);
    var r := RunTrace(p, s, env, false).value;
    DependenciesCompleted(p, s, env, levels, n, r);
  }

  lemma DependenciesCompleted(p: Policy, s: Scheduler, env: Env, levels: seq<seq<TaskId>>, n: nat, r: RunState)
    requires p.skipTransitive && Ordered(s, levels)
    requires n <= |levels| && (n < |levels| ==> r.stopped)
    requires RunInv(p, s, env, false, levels, n, r)
    ensures RanAfterDependencies(s, r)
  {
    assert levels[..n] == levels;
    AllDependenciesCompleted(p, s, env, levels, r);
  }

  lemma AllDependenciesCompleted(p: Policy, s: Scheduler, env: Env, levels: seq<seq<TaskId>>, r: RunState)
    requires p.skipTransitive && Ordered(s, levels)
    requires forall z :: z in Placed(levels) <==> z in r.executed || z in r.skipped
    requires TasksInv(p, s, env, r) && SkipInv(p, s, r) && ExecInv(p, s, r) && FailureInv(p, s, env, false, r)
    ensures RanAfterDependencies(s, r)
  {
    forall y, d | y in r.executed && y in s.tasks && d in s.tasks[y].dependsOn
      ensures d in r.executed && d in r.tasks && r.tasks[d].status == Completed
    {
      DependencyCompleted(p, s, env, levels, r, y, d);
    }
  }

  lemma DependencyCompleted(p: Policy, s: Scheduler, env: Env, levels: seq<seq<TaskId>>, r: RunState, y: TaskId, d: TaskId)
    requires p.skipTransitive && Ordered(s, levels)
    requires forall z :: z in Placed(levels) <==> z in r.executed || z in r.skipped
    requires TasksInv(p, s, env, r) && SkipInv(p, s, r) && ExecInv(p, s, r) && FailureInv(p, s, env, false, r)
    requires y in r.executed && y in s.tasks && d in s.tasks[y].dependsOn
    ensures d in r.executed && d in r.tasks && r.tasks[d].status == Completed
  {
    assert y in Placed(levels);
    DependencyPlaced(s, levels, y, d);
    assert !Blocked(p, s.tasks[y], r.failed, r.skipped);
    assert d !in r.skipped && d !in r.failed;
    assert d in r.executed;
    assert RunAttempt(p, s.tasks[d], env).success;
  }

  /** A dependency of a placed task is placed. */
  lemma DependencyPlaced(s: Scheduler, levels: seq<seq<TaskId>>, y: TaskId, d: TaskId)
    requires Ordered(s, levels)
    requires y in Placed(levels) && y in s.tasks && d in s.tasks[y].dependsOn
    ensures d in Placed(levels)
  {
    var i := FlattenMemberInverse(levels, y);
    assert d in Dependencies(s, y);
    assert d in Placed(levels[..i]);
    PlacedPrefix(levels, i, |levels|);
    assert levels[..|levels|] == levels;
  }

  // ---------------------------------------------------------------------
  // The summary

  datatype Entry = Entry(id: TaskId, name: string)
  datatype FailedEntry = FailedEntry(id: TaskId, name: string, error: Option<TaskError>)

  /** The dictionary `_create_summary` returns. */
  datatype Summary = Summary(
    total: nat,
    completed: nat,
    failed: nat,
    skipped: nat,
    successRate: real,
    completedTasks: seq<Entry>,
    failedTasks: seq<FailedEntry>,
    skippedTasks: seq<Entry>)

  /** The tasks with a given status. */
  function StatusSet(tasks: map<TaskId, DagTask>, status: TaskStatus): set<TaskId>
  {
    set y | y in tasks && tasks[y].status == status
  }

  /** The tasks with a given status, in insertion order. */
  function WithStatus(tasks: map<TaskId, DagTask>, order: seq<TaskId>, status: TaskStatus): (r: seq<TaskId>)
    requires forall y :: y in order ==> y in tasks
    ensures forall y :: y in r <==> y in order && tasks[y].status == status
    ensures IsSubsequence(r, order)
    ensures Distinct(order) ==> Distinct(r)
  {
    if order == [] then []
    else
      var rest := WithStatus(tasks, order[1..], status);
      assert Distinct(order) ==> order[0] !in order[1..];
      assert order == [order[0]] + order[1..];
      if tasks[order[0]].status == status then [order[0]] + rest
      else
        SubsequenceCons(rest, order[0], order[1..]);
        rest
  }

  lemma CountByStatus(tasks: map<TaskId, DagTask>, order: seq<TaskId>, status: TaskStatus)
    requires Distinct(order) && forall y :: y in order <==> y in tasks
    ensures |WithStatus(tasks, order, status)| == |StatusSet(tasks, status)|
  {
    var w := WithStatus(tasks, order, status);
    DistinctCardinality(w);
    assert Elements(w) == StatusSet(tasks, status);
  }

  /** Three disjoint subsets of the tasks have at most as many members together as there are tasks. */
  lemma StatusCountsBounded(tasks: map<TaskId, DagTask>)
    ensures |StatusSet(tasks, Completed)| + |StatusSet(tasks, Failed)| + |StatusSet(tasks, Skipped)| <= |tasks|
  {
    var c, f, k := StatusSet(tasks, Completed), StatusSet(tasks, Failed), StatusSet(tasks, Skipped);
    assert c * f == {} && (c + f) * k == {};
    assert |c + f + k| == |c| + |f| + |k|;
    SubsetDifferenceCardinality(tasks.Keys, c + f + k);
  }

  /** The ids of a list of entries, in order. */
  function EntryIds(es: seq<Entry>): seq<TaskId>
  {
    seq(|es|, i requires 0 <= i < |es| => es[i].id)
  }

  /** The ids of a list of failed-task entries, in order. */
  function FailedEntryIds(es: seq<FailedEntry>): seq<TaskId>
  {
    seq(|es|, i requires 0 <= i < |es| => es[i].id)
  }

  /** `{"id": t.id, "name": t.name}` for each listed task. */
  function Entries(tasks: map<TaskId, DagTask>, ids: seq<TaskId>): (r: seq<Entry>)
    requires forall y :: y in ids ==> y in tasks
    ensures |r| == |ids|
    ensures forall i :: 0 <= i < |r| ==> r[i].id == ids[i] && r[i].name == tasks[ids[i]].name
    ensures EntryIds(r) == ids
  {
    seq(|ids|, i requires 0 <= i < |ids| => Entry(ids[i], tasks[ids[i]].name))
  }

  /** The failed-task entries, which also carry the error. */
  function FailedEntries(tasks: map<TaskId, DagTask>, ids: seq<TaskId>): (r: seq<FailedEntry>)
    requires forall y :: y in ids ==> y in tasks
    ensures |r| == |ids|
    ensures forall i :: 0 <= i < |r| ==> r[i].id == ids[i] && r[i].name == tasks[ids[i]].name && r[i].error == tasks[ids[i]].error
    ensures FailedEntryIds(r) == ids
  {
    seq(|ids|, i requires 0 <= i < |ids| => FailedEntry(ids[i], tasks[ids[i]].name, tasks[ids[i]].error))
  }

  lemma EntriesOfStatus(tasks: map<TaskId, DagTask>, ids: seq<TaskId>, status: TaskStatus)
    requires forall y :: y in ids ==> y in tasks && tasks[y].status == status
    ensures var r := Entries(tasks, ids);
      forall i :: 0 <= i < |r| ==>
        var e := r[i]; e.id in tasks && tasks[e.id].status == status && e.name == tasks[e.id].name
  {
    assert forall i :: 0 <= i < |ids| ==> ids[i] in ids;
  }

  lemma FailedEntriesOfStatus(tasks: map<TaskId, DagTask>, ids: seq<TaskId>)
    requires forall y :: y in ids ==> y in tasks && tasks[y].status == Failed
    ensures var r := FailedEntries(tasks, ids);
      forall i :: 0 <= i < |r| ==>
        var e := r[i]; e.id in tasks && tasks[e.id].status == Failed && e.name == tasks[e.id].name && e.error == tasks[e.id].error
  {
    assert forall i :: 0 <= i < |ids| ==> ids[i] in ids;
  }

  /** `ids` names every task with `status` exactly once, in insertion order. */
  ghost predicate ListsStatus(ids: seq<TaskId>, tasks: map<TaskId, DagTask>, order: seq<TaskId>, status: TaskStatus)
  {
    Distinct(ids) && Elements(ids) == StatusSet(tasks, status) && IsSubsequence(ids, order)
  }

  lemma WithStatusLists(tasks: map<TaskId, DagTask>, order: seq<TaskId>, status: TaskStatus)
    requires Distinct(order) && forall y :: y in order <==> y in tasks
    ensures ListsStatus(WithStatus(tasks, order, status), tasks, order, status)
  {
    assert Elements(WithStatus(tasks, order, status)) == StatusSet(tasks, status);
  }

  /** `len(completed) / len(self.tasks) if self.tasks else 0`. */
  function SuccessRate(completed: nat, total: nat): (rate: real)
    requires completed <= total
    ensures total == 0 ==> rate == 0.0
    ensures total > 0 ==> rate == completed as real / total as real
    ensures 0.0 <= rate <= 1.0
    ensures rate == 1.0 <==> total > 0 && completed == total
  {
    if total == 0 then 0.0
    else
      assert completed as real <= total as real;
      completed as real / total as real
  }

  /**
   * `_create_summary`: the counts by status over all tasks, the success rate
   * (0 with no tasks), and the three lists in insertion order.
   */
  function CreateSummary(tasks: map<TaskId, DagTask>, order: seq<TaskId>): (r: Summary)
    requires Distinct(order) && forall y :: y in order <==> y in tasks
    ensures r.total == |tasks|
    ensures r.completed == |StatusSet(tasks, Completed)|
    ensures r.failed == |StatusSet(tasks, Failed)|
    ensures r.skipped == |StatusSet(tasks, Skipped)|
    ensures r.completed + r.failed + r.skipped <= r.total
    ensures r.total == 0 ==> r.successRate == 0.0
    ensures r.total > 0 ==> r.successRate == r.completed as real / r.total as real
    ensures 0.0 <= r.successRate <= 1.0
    ensures |r.completedTasks| == r.completed && |r.failedTasks| == r.failed && |r.skippedTasks| == r.skipped
    ensures forall i :: 0 <= i < |r.completedTasks| ==>
      var e := r.completedTasks[i]; e.id in tasks && tasks[e.id].status == Completed && e.name == tasks[e.id].name
    ensures forall i :: 0 <= i < |r.failedTasks| ==>
      var e := r.failedTasks[i]; e.id in tasks && tasks[e.id].status == Failed && e.name == tasks[e.id].name && e.error == tasks[e.id].error
    ensures forall i :: 0 <= i < |r.skippedTasks| ==>
      var e := r.skippedTasks[i]; e.id in tasks && tasks[e.id].status == Skipped && e.name == tasks[e.id].name
    ensures ListsStatus(EntryIds(r.completedTasks), tasks, order, Completed)
    ensures ListsStatus(FailedEntryIds(r.failedTasks), tasks, order, Failed)
    ensures ListsStatus(EntryIds(r.skippedTasks), tasks, order, Skipped)
  {
    var done := WithStatus(tasks, order, Completed);
    var bad := WithStatus(tasks, order, Failed);
    var skip := WithStatus(tasks, order, Skipped);
    CountByStatus(tasks, order, Completed);
    CountByStatus(tasks, order, Failed);
    CountByStatus(tasks, order, Skipped);
    StatusCountsBounded(tasks);
    EntriesOfStatus(tasks, done, Completed);
    FailedEntriesOfStatus(tasks, bad);
    EntriesOfStatus(tasks, skip, Skipped);
    WithStatusLists(tasks, order, Completed);
    WithStatusLists(tasks, order, Failed);
    WithStatusLists(tasks, order, Skipped);
    Summary(|tasks|, |done|, |bad|, |skip|, SuccessRate(|done|, |tasks|),
      Entries(tasks, done), FailedEntries(tasks, bad), Entries(tasks, skip))
  }

  /** How a call to `run` ends: it returns a summary, raises, or never returns. */
  datatype RunEnd = Done(summary: Summary) | Aborted(error: RunError) | NeverReturns

  /**
   * `run` on a valid scheduler. A cyclic graph is rejected first. Otherwise
   * the first level's `gather` is reached exactly when some task has no
   * dependency, and it is the first place a semaphore is built: a negative
   * `max_parallel` makes `asyncio.Semaphore` raise there, and 0 makes every
   * task wait on the semaphore forever. In every other case the level loop
   * runs to its end and the summary describes its final state.
   */
  function Run(p: Policy, s: Scheduler, env: Env, failFast: bool): (r: RunEnd)
    requires Valid(s)
    ensures r == Aborted(InvalidDag) <==> HasCycle(s)
    ensures r == Aborted(NegativeSemaphore) <==> !HasCycle(s) && HasRoot(s) && s.maxParallel < 0
    ensures r == NeverReturns <==> !HasCycle(s) && HasRoot(s) && s.maxParallel == 0
    ensures r.Done? <==> !HasCycle(s) && (!HasRoot(s) || s.maxParallel > 0)
    ensures r.Done? ==> r.summary.total == |s.tasks|
  {
    RunRejectsExactlyCycles(p, s, env, failFast);
    match RunTrace(p, s, env, failFast)
    case Failure(e) => Aborted(e)
    case Success(st) =>
      LevelsNonEmptyIffRoot(s);
      if TopologicalLevels(s) != [] && s.maxParallel < 0 then Aborted(NegativeSemaphore)
      else if TopologicalLevels(s) != [] && s.maxParallel == 0 then NeverReturns
      else
        RunTraceKeys(p, s, env, failFast);
        Done(CreateSummary(st.tasks, s.order))
  }

  /**
   * The first `gather` of a run on an acyclic graph with a root holds the
   * whole first level, which is exactly the tasks without dependencies: no
   * task has failed yet, so none is skipped, and no task has executed.
   */
  lemma FirstGatherHoldsRoots(p: Policy, s: Scheduler)
    requires Valid(s) && !HasCycle(s) && HasRoot(s)
    ensures var levels := TopologicalLevels(s);
      && levels != [] && (forall y :: y in levels[0] ==> y in s.tasks)
      && Runnable(p, s.tasks, levels[0], {}, {}) == levels[0]
      && forall y :: y in levels[0] <==> y in s.tasks && Dependencies(s, y) == {}
  {
    LevelsNonEmptyIffRoot(s);
    TopologicalLevelsWellFormed(s);
    var levels := TopologicalLevels(s);
    forall y | y in levels[0]
      ensures y in s.tasks
    {
      FlattenMember(levels, 0, y);
    }
    NothingBlocked(p, s.tasks, levels[0]);
  }

  lemma RunTraceKeys(p: Policy, s: Scheduler, env: Env, failFast: bool)
    requires Valid(s)
    ensures RunTrace(p, s, env, failFast).Success? ==> RunTrace(p, s, env, failFast).value.tasks.Keys == s.tasks.Keys
  {
  }

  /**
   * Under the corrected policy without fail-fast, on an acyclic graph whose
   * dependencies are all registered, `run` returns unless there is a task
   * and `max_parallel` admits none, and when it returns every task ended
   * completed, failed or skipped, so the summary's three counts add up to
   * the total.
   */
  lemma CorrectedSummaryAccountsForAll(s: Scheduler, env: Env)
    requires Valid(s) && SimpleEdges(s) && DependenciesRegistered(s) && !HasCycle(s)
    ensures Run(Corrected, s, env, false).Done? <==> s.maxParallel > 0 || s.tasks == map[]
    ensures var r := Run(Corrected, s, env, false);
      r.Done? ==> r.summary.completed + r.summary.failed + r.summary.skipped == r.summary.total
  {
    RunWithoutFailFastHandlesAll(Corrected, s, env);
    RunExecutesOnce(Corrected, s, env, false);
    var st := RunTrace(Corrected, s, env, false).value;
    AllSettled(st.tasks, Corrected, s, env, st);
    RootUnlessEmpty(s);
  }

  /** An acyclic graph with registered dependencies has a task without dependencies, unless it has no task. */
  lemma RootUnlessEmpty(s: Scheduler)
    requires Valid(s) && SimpleEdges(s) && DependenciesRegistered(s) && !HasCycle(s)
    ensures HasRoot(s) <==> s.tasks != map[]
  {
    SchedulesAllIffAcyclic(s);
    LevelsNonEmptyIffRoot(s);
    if s.tasks != map[] {
      var y :| y in s.tasks;
      assert y in Placed(TopologicalLevels(s));
    }
  }

  lemma AllSettled(tasks: map<TaskId, DagTask>, p: Policy, s: Scheduler, env: Env, st: RunState)
    requires p.retryInRun && tasks == st.tasks && tasks.Keys == s.tasks.Keys
    requires forall y :: y in s.tasks <==> y in st.executed || y in st.skipped
    requires forall y :: y in st.executed ==> y in s.tasks && tasks[y] == RunAttempt(p, s.tasks[y], env).task
    requires forall y :: y in st.skipped ==> y in s.tasks && tasks[y] == s.tasks[y].(status := Skipped)
    ensures |StatusSet(tasks, Completed)| + |StatusSet(tasks, Failed)| + |StatusSet(tasks, Skipped)| == |tasks|
  {
    forall y | y in tasks
      ensures tasks[y].status in {Completed, Failed, Skipped}
    {
      if y in st.executed {
        assert tasks[y] == RunAttempt(p, s.tasks[y], env).task;
      }
    }
    ThreeStatusesCount(tasks);
  }

  /** When every task is completed, failed or skipped, the three status sets partition the tasks. */
  lemma ThreeStatusesCount(tasks: map<TaskId, DagTask>)
    requires forall y :: y in tasks ==> tasks[y].status in {Completed, Failed, Skipped}
    ensures |StatusSet(tasks, Completed)| + |StatusSet(tasks, Failed)| + |StatusSet(tasks, Skipped)| == |tasks|
  {
    var c, f, k := StatusSet(tasks, Completed), StatusSet(tasks, Failed), StatusSet(tasks, Skipped);
    assert c * f == {} && (c + f) * k == {};
    assert c + f + k == tasks.Keys;
    assert |c + f + k| == |c| + |f| + |k|;
  }
}

=== FILE: task_execution.dfy ===
/**
 * `_execute_task` and `_calculate_backoff`: one attempt of a task, with the
 * retry bookkeeping and the exponential backoff with jitter.
 *
 * The task's callable is replaced by its observable behaviour on the
 * attempt (it returns after some duration, or it raises), and the clock
 * reading used for the jitter is a parameter.
 */
module TaskExecution {
  import opened Wrappers
  import opened DagTasks

  /** What the task's callable does on one attempt. */
  datatype Behaviour =
    | Returns(duration: real)
    | Throws(timeoutError: bool)   // `timeoutError`: the exception is an `asyncio.TimeoutError`

  /** `task.timeout and task.timeout > 0`: the call is wrapped in `wait_for`. */
  predicate TimeoutApplies(t: DagTask)
  {
    t.timeout.Some? && t.timeout.value > 0.0
  }

  /** The exception an attempt ends with, `None` when the call returns in time. */
  function Outcome(t: DagTask, b: Behaviour): (e: Option<TaskError>)
    ensures b.Throws? ==> e.Some?
    ensures b.Returns? && !TimeoutApplies(t) ==> e == None
    ensures e == Some(TimedOut) <==> (b.Throws? && b.timeoutError) || (b.Returns? && TimeoutApplies(t) && b.duration > t.timeout.value)
  {
    match b
    case Returns(d) => if TimeoutApplies(t) && d > t.timeout.value then Some(TimedOut) else None
    case Throws(isTimeout) => Some(if isTimeout then TimedOut else Raised)
  }

  function Pow2(n: nat): (p: nat)
    ensures p >= 1
  {
    if n == 0 then 1 else 2 * Pow2(n - 1)
  }

  lemma {:induction false} Pow2Monotone(a: nat, b: nat)
    requires a <= b
    ensures Pow2(a) <= Pow2(b)
    decreases b
  {
    if a < b {
      Pow2Monotone(a, b - 1);
    }
  }

  /** `time.time() % 1`: the fractional part of the clock reading (Python's `%` floors). */
  function Frac(now: real): (f: real)
    ensures 0.0 <= f < 1.0
  {
    now - now.Floor as real
  }

  function Min(a: real, b: real): real
  {
    if a <= b then a else b
  }

  /** `min(base_backoff * 2 ** attempt, max_backoff)`. */
  function CappedBackoff(t: DagTask, attempt: nat): (c: real)
    ensures c <= t.maxBackoff
  {
    Min(t.baseBackoff * Pow2(attempt) as real, t.maxBackoff)
  }

  /**
   * `_calculate_backoff`: the capped exponential delay plus a jitter of up to
   * ten percent of it, taken from the clock's fractional part.
   */
  function CalculateBackoff(t: DagTask, attempt: nat, now: real): (d: real)
    ensures var c := CappedBackoff(t, attempt);
      && (0.0 <= c ==> c <= d <= c * 1.1)
      && (0.0 < c ==> d < c * 1.1)
  {
    var c := CappedBackoff(t, attempt);
    var f := Frac(now);
    assert 0.0 <= c ==> 0.0 <= f * c <= c by {
      if 0.0 <= c {
        assert f * c <= 1.0 * c;
      }
    }
    assert 0.0 < c ==> f * c < c;
    c + f * 0.1 * c
  }

  /** With a non-negative base, a later attempt never gets a smaller capped delay. */
  lemma CappedBackoffMonotone(t: DagTask, a: nat, b: nat)
    requires 0.0 <= t.baseBackoff && a <= b
    ensures CappedBackoff(t, a) <= CappedBackoff(t, b)
  {
    Pow2Monotone(a, b);
    assert t.baseBackoff * Pow2(a) as real <= t.baseBackoff * Pow2(b) as real;
  }

  /**
   * Below the cap, the next attempt always waits longer, whatever the two
   * clock readings: doubling outgrows the ten-percent jitter.
   */
  lemma BackoffGrowsBelowCap(t: DagTask, a: nat, now1: real, now2: real)
    requires 0.0 < t.baseBackoff
    requires t.baseBackoff * Pow2(a + 1) as real <= t.maxBackoff
    ensures CalculateBackoff(t, a, now1) < CalculateBackoff(t, a + 1, now2)
  {
    var c := t.baseBackoff * Pow2(a) as real;
    assert Pow2(a + 1) == 2 * Pow2(a);
    assert t.baseBackoff * Pow2(a + 1) as real == 2.0 * c;
    assert CappedBackoff(t, a) == c;
    assert CappedBackoff(t, a + 1) == 2.0 * c;
  }

  /** The result of one attempt: the updated task, whether it succeeded, and the backoff slept before returning. */
  datatype Attempt = Attempt(task: DagTask, success: bool, delay: real)

  /**
   * `_execute_task`: run once; on success the task is completed; on either
   * exception the error is stored and the retry count goes up, and the task
   * goes back to pending after a backoff while the count is within
   * `max_retries`, or fails for good once it exceeds it.
   */
  function ExecuteTask(t: DagTask, b: Behaviour, now: real): (r: Attempt)
    ensures r.success <==> Outcome(t, b) == None
    ensures r.task.id == t.id && r.task.name == t.name && r.task.dependsOn == t.dependsOn
    ensures r.task.maxRetries == t.maxRetries && r.task.timeout == t.timeout
    ensures r.task.baseBackoff == t.baseBackoff && r.task.maxBackoff == t.maxBackoff
    ensures r.success ==> r.task.status == Completed && r.task.retryCount == t.retryCount && r.task.error == t.error
    ensures !r.success ==> r.task.retryCount == t.retryCount + 1 && r.task.error == Outcome(t, b)
    ensures r.task.status == Failed <==> !r.success && t.retryCount >= t.maxRetries
    ensures r.task.status == Pending <==> !r.success && t.retryCount < t.maxRetries
    ensures r.task.status in {Completed, Pending, Failed}
    ensures r.task.status != Pending ==> r.delay == 0.0
  {
    var running := t.(status := Running);
    match Outcome(t, b)
    case None => Attempt(running.(status := Completed), true, 0.0)
    case Some(e) =>
      var n := t.retryCount + 1;
      var failed := running.(error := Some(e), retryCount := n);
      if n <= t.maxRetries then
        Attempt(failed.(status := Pending), false, CalculateBackoff(t, n - 1, now))
      else
        Attempt(failed.(status := Failed), false, 0.0)
  }

  /** The task after `k` attempts that all fail, starting from `t`. */
  function FailRepeatedly(t: DagTask, b: Behaviour, now: real, k: nat): DagTask
    requires Outcome(t, b).Some?
  {
    if k == 0 then t
    else
      var prev := FailRepeatedly(t, b, now, k - 1);
      ExecuteTask(prev, b, now).task
  }

  /**
   * The retry budget: a fresh task whose attempts all fail is still pending
   * after each of its first `max_retries` attempts and fails for good on
   * attempt `max_retries + 1`.
   */
  lemma {:induction false} FailureBudget(t: DagTask, b: Behaviour, now: real, k: nat)
    requires t.retryCount == 0 && t.status == Pending && Outcome(t, b).Some?
    requires 1 <= k
    ensures var u := FailRepeatedly(t, b, now, k);
      && u.retryCount == k
      && (u.status == Pending <==> k <= t.maxRetries)
      && (u.status == Failed <==> k > t.maxRetries)
    decreases k
  {
    if k > 1 {
      FailureBudget(t, b, now, k - 1);
      FailRepeatedlyKeeps(t, b, now, k - 1);
    }
  }

  /** Repeated attempts keep the fields that decide the outcome. */
  lemma {:induction false} FailRepeatedlyKeeps(t: DagTask, b: Behaviour, now: real, k: nat)
    requires Outcome(t, b).Some?
    ensures var u := FailRepeatedly(t, b, now, k);
      && u.maxRetries == t.maxRetries && u.timeout == t.timeout
      && Outcome(u, b) == Outcome(t, b)
    decreases k
  {
    if k > 0 {
      FailRepeatedlyKeeps(t, b, now, k - 1);
    }
  }

  /**
   * The defaults (base 2 s, cap 60 s) give strictly growing delays for
   * attempts 0, 1 and 2 whatever the clock reads, the first at least the
   * base: the exponential-growth expectation of the repository's tests.
   */
  lemma DefaultBackoffGrows(id: TaskId, now0: real, now1: real, now2: real)
    ensures var t := NewTask(id, id, []);
      && 2.0 <= CalculateBackoff(t, 0, now0)
      && CalculateBackoff(t, 0, now0) < CalculateBackoff(t, 1, now1) < CalculateBackoff(t, 2, now2)
  {
    var t := NewTask(id, id, []);
    assert Pow2(1) == 2 && Pow2(2) == 4 && Pow2(3) == 8;
    BackoffGrowsBelowCap(t, 0, now0, now1);
    BackoffGrowsBelowCap(t, 1, now1, now2);
  }

  /**
   * A task with a 0.1 s timeout and no retries whose call would take 10 s
   * times out and fails for good on its first attempt.
   */
  lemma SlowTaskTimesOut(id: TaskId, now: real)
    ensures var t := NewTask(id, id, []).(timeout := Some(0.1), maxRetries := 0);
      var r := ExecuteTask(t, Returns(10.0), now);
      !r.success && r.task.status == Failed && r.task.error == Some(TimedOut) && r.task.retryCount == 1
  {
  }

  /** The larger of the task's current retry count and its `max_retries`: the last attempt number a retry loop reaches. */
  function LastAttempt(t: DagTask): nat
  {
    if t.maxRetries > t.retryCount then t.maxRetries else t.retryCount
  }

  /**
   * Attempts repeated until one succeeds or the task fails for good, attempt
   * number `i` behaving as `behave(i)` with the clock reading `clock(i)`.
   * This is the behaviour the repository's retry tests expect from a run.
   */
  function ExecuteWithRetries(t: DagTask, behave: nat -> Behaviour, clock: nat -> real): (r: Attempt)
    ensures r.task.id == t.id && r.task.dependsOn == t.dependsOn && r.task.name == t.name
    ensures r.task.status in {Completed, Failed}
    ensures r.success <==> r.task.status == Completed
    ensures t.retryCount <= r.task.retryCount
    ensures forall i :: t.retryCount <= i < r.task.retryCount ==> Outcome(t, behave(i)).Some?
    ensures r.success ==> r.task.retryCount <= LastAttempt(t) && Outcome(t, behave(r.task.retryCount)) == None
    ensures !r.success ==> r.task.retryCount == LastAttempt(t) + 1
    decreases t.maxRetries - t.retryCount
  {
    var a := ExecuteTask(t, behave(t.retryCount), clock(t.retryCount));
    if a.task.status == Pending then
      assert Outcome(a.task, behave(t.retryCount)) == Outcome(t, behave(t.retryCount));
      ExecuteWithRetries(a.task, behave, clock)
    else
      a
  }

  /**
   * The retry loop succeeds exactly when one of the attempts it is allowed,
   * numbers `retry_count` to `max(retry_count, max_retries)`, would succeed.
   */
  lemma RetriesSucceedIffSomeAttemptDoes(t: DagTask, behave: nat -> Behaviour, clock: nat -> real)
    ensures ExecuteWithRetries(t, behave, clock).success
        <==> exists i :: t.retryCount <= i <= LastAttempt(t) && Outcome(t, behave(i)) == None
  {
    var r := ExecuteWithRetries(t, behave, clock);
    if r.success {
      assert Outcome(t, behave(r.task.retryCount)) == None;
    }
  }
}

=== FILE: topo_levels.dfy ===
/**
 * `_topological_levels`: Kahn's algorithm, one level per round.
 *
 * The in-degree of a task starts as the number of dependencies recorded for
 * it; a round takes the whole queue as one level and, for every task in it,
 * decrements the in-degree of each entry of its dependents list, appending a
 * dependent to the queue of the next round when its in-degree reaches zero.
 */
module TopoLevels {
  import opened Wrappers
  import opened Collections
  import opened DagTasks

  /** The tasks whose in-degree is still positive. */
  function Positive(deg: map<TaskId, int>): set<TaskId>
  {
    set k | k in deg && deg[k] >= 1
  }

  /** The initial in-degree of every registered task. */
  function InitialDegrees(s: Scheduler): map<TaskId, int>
  {
    map t | t in s.tasks :: |Dependencies(s, t)|
  }

  /** The initial queue: the tasks of `order` whose in-degree is zero, in that order. */
  function ZeroDegree(order: seq<TaskId>, deg: map<TaskId, int>): (q: seq<TaskId>)
    requires forall t :: t in order ==> t in deg
    ensures forall t :: t in q <==> t in order && deg[t] == 0
    ensures Distinct(order) ==> Distinct(q)
  {
    if order == [] then []
    else
      var rest := ZeroDegree(order[1..], deg);
      if deg[order[0]] == 0 then [order[0]] + rest else rest
  }

  /**
   * The inner loop for one task: decrement the in-degree of every entry of
   * `dependents`, appending to `next` each one whose in-degree hits zero.
   */
  function Release(deg: map<TaskId, int>, dependents: seq<TaskId>, next: seq<TaskId>): (r: (map<TaskId, int>, seq<TaskId>))
    requires forall d :: d in dependents ==> d in deg
    ensures r.0.Keys == deg.Keys
    ensures forall k :: k in deg ==> r.0[k] == deg[k] - multiset(dependents)[k]
    ensures |next| <= |r.1| && r.1[..|next|] == next
    ensures Distinct(r.1[|next|..])
    ensures forall k :: k in r.1[|next|..] <==> k in deg && deg[k] >= 1 && r.0[k] <= 0
    decreases |dependents|
  {
    if dependents == [] then (deg, next)
    else
      var d := dependents[0];
      var deg1 := deg[d := deg[d] - 1];
      var next1 := if deg1[d] == 0 then next + [d] else next;
      var r := Release(deg1, dependents[1..], next1);
      ReleaseStep(deg, dependents, next, deg1, next1, r);
      r
  }

  lemma ReleaseStep(deg: map<TaskId, int>, dependents: seq<TaskId>, next: seq<TaskId>,
                    deg1: map<TaskId, int>, next1: seq<TaskId>, r: (map<TaskId, int>, seq<TaskId>))
    requires dependents != [] && forall d :: d in dependents ==> d in deg
    requires deg1 == deg[dependents[0] := deg[dependents[0]] - 1]
    requires next1 == if deg1[dependents[0]] == 0 then next + [dependents[0]] else next
    requires r.0.Keys == deg1.Keys
    requires forall k :: k in deg1 ==> r.0[k] == deg1[k] - multiset(dependents[1..])[k]
    requires |next1| <= |r.1| && r.1[..|next1|] == next1
    requires Distinct(r.1[|next1|..])
    requires forall k :: k in r.1[|next1|..] <==> k in deg1 && deg1[k] >= 1 && r.0[k] <= 0
    ensures forall k :: k in deg ==> r.0[k] == deg[k] - multiset(dependents)[k]
    ensures |next| <= |r.1| && r.1[..|next|] == next
    ensures Distinct(r.1[|next|..])
    ensures forall k :: k in r.1[|next|..] <==> k in deg && deg[k] >= 1 && r.0[k] <= 0
  {
    var d := dependents[0];
    assert dependents == [d] + dependents[1..];
    assert multiset(dependents) == multiset{d} + multiset(dependents[1..]);
    assert r.1[..|next1|][..|next|] == r.1[..|next|];
    ReleaseTail(deg, d, next, deg1, next1, r);
  }

  /** The tasks appended by one `Release`: `d` first if it reached zero, then the rest. */
  lemma ReleaseTail(deg: map<TaskId, int>, d: TaskId, next: seq<TaskId>,
                    deg1: map<TaskId, int>, next1: seq<TaskId>, r: (map<TaskId, int>, seq<TaskId>))
    requires d in deg && deg1 == deg[d := deg[d] - 1]
    requires next1 == if deg1[d] == 0 then next + [d] else next
    requires r.0.Keys == deg1.Keys
    requires forall k :: k in deg1 ==> r.0[k] <= deg1[k]
    requires |next1| <= |r.1| && r.1[..|next1|] == next1
    requires Distinct(r.1[|next1|..])
    requires forall k :: k in r.1[|next1|..] <==> k in deg1 && deg1[k] >= 1 && r.0[k] <= 0
    ensures Distinct(r.1[|next|..])
    ensures forall k :: k in r.1[|next|..] <==> k in deg && deg[k] >= 1 && r.0[k] <= 0
  {
    var tail, rest := r.1[|next|..], r.1[|next1|..];
    if deg1[d] == 0 {
      assert tail == [d] + rest;
      assert d !in rest;
      forall k ensures k in tail <==> k in deg && deg[k] >= 1 && r.0[k] <= 0
      {
        if k == d {
          assert tail[0] == d;
        }
      }
    } else {
      assert tail == rest;
    }
  }

  /** How many times `k` occurs in the dependents lists of the tasks of `layer`. */
  function Incoming(s: Scheduler, layer: seq<TaskId>, k: TaskId): nat
  {
    if layer == [] then 0
    else multiset(Dependents(s, layer[0]))[k] + Incoming(s, layer[1..], k)
  }

  /** The in-degree map covers exactly the registered tasks. */
  ghost predicate DegreesOk(s: Scheduler, deg: map<TaskId, int>)
  {
    Valid(s) && deg.Keys == s.tasks.Keys
  }

  /** The round that takes `layer` as one level: `Release` for each of its tasks in turn. */
  function ProcessLayer(s: Scheduler, deg: map<TaskId, int>, layer: seq<TaskId>, next: seq<TaskId>): (r: (map<TaskId, int>, seq<TaskId>))
    requires DegreesOk(s, deg)
    ensures r.0.Keys == deg.Keys
    ensures forall k :: k in deg ==> r.0[k] == deg[k] - Incoming(s, layer, k)
    ensures |next| <= |r.1| && r.1[..|next|] == next
    ensures Distinct(r.1[|next|..])
    ensures forall k :: k in r.1[|next|..] <==> k in deg && deg[k] >= 1 && r.0[k] <= 0
    decreases |layer|
  {
    if layer == [] then (deg, next)
    else
      var step := Release(deg, Dependents(s, layer[0]), next);
      var r := ProcessLayer(s, step.0, layer[1..], step.1);
      ProcessLayerStep(s, deg, layer, next, step, r);
      r
  }

  lemma ProcessLayerStep(s: Scheduler, deg: map<TaskId, int>, layer: seq<TaskId>, next: seq<TaskId>,
                         step: (map<TaskId, int>, seq<TaskId>), r: (map<TaskId, int>, seq<TaskId>))
    requires layer != [] && deg.Keys == step.0.Keys
    requires forall k :: k in deg ==> step.0[k] == deg[k] - multiset(Dependents(s, layer[0]))[k]
    requires |next| <= |step.1| && step.1[..|next|] == next
    requires Distinct(step.1[|next|..])
    requires forall k :: k in step.1[|next|..] <==> k in deg && deg[k] >= 1 && step.0[k] <= 0
    requires r.0.Keys == step.0.Keys
    requires forall k :: k in step.0 ==> r.0[k] == step.0[k] - Incoming(s, layer[1..], k)
    requires |step.1| <= |r.1| && r.1[..|step.1|] == step.1
    requires Distinct(r.1[|step.1|..])
    requires forall k :: k in r.1[|step.1|..] <==> k in step.0 && step.0[k] >= 1 && r.0[k] <= 0
    ensures forall k :: k in deg ==> r.0[k] == deg[k] - Incoming(s, layer, k)
    ensures |next| <= |r.1| && r.1[..|next|] == next
    ensures Distinct(r.1[|next|..])
    ensures forall k :: k in r.1[|next|..] <==> k in deg && deg[k] >= 1 && r.0[k] <= 0
  {
    var a, b := step.1[|next|..], r.1[|step.1|..];
    assert r.1[..|step.1|][..|next|] == r.1[..|next|];
    assert r.1[|next|..] == a + b;
    forall k | k in a ensures k !in b
    {
      assert step.0[k] <= 0;
    }
    DistinctConcat(a, b);
  }

  /**
   * The outer `while queue` loop: each non-empty queue becomes the next
   * level, and the tasks released while processing it form the next queue.
   */
  function Layers(s: Scheduler, deg: map<TaskId, int>, queue: seq<TaskId>, levels: seq<seq<TaskId>>): seq<seq<TaskId>>
    requires DegreesOk(s, deg)
    decreases |Positive(deg)| + |queue|
  {
    if queue == [] then levels
    else
      var step := ProcessLayer(s, deg, queue, []);
      PositiveShrinks(deg, step.0, step.1);
      Layers(s, step.0, step.1, levels + [queue])
  }

  /** The tasks released in a round leave the positive set, and nothing enters it. */
  lemma PositiveShrinks(deg: map<TaskId, int>, deg': map<TaskId, int>, next: seq<TaskId>)
    requires deg'.Keys == deg.Keys && forall k :: k in deg ==> deg'[k] <= deg[k]
    requires Distinct(next)
    requires forall k :: k in next <==> k in deg && deg[k] >= 1 && deg'[k] <= 0
    ensures |Positive(deg')| + |next| <= |Positive(deg)|
  {
    assert Positive(deg') + Elements(next) <= Positive(deg);
    assert Positive(deg') * Elements(next) == {};
    DistinctCardinality(next);
  }

  /** The levels `_topological_levels` returns. */
  function TopologicalLevels(s: Scheduler): seq<seq<TaskId>>
    requires Valid(s)
  {
    var deg := InitialDegrees(s);
    Layers(s, deg, ZeroDegree(s.order, deg), [])
  }

  /** The tasks placed in the levels so far. */
  function Placed(levels: seq<seq<TaskId>>): set<TaskId>
  {
    Elements(Flatten(levels))
  }

  /** What holds between rounds whatever the edges are. */
  ghost predicate RoundInv(s: Scheduler, deg: map<TaskId, int>, queue: seq<TaskId>, levels: seq<seq<TaskId>>)
  {
    && DegreesOk(s, deg)
    && Distinct(Flatten(levels) + queue)
    && (forall k :: k in Flatten(levels) + queue ==> k in s.tasks && deg[k] <= 0)
    && (forall i :: 0 <= i < |levels| ==> levels[i] != [])
  }

  /** The levels are non-empty, hold registered tasks only, and no task twice. */
  ghost predicate WellFormed(s: Scheduler, levels: seq<seq<TaskId>>)
  {
    && Distinct(Flatten(levels))
    && (forall k :: k in Flatten(levels) ==> k in s.tasks)
    && (forall i :: 0 <= i < |levels| ==> levels[i] != [])
  }

  lemma RoundInvStep(s: Scheduler, deg: map<TaskId, int>, queue: seq<TaskId>, levels: seq<seq<TaskId>>)
    requires RoundInv(s, deg, queue, levels) && queue != []
    ensures var step := ProcessLayer(s, deg, queue, []);
      RoundInv(s, step.0, step.1, levels + [queue])
  {
    var step := ProcessLayer(s, deg, queue, []);
    var done := Flatten(levels) + queue;
    assert step.1[0..] == step.1;
    FlattenAppend(levels, queue);
    forall k | k in done
      ensures k !in step.1
    {
      assert deg[k] <= 0;
    }
    DistinctConcat(done, step.1);
  }

  lemma {:induction false} LayersWellFormed(s: Scheduler, deg: map<TaskId, int>, queue: seq<TaskId>, levels: seq<seq<TaskId>>)
    requires RoundInv(s, deg, queue, levels)
    ensures WellFormed(s, Layers(s, deg, queue, levels))
    decreases |Positive(deg)| + |queue|
  {
    if queue == [] {
      assert Flatten(levels) + queue == Flatten(levels);
    } else {
      var step := ProcessLayer(s, deg, queue, []);
      PositiveShrinks(deg, step.0, step.1);
      RoundInvStep(s, deg, queue, levels);
      LayersWellFormed(s, step.0, step.1, levels + [queue]);
    }
  }

  /** The state before the first round. */
  lemma InitialRound(s: Scheduler)
    requires Valid(s)
    ensures var deg := InitialDegrees(s);
      RoundInv(s, deg, ZeroDegree(s.order, deg), [])
  {
    var deg := InitialDegrees(s);
    assert Flatten<TaskId>([]) + ZeroDegree(s.order, deg) == ZeroDegree(s.order, deg);
  }

  /**
   * Whatever was registered, every level is non-empty, every entry is a
   * registered task, and no task is placed twice.
   */
  lemma TopologicalLevelsWellFormed(s: Scheduler)
    requires Valid(s)
    ensures WellFormed(s, TopologicalLevels(s))
  {
    InitialRound(s);
    var deg := InitialDegrees(s);
    LayersWellFormed(s, deg, ZeroDegree(s.order, deg), []);
  }

  /** Some registered task has no dependency at all. */
  ghost predicate HasRoot(s: Scheduler)
  {
    exists y :: y in s.tasks && Dependencies(s, y) == {}
  }

  /** Later rounds only append: the levels so far stay, and a non-empty queue becomes the next level. */
  lemma {:induction false} LayersExtend(s: Scheduler, deg: map<TaskId, int>, queue: seq<TaskId>, levels: seq<seq<TaskId>>)
    requires DegreesOk(s, deg)
    ensures var r := Layers(s, deg, queue, levels);
      && |levels| <= |r| && r[..|levels|] == levels
      && (queue == [] ==> r == levels)
      && (queue != [] ==> |levels| < |r| && r[|levels|] == queue)
    decreases |Positive(deg)| + |queue|
  {
    if queue != [] {
      var step := ProcessLayer(s, deg, queue, []);
      PositiveShrinks(deg, step.0, step.1);
      LayersExtend(s, step.0, step.1, levels + [queue]);
      var r := Layers(s, step.0, step.1, levels + [queue]);
      assert Layers(s, deg, queue, levels) == r;
      PrefixThenNext(r, levels, queue);
    }
  }

  lemma PrefixThenNext(r: seq<seq<TaskId>>, levels: seq<seq<TaskId>>, queue: seq<TaskId>)
    requires |levels + [queue]| <= |r| && r[..|levels + [queue]|] == levels + [queue]
    ensures |levels| < |r| && r[..|levels|] == levels && r[|levels|] == queue
  {
    assert r[..|levels|] == (r[..|levels| + 1])[..|levels|];
    assert r[|levels|] == (r[..|levels| + 1])[|levels|];
  }

  /**
   * `_topological_levels` places at least one task exactly when some task
   * has no dependency, and then the first level is the initial queue.
   */
  lemma LevelsNonEmptyIffRoot(s: Scheduler)
    requires Valid(s)
    ensures TopologicalLevels(s) != [] <==> HasRoot(s)
    ensures TopologicalLevels(s) != [] ==> forall y :: y in TopologicalLevels(s)[0] <==> y in s.tasks && Dependencies(s, y) == {}
  {
    var deg := InitialDegrees(s);
    var q := ZeroDegree(s.order, deg);
    LayersExtend(s, deg, q, []);
    if HasRoot(s) {
      var y :| y in s.tasks && Dependencies(s, y) == {};
      assert y in q;
    }
    if q != [] {
      assert q[0] in s.tasks && |Dependencies(s, q[0])| == 0;
    }
  }

  /** Every dependency of a task of level `i` is placed in a level before `i`. */
  ghost predicate DepsEarlier(s: Scheduler, levels: seq<seq<TaskId>>)
  {
    forall i, y, x :: 0 <= i < |levels| && y in levels[i] && x in Dependencies(s, y) ==> x in Placed(levels[..i])
  }

  /** A task of level `i` could not have been placed any earlier. */
  ghost predicate Earliest(s: Scheduler, levels: seq<seq<TaskId>>)
  {
    forall i, y :: 0 <= i < |levels| && y in levels[i] ==>
      if i == 0 then Dependencies(s, y) == {} else !(Dependencies(s, y) <= Placed(levels[..i - 1]))
  }

  /** What holds between rounds when no dependents list repeats an entry. */
  ghost predicate Layered(s: Scheduler, deg: map<TaskId, int>, queue: seq<TaskId>, levels: seq<seq<TaskId>>)
  {
    && RoundInv(s, deg, queue, levels)
    && (forall y :: y in s.tasks ==> deg[y] == |Dependencies(s, y) - Placed(levels)|)
    && (forall y :: y in s.tasks ==> (y in Placed(levels) || y in queue <==> Dependencies(s, y) <= Placed(levels)))
    && DepsEarlier(s, levels)
    && Earliest(s, levels)
    && (forall y :: y in queue ==>
          if levels == [] then Dependencies(s, y) == {} else !(Dependencies(s, y) <= Placed(levels[..|levels| - 1])))
  }

  lemma PlacedAppend(levels: seq<seq<TaskId>>, queue: seq<TaskId>)
    ensures Placed(levels + [queue]) == Placed(levels) + Elements(queue)
    ensures (levels + [queue])[..|levels|] == levels
  {
    FlattenAppend(levels, queue);
  }

  lemma QueueFresh(levels: seq<seq<TaskId>>, queue: seq<TaskId>)
    requires Distinct(Flatten(levels) + queue)
    ensures Placed(levels) * Elements(queue) == {}
  {
    forall x | x in Flatten(levels)
      ensures x !in queue
    {
      DistinctConcatDisjoint(Flatten(levels), queue, x);
    }
  }

  /** The two views of the edges agree: `y` is a dependent of `x` exactly when `x` is a dependency of `y`. */
  ghost predicate Coupled(s: Scheduler)
  {
    forall x, y :: y in Dependents(s, x) <==> x in Dependencies(s, y)
  }

  /** With simple edges, a round removes from `y`'s in-degree one per dependency in the round. */
  lemma {:induction false} IncomingCount(s: Scheduler, layer: seq<TaskId>, y: TaskId)
    requires Coupled(s) && SimpleEdges(s) && Distinct(layer)
    ensures Incoming(s, layer, y) == |Dependencies(s, y) * Elements(layer)|
    decreases |layer|
  {
    if layer != [] {
      IncomingCount(s, layer[1..], y);
      HeadIncoming(s, layer[0], y);
      IntersectCons(Dependencies(s, y), layer);
    }
  }

  lemma HeadIncoming(s: Scheduler, x: TaskId, y: TaskId)
    requires Coupled(s) && SimpleEdges(s)
    ensures multiset(Dependents(s, x))[y] == |Dependencies(s, y) * {x}|
  {
    DistinctMultiplicity(Dependents(s, x), y);
    var d := Dependencies(s, y);
    if x in d {
      assert d * {x} == {x};
    } else {
      assert d * {x} == {};
    }
  }

  lemma IntersectCons(d: set<TaskId>, layer: seq<TaskId>)
    requires layer != [] && Distinct(layer)
    ensures |d * Elements(layer)| == |d * {layer[0]}| + |d * Elements(layer[1..])|
  {
    var x, rest := layer[0], layer[1..];
    assert Elements(layer) == {x} + Elements(rest) by {
      assert layer == [x] + rest;
    }
    assert x !in rest;
    var a, b := d * {x}, d * Elements(rest);
    assert d * Elements(layer) == a + b;
    assert a * b == {};
  }

  lemma StepDegrees(s: Scheduler, deg: map<TaskId, int>, queue: seq<TaskId>, levels: seq<seq<TaskId>>, y: TaskId)
    requires DegreesOk(s, deg) && SimpleEdges(s) && y in s.tasks
    requires Distinct(Flatten(levels) + queue)
    requires deg[y] == |Dependencies(s, y) - Placed(levels)|
    ensures ProcessLayer(s, deg, queue, []).0[y] == |Dependencies(s, y) - Placed(levels + [queue])|
  {
    var d, p, q := Dependencies(s, y), Placed(levels), Elements(queue);
    PlacedAppend(levels, queue);
    QueueFresh(levels, queue);
    DistinctSuffix(Flatten(levels), queue);
    IncomingCount(s, queue, y);
    DifferenceStep(d, p, q);
  }

  lemma DistinctSuffix(a: seq<TaskId>, b: seq<TaskId>)
    requires Distinct(a + b)
    ensures Distinct(b)
  {
    forall i, j | 0 <= i < j < |b|
      ensures b[i] != b[j]
    {
      assert (a + b)[|a| + i] == b[i] && (a + b)[|a| + j] == b[j];
    }
  }

  lemma DifferenceStep(d: set<TaskId>, p: set<TaskId>, q: set<TaskId>)
    requires p * q == {}
    ensures |d - (p + q)| == |d - p| - |d * q|
  {
    forall x | x in d * q
      ensures x in d - p
    {
      assert x !in p * q;
    }
    assert (d - p) - (d * q) == d - (p + q);
    SubsetDifferenceCardinality(d - p, d * q);
  }

  /** A task is released in a round exactly when the round completes its dependencies. */
  lemma StepMember(s: Scheduler, deg: map<TaskId, int>, queue: seq<TaskId>, levels: seq<seq<TaskId>>, y: TaskId)
    requires DegreesOk(s, deg) && SimpleEdges(s) && y in s.tasks
    requires Distinct(Flatten(levels) + queue)
    requires deg[y] == |Dependencies(s, y) - Placed(levels)|
    requires y in Placed(levels) || y in queue <==> Dependencies(s, y) <= Placed(levels)
    ensures var next := ProcessLayer(s, deg, queue, []).1;
      && (y in Placed(levels + [queue]) || y in next <==> Dependencies(s, y) <= Placed(levels + [queue]))
      && (y in next ==> !(Dependencies(s, y) <= Placed(levels)))
  {
    var step := ProcessLayer(s, deg, queue, []);
    var d, p, q := Dependencies(s, y), Placed(levels), Elements(queue);
    assert y in step.1 <==> deg[y] >= 1 && step.0[y] <= 0 by {
      assert step.1[0..] == step.1;
    }
    assert deg[y] >= 1 <==> !(d <= p) by {
      SubsetIffEmptyDifference(d, p);
    }
    assert step.0[y] <= 0 <==> d <= p + q by {
      StepDegrees(s, deg, queue, levels, y);
      PlacedAppend(levels, queue);
      SubsetIffEmptyDifference(d, p + q);
    }
    PlacedAppend(levels, queue);
  }

  lemma StepDepsEarlier(s: Scheduler, queue: seq<TaskId>, levels: seq<seq<TaskId>>)
    requires DepsEarlier(s, levels)
    requires forall y :: y in queue ==> Dependencies(s, y) <= Placed(levels)
    ensures DepsEarlier(s, levels + [queue])
  {
    var out := levels + [queue];
    PlacedAppend(levels, queue);
    forall i, y, x | 0 <= i < |out| && y in out[i] && x in Dependencies(s, y)
      ensures x in Placed(out[..i])
    {
      if i < |levels| {
        assert out[..i] == levels[..i] && out[i] == levels[i];
      }
    }
  }

  lemma StepEarliest(s: Scheduler, queue: seq<TaskId>, levels: seq<seq<TaskId>>)
    requires Earliest(s, levels)
    requires forall y :: y in queue ==>
      if levels == [] then Dependencies(s, y) == {} else !(Dependencies(s, y) <= Placed(levels[..|levels| - 1]))
    ensures Earliest(s, levels + [queue])
  {
    var out := levels + [queue];
    PlacedAppend(levels, queue);
    forall i, y | 0 <= i < |out| && y in out[i]
      ensures if i == 0 then Dependencies(s, y) == {} else !(Dependencies(s, y) <= Placed(out[..i - 1]))
    {
      if i < |levels| {
        assert out[i] == levels[i];
        if i > 0 {
          assert out[..i - 1] == levels[..i - 1];
        }
      } else if i > 0 {
        assert out[..i - 1] == levels[..|levels| - 1];
      }
    }
  }

  /** One round keeps `Layered`. */
  lemma LayeredStep(s: Scheduler, deg: map<TaskId, int>, queue: seq<TaskId>, levels: seq<seq<TaskId>>)
    requires Layered(s, deg, queue, levels) && SimpleEdges(s) && queue != []
    ensures var step := ProcessLayer(s, deg, queue, []);
      Layered(s, step.0, step.1, levels + [queue])
  {
    var step := ProcessLayer(s, deg, queue, []);
    var out := levels + [queue];
    RoundInvStep(s, deg, queue, levels);
    forall y | y in s.tasks
      ensures step.0[y] == |Dependencies(s, y) - Placed(out)|
      ensures y in Placed(out) || y in step.1 <==> Dependencies(s, y) <= Placed(out)
      ensures y in step.1 ==> !(Dependencies(s, y) <= Placed(levels))
    {
      StepDegrees(s, deg, queue, levels, y);
      StepMember(s, deg, queue, levels, y);
    }
    StepDepsEarlier(s, queue, levels);
    StepEarliest(s, queue, levels);
    PlacedAppend(levels, queue);
  }

  /** What the finished levels satisfy when no dependents list repeats an entry. */
  ghost predicate LevelsExact(s: Scheduler, levels: seq<seq<TaskId>>)
  {
    && WellFormed(s, levels)
    && (forall y :: y in s.tasks ==> (y in Placed(levels) <==> Dependencies(s, y) <= Placed(levels)))
    && DepsEarlier(s, levels)
    && Earliest(s, levels)
  }

  lemma {:induction false} LayersExact(s: Scheduler, deg: map<TaskId, int>, queue: seq<TaskId>, levels: seq<seq<TaskId>>)
    requires Layered(s, deg, queue, levels) && SimpleEdges(s)
    ensures LevelsExact(s, Layers(s, deg, queue, levels))
    decreases |Positive(deg)| + |queue|
  {
    LayersWellFormed(s, deg, queue, levels);
    if queue != [] {
      var step := ProcessLayer(s, deg, queue, []);
      PositiveShrinks(deg, step.0, step.1);
      LayeredStep(s, deg, queue, levels);
      LayersExact(s, step.0, step.1, levels + [queue]);
    }
  }

  lemma InitialLayered(s: Scheduler)
    requires Valid(s)
    ensures var deg := InitialDegrees(s);
      Layered(s, deg, ZeroDegree(s.order, deg), [])
  {
    InitialRound(s);
    var deg := InitialDegrees(s);
    assert Placed([]) == {};
    forall y | y in s.tasks
      ensures Dependencies(s, y) <= {} <==> |Dependencies(s, y)| == 0
    {
      SubsetIffEmptyDifference(Dependencies(s, y), {});
    }
  }

  /**
   * When no dependents list repeats an entry, the levels are exactly the
   * layering by longest dependency chain: a task is placed iff all its
   * dependencies are, each of them in an earlier level, and no task could
   * have been placed a level sooner.
   */
  lemma TopologicalLevelsExact(s: Scheduler)
    requires Valid(s) && SimpleEdges(s)
    ensures LevelsExact(s, TopologicalLevels(s))
  {
    InitialLayered(s);
    var deg := InitialDegrees(s);
    LayersExact(s, deg, ZeroDegree(s.order, deg), []);
  }

  /** Every task is placed in a later level than each of the tasks it names in `depends_on`. */
  lemma LevelsRespectDependencies(s: Scheduler)
    requires Valid(s) && SimpleEdges(s)
    ensures var levels := TopologicalLevels(s);
      forall i, j, y, x ::
        && 0 <= i < |levels| && 0 <= j < |levels| && y in levels[i] && x in levels[j]
        && y in s.tasks && x in s.tasks[y].dependsOn
        ==> j < i
  {
    var levels := TopologicalLevels(s);
    TopologicalLevelsExact(s);
    forall i, j, y, x |
      && 0 <= i < |levels| && 0 <= j < |levels| && y in levels[i] && x in levels[j]
      && y in s.tasks && x in s.tasks[y].dependsOn
      ensures j < i
    {
      DependencyLevelBefore(s, levels, i, j, y, x);
    }
  }

  lemma DependencyLevelBefore(s: Scheduler, levels: seq<seq<TaskId>>, i: int, j: int, y: TaskId, x: TaskId)
    requires Distinct(Flatten(levels)) && DepsEarlier(s, levels)
    requires 0 <= i < |levels| && 0 <= j < |levels| && y in levels[i] && x in levels[j]
    requires x in Dependencies(s, y)
    ensures j < i
  {
    assert x in Placed(levels[..i]);
    assert x in Flatten(levels[..i]);
    var k := FlattenMemberInverse(levels[..i], x);
    assert levels[..i][k] == levels[k];
    FlattenUnique(levels, j, k, x);
  }

  /** A task of a cycle lies in no level. */
  lemma {:induction false} CycleAbsent(s: Scheduler, levels: seq<seq<TaskId>>, p: seq<TaskId>, i: int)
    requires Valid(s) && LevelsExact(s, levels) && IsCycle(s, p) && 0 <= i < |levels|
    ensures forall k :: 0 <= k < |p| ==> p[k] !in levels[i]
    decreases i
  {
    forall k | 0 <= k < |p|
      ensures p[k] !in levels[i]
    {
      if p[k] in levels[i] {
        var b := if k == 0 then |p| - 1 else k - 1;
        assert Edge(s, p[b], p[k]);
        assert p[b] in Dependencies(s, p[k]);
        var j := FlattenMemberInverse(levels[..i], p[b]);
        assert levels[..i][j] == levels[j];
        CycleAbsent(s, levels, p, j);
        assert false;
      }
    }
  }

  /** No task on a dependency cycle is ever scheduled. */
  lemma CycleNeverScheduled(s: Scheduler)
    requires Valid(s) && SimpleEdges(s)
    ensures forall p, k :: IsCycle(s, p) && 0 <= k < |p| ==> p[k] !in Flatten(TopologicalLevels(s))
  {
    var levels := TopologicalLevels(s);
    TopologicalLevelsExact(s);
    forall p, k | IsCycle(s, p) && 0 <= k < |p|
      ensures p[k] !in Flatten(levels)
    {
      if p[k] in Flatten(levels) {
        var i := FlattenMemberInverse(levels, p[k]);
        CycleAbsent(s, levels, p, i);
        assert false;
      }
    }
  }

  /** A dependency of `z` that is not in `placed`, when there is one. */
  ghost function UnplacedDependency(s: Scheduler, placed: set<TaskId>, z: TaskId): (x: TaskId)
    ensures (exists d :: d in Dependencies(s, z) && d !in placed) ==> x in Dependencies(s, z) && x !in placed
  {
    if exists d :: d in Dependencies(s, z) && d !in placed then
      var d :| d in Dependencies(s, z) && d !in placed; d
    else z
  }

  /** The unscheduled tasks, when there are any and every dependency is registered, contain a cycle. */
  lemma UnplacedHasCycle(s: Scheduler, placed: set<TaskId>)
    requires Coupled(s) && DependenciesRegistered(s)
    requires forall y :: y in s.tasks ==> (y in placed <==> Dependencies(s, y) <= placed)
    requires placed <= s.tasks.Keys && placed != s.tasks.Keys
    ensures HasCycle(s)
  {
    var rest := s.tasks.Keys - placed;
    assert rest != {} by {
      var z :| z in s.tasks.Keys && z !in placed;
      assert z in rest;
    }
    var pred := z => UnplacedDependency(s, placed, z);
    forall z | z in rest
      ensures pred(z) in rest && Edge(s, pred(z), z)
    {
      UnplacedStep(s, placed, z);
    }
    BackwardClosedHasCycle(s, rest, pred);
  }

  /** An unscheduled task has an unscheduled registered dependency. */
  lemma UnplacedStep(s: Scheduler, placed: set<TaskId>, z: TaskId)
    requires Coupled(s) && DependenciesRegistered(s)
    requires z !in placed && !(Dependencies(s, z) <= placed)
    ensures var x := UnplacedDependency(s, placed, z);
      x in s.tasks && x !in placed && Edge(s, x, z)
  {
    SubsetWitness(Dependencies(s, z), placed);
  }

  lemma SubsetWitness(a: set<TaskId>, b: set<TaskId>)
    requires !(a <= b)
    ensures exists d :: d in a && d !in b
  {
  }

  /**
   * `_topological_levels` schedules every task exactly when the dependency
   * graph has no cycle and every dependency named is registered.
   */
  lemma SchedulesAllIffAcyclic(s: Scheduler)
    requires Valid(s) && SimpleEdges(s)
    ensures Placed(TopologicalLevels(s)) == s.tasks.Keys <==> !HasCycle(s) && DependenciesRegistered(s)
  {
    var levels := TopologicalLevels(s);
    TopologicalLevelsExact(s);
    CycleNeverScheduled(s);
    if !DependenciesRegistered(s) {
      var x, y :| x in Dependencies(s, y) && x !in s.tasks;
      assert y in Dependents(s, x);
      assert x !in Placed(levels);
      assert y in s.tasks.Keys && y !in Placed(levels);
    } else if HasCycle(s) {
      var p :| IsCycle(s, p);
      assert p[0] !in Flatten(levels);
      assert p[0] in s.tasks.Keys;
    } else if Placed(levels) != s.tasks.Keys {
      UnplacedHasCycle(s, Placed(levels));
    }
  }

  /** A task naming an unregistered dependency is never scheduled. */
  lemma UnregisteredDependencyBlocks(s: Scheduler, y: TaskId, x: TaskId)
    requires Valid(s) && SimpleEdges(s)
    requires y in s.tasks && x in s.tasks[y].dependsOn && x !in s.tasks
    ensures y !in Flatten(TopologicalLevels(s))
  {
    var levels := TopologicalLevels(s);
    TopologicalLevelsExact(s);
    assert x in Dependencies(s, y);
    assert x !in Placed(levels);
  }

  lemma PlacedPrefix(levels: seq<seq<TaskId>>, a: int, b: int)
    requires 0 <= a <= b <= |levels|
    ensures Placed(levels[..a]) <= Placed(levels[..b]) <= Placed(levels)
  {
    forall x | x in Flatten(levels[..a])
      ensures x in Flatten(levels[..b])
    {
      var k := FlattenMemberInverse(levels[..a], x);
      assert levels[..a][k] == levels[..b][k];
      FlattenMember(levels[..b], k, x);
    }
    forall x | x in Flatten(levels[..b])
      ensures x in Flatten(levels)
    {
      var k := FlattenMemberInverse(levels[..b], x);
      assert levels[..b][k] == levels[k];
      FlattenMember(levels, k, x);
    }
  }

  /** A registered task without dependencies lands in the first level. */
  lemma LevelOfRoot(s: Scheduler, levels: seq<seq<TaskId>>, y: TaskId)
    requires LevelsExact(s, levels)
    requires y in s.tasks && Dependencies(s, y) == {}
    ensures |levels| > 0 && y in levels[0]
  {
    assert y in Flatten(levels);
    var i := FlattenMemberInverse(levels, y);
  }

  /**
   * A task whose dependencies are all placed by level `k`, one of them
   * (`x`) in level `k` itself, lands in level `k + 1`.
   */
  lemma LevelAfter(s: Scheduler, levels: seq<seq<TaskId>>, y: TaskId, k: int, x: TaskId)
    requires Distinct(Flatten(levels)) && DepsEarlier(s, levels) && Earliest(s, levels)
    requires forall z :: z in s.tasks ==> (z in Placed(levels) <==> Dependencies(s, z) <= Placed(levels))
    requires y in s.tasks && 0 <= k < |levels| && x in Dependencies(s, y) && x in levels[k]
    requires Dependencies(s, y) <= Placed(levels[..k + 1])
    ensures k + 1 < |levels| && y in levels[k + 1]
  {
    ReadyPlaced(s, levels, y, k + 1);
    var i := FlattenMemberInverse(levels, y);
    DependencyLevelBefore(s, levels, i, k, y, x);
    NoLaterThanReady(s, levels, y, i, k + 1);
    assert i == k + 1;
  }

  /** A task whose dependencies are all placed is placed itself. */
  lemma ReadyPlaced(s: Scheduler, levels: seq<seq<TaskId>>, y: TaskId, m: int)
    requires forall z :: z in s.tasks ==> (z in Placed(levels) <==> Dependencies(s, z) <= Placed(levels))
    requires y in s.tasks && 0 <= m <= |levels| && Dependencies(s, y) <= Placed(levels[..m])
    ensures y in Placed(levels)
  {
    PlacedPrefix(levels, m, |levels|);
  }

  /** A task whose dependencies are all placed in the first `m` levels sits in one of the first `m + 1`. */
  lemma NoLaterThanReady(s: Scheduler, levels: seq<seq<TaskId>>, y: TaskId, i: int, m: int)
    requires Earliest(s, levels)
    requires 0 < i < |levels| && y in levels[i] && 0 <= m <= |levels|
    requires Dependencies(s, y) <= Placed(levels[..m])
    ensures i <= m
  {
    if i > m {
      assert !(Dependencies(s, y) <= Placed(levels[..i - 1]));
      PlacedPrefix(levels, m, i - 1);
    }
  }
}

=== FILE: wrappers.dfy ===
/** Small failure-carrying datatypes shared by the other modules. */
module Wrappers {

  /** A value that may be absent (Python's `None`). */
  datatype Option<+T> = None | Some(value: T)

  /** The outcome of an operation that either returns a value or raises. */
  datatype Result<+T, +E> = Success(value: T) | Failure(error: E)

  /** The elements of a sequence, as a set. */
  function Elements<T>(s: seq<T>): set<T>
  {
    set x | x in s
  }

  /** No element occurs twice. */
  predicate Distinct<T(==)>(s: seq<T>)
  {
    forall i, j :: 0 <= i < j < |s| ==> s[i] != s[j]
  }
}
